=== FILE: README.md ===
# Graphs: a Dafny model of the directed, weighted and undirected graph engine

This project models the core of a small Java graph library. It has four layers:

- `GraphNode`: one node, with its adjacency list and in/out-degree counters.
- `DirectedGraph`: a map from id to node. It provides mutations, a deep copy and the reverse graph, Kahn's topological sort and Kosaraju's strongly connected components.
- `WeightedGraph`: a directed graph with a `(from, to) -> weight` table. It provides Dijkstra, Bellman-Ford, negative-cycle detection, Johnson's all-pairs algorithm and weight queries.
- `UndirectedGraph`: symmetric adjacency with connect, disconnect and delete, breadth-first and depth-first search, hop distances, connected components, and spanning trees built from a parent map.

## How the model is laid out

The graph is an arena: `Store = map<int, Node>`. Each node's adjacency is a `seq<int>` of ids, and ids stand in for Java's reference identity of `GraphNode` objects. Every mutation is a pure function or method that returns a new store, wrapped in a `Result` wherever the Java code throws. That covers `GraphException`, and also the `NullPointerException` that a missing node or edge triggers.

The invariants are predicates:

- `Nodes.Valid`: every node's out-degree equals its list length, and its in-degree equals the number of list entries naming it.
- `Directed.DValid`: `Valid` plus no duplicate entries in a list.
- `Weighted.WValid`: `DValid`, and the weight table's keys are exactly the edge set.
- `Undirected.UValid`: closure, ids, out-degrees, and count symmetry. The number of times `b` is listed under `a` equals the number of times `a` is listed under `b`.

`INFINITY` and `MINUS_INFINITY` are the concrete finite values `Integer.MAX_VALUE / 10` and `Integer.MIN_VALUE / 10`, and they take part in the arithmetic like any other integer. Shortest-path facts are stated over walks (`Paths.IsPath`, `WeightedPaths.PathWeight`):

- `Dijkstra.ShortestCapped` says an estimate is the least walk weight, or `INFINITY` when no walk is lighter.
- `BellmanFord.Cheapest` says an estimate is the least of `start + walk weight` over all walks into the node, where every node starts at `INFINITY` and the source starts at 0.

HashMap iteration order is modelled by nondeterministic choice (`:|`). Results are compared as sets.

Files, one module each:

- `results.dfy`, `seqs.dfy`, `paths.dfy` and `weighted_paths.dfy` hold shared vocabulary: `Result`/`Option`, sequence helpers, walks and reachability, and walk weights.
- `graph_node.dfy` models `GraphNode`.
- `directed_graph.dfy`, `topo_sort.dfy` and `scc.dfy` model `DirectedGraph`.
- `weighted_graph.dfy`, `dijkstra.dfy`, `bellman_ford.dfy`, `path_queries.dfy` and `johnson.dfy` model `WeightedGraph`.
- `undirected_graph.dfy`, `bfs.dfy` and `dfs.dfy` model `UndirectedGraph`.
- `samples.dfy` builds the five-node graph of WeightedGraphTests and derives what five of its tests expect.

## Model

| member | source | states |
|---|---|---|
| Nodes.NewNode | GraphNode.java:11-16 | a fresh node has the given id, an empty list, out-degree equal to the list length, and in-degree 0 |
| Nodes.AddChild | GraphNode.java:50-54 | appends v to u's list (duplicates allowed), raises u's out-degree and v's in-degree by one, and leaves every other list and counter alone |
| Nodes.RemoveChild | GraphNode.java:56-61 | a present child loses exactly one occurrence (the first; multiset minus one v) and both counters drop by one; an absent child leaves the store unchanged |
| Nodes.IsChild | GraphNode.java:64-66 | true exactly when v occurs in u's list |
| Nodes.AddChildValid | GraphNode.java:50-54 | addChild keeps out-degree = list length and in-degree = number of entries naming the node, and adds one v to the multiset of targets |
| Nodes.RemoveChildValid | GraphNode.java:56-61 | removeChild keeps the same degree invariant and removes one v from the multiset of targets |
| Nodes.AddFreshNodeValid | GraphNode.java:11-16 | adding a fresh node to a valid store keeps it valid and adds no targets |
| Nodes.CopyStore | DirectedGraph.java:28-45 | the deep copy has the same ids and lists with recomputed counters, is valid, and equals the original when the original was valid |
| Directed.Edges | DirectedGraph.java:180-191 | (a, b) is an edge exactly when b is listed under node a |
| Directed.IsEdgeFromTo | DirectedGraph.java:142-146 | true exactly when (from, to) is an edge and to is a node |
| Directed.AddNode | DirectedGraph.java:82-87 | fails with DuplicateNode exactly on an existing id; otherwise adds an isolated node, keeps every other node and the edge set, and keeps DValid |
| Directed.ConnectFromTo | DirectedGraph.java:89-95 | succeeds exactly when both endpoints exist and the edge is new (an existing edge gives DuplicateEdge); adds exactly that edge, bumps out-degree(from) and in-degree(to), and keeps DValid |
| Directed.DisconnectFromTo | DirectedGraph.java:97-102 | succeeds exactly when the edge exists (else MissingEdge); removes that one entry, drops both counters by one, leaves the rest alone, and keeps DValid |
| Directed.DisconnectEdges | DirectedGraph.java:97-102 | on a valid store, disconnecting removes exactly that edge from the edge set |
| Directed.Disconnect | DirectedGraph.java:104-119 | an unknown node is an error; otherwise u's list becomes empty, u disappears from every other list, each former child's in-degree drops by one, and DValid holds |
| Directed.RemoveNode | DirectedGraph.java:104-124 | an unknown node is an error; otherwise u is gone, the edges are the old edges minus those touching u, and each neighbour's in- and out-degree drop by one per severed edge, with DValid kept |
| Directed.Copy | DirectedGraph.java:28-45 | copying a valid graph yields an equal graph |
| Directed.GetReverse | DirectedGraph.java:223-235 | the result is valid, has the same nodes, and has the edge (b, a) exactly when (a, b) is an original edge |
| Directed.ReverseTwice | DirectedGraph.java:223-235 | the reverse of the reverse has the original node set and edge set |
| Directed.IsBiDirectional | DirectedGraph.java:161-169 | true exactly when every edge has its opposite edge |
| TopoSort.TopologicalSort | DirectedGraph.java:243-266 | the order, when returned, lists every node once with every edge's tail before its head; no order (null) is returned exactly when the graph has a cycle |
| TopoSort.IsDAG | DirectedGraph.java:138-140 | true exactly when the graph has no cycle |
| TopoSort.OrderNoCycle | DirectedGraph.java:243-266 | a graph that has a topological order has no cycle |
| TopoSort.StuckHasCycle | DirectedGraph.java:251-265 | when Kahn's queue runs dry while nodes remain, each remaining node has a remaining parent, so the graph has a cycle |
| TopoSort.RankedAcyclic | UndirectedGraph.java:271-280 | a graph whose edges all increase a rank has no cycle |
| Scc.StronglyConnectedComponents | DirectedGraph.java:269-305 | the lists are non-empty and duplicate-free, cover every node, are pairwise disjoint, and two nodes share a list exactly when each reaches the other |
| Scc.SameSccReversed | DirectedGraph.java:269-275 | a graph and its reverse have the same strongly connected components |
| Scc.Dfs1 | DirectedGraph.java:322-331 | marks x and keeps the search invariant: visited is the pushed nodes plus the chain under search, every pushed node's children are visited, and whatever a pushed node reaches is pushed no later than some member of its component or is reachable from a node still under search |
| Scc.Dfs2 | DirectedGraph.java:333-342 | visits x and otherwise only nodes of comp, a node set holding x whose edges lead only into comp or into visited nodes (the caller passes x's component); appends each newly visited node to soc exactly once; no newly visited node is left with an unvisited child |
| Scc.Dfs1Order | DirectedGraph.java:284-290 | the finishing stack of the first pass on the reverse graph has Kosaraju's ordering property for the original graph |
| Weighted.Connect | WeightedGraph.java:71-84 | succeeds exactly when both endpoints exist and the edge is new (an existing weight entry gives DuplicateEdge); adds the edge and its weight together, so the weight keys still equal the edge set |
| Weighted.CheckEdge | WeightedGraph.java:375-379 | reports the first of: an unknown u, an unknown v, a missing edge; reports nothing exactly when the edge exists |
| Weighted.Disconnect | WeightedGraph.java:86-91 | succeeds exactly when checkEdge passes; removes the edge and its weight entry together |
| Weighted.ConnectDisconnect | WeightedGraph.java:71-91 | disconnecting a freshly connected edge gives back the original weighted graph |
| Weighted.SetWeight | WeightedGraph.java:93-96 | succeeds exactly when checkEdge passes; changes that edge's weight only and leaves adjacency and every other weight untouched |
| Weighted.WeightEdgeFromTo | WeightedGraph.java:297-300 | a missing node or edge is an error; otherwise returns the edge's weight |
| Weighted.RemoveNode | DirectedGraph.java:121-124 | removing a node from a weighted graph removes it, every incident edge, and every incident weight entry, keeping the table in lockstep |
| Weighted.PositiveWeights | WeightedGraph.java:278-284 | true exactly when no weight is negative (zero allowed) |
| Weighted.GetSortedEdges | WeightedGraph.java:381-385 | lists each weighted edge exactly once, in non-decreasing weight order |
| Weighted.SortByWeight | WeightedGraph.java:381-385 | insertion sort on weight: same elements, same length, sorted, and duplicate-free when the input was |
| Weighted.UniqueWeights | WeightedGraph.java:269-276 | true exactly when no two edges share a weight |
| Weighted.IsBiDirectional | WeightedGraph.java:314-324 | true exactly when every edge has an opposite edge of the same weight |
| Dijkstra.Dijkstras | WeightedGraph.java:104-154 | with non-negative weights, each node's estimate is the least weight of a walk from the source that never leaves the stop node (or INFINITY when no walk exists); the source gets 0; an unknown source is an error; the predecessors form shortest-walk edges |
| Dijkstra.StopAtTarget | WeightedGraph.java:136 | with non-negative weights, stopping at the target does not change the target's distance |
| Dijkstra.NonNegativeWalk | WeightedGraph.java:104-154 | with non-negative weights every walk weighs at least 0 |
| BellmanFord.BellmanFord | WeightedGraph.java:157-201 | after V-1 passes every estimate is offered by some walk; a node is marked MINUS_INFINITY only when an edge into it still relaxes; nothing is marked exactly when there is no negative cycle, and then every estimate is the least offer |
| BellmanFord.NoNegCycleCheapest | WeightedGraph.java:177-189 | once the passes have covered V-1 edges and there is no negative cycle, every estimate is the least offer |
| BellmanFord.NoNegCycleTight | WeightedGraph.java:191-199 | with no negative cycle no edge relaxes after the passes, so the marking pass marks nothing |
| BellmanFord.NegCycleLoose | WeightedGraph.java:191-199 | with a negative cycle some edge always still relaxes, so the marking pass marks something |
| BellmanFord.TightWalk | WeightedGraph.java:191-199 | when no edge relaxes, the estimates obey the triangle inequality along every walk |
| WeightedPaths.CutCycle | WeightedGraph.java:177-189 | cutting a closed stretch out of a walk lowers its weight by that stretch's weight |
| WeightedPaths.SimpleLength | WeightedGraph.java:177-189 | a walk with no repeated node has at most V nodes |
| PathQueries.HasNegativeCycleAsWritten | WeightedGraph.java:286-295 | the Java test reports every negative cycle, and without one reports true exactly when some least offer equals MINUS_INFINITY |
| PathQueries.SentinelFalseAlarm | WeightedGraph.java:286-295 | on the graph 0 -> 1 of weight MINUS_INFINITY, which has no cycle, the Java test reports a negative cycle |
| PathQueries.HasNegativeCycle | WeightedGraph.java:286-295 | true exactly when the graph has a negative cycle, for every source |
| PathQueries.WeightOfShortestPathFromTo | WeightedGraph.java:302-310 | uses Dijkstra (stopping at the target) when no weight is negative and Bellman-Ford otherwise; the answer is the capped least walk weight (Dijkstra) or the least offer, start value plus walk weight (Bellman-Ford), under the respective conditions; a missing estimate is an error |
| PathQueries.CheapestUnique | WeightedGraph.java:157-201 | the least offer to a node is unique |
| Johnson.Potentials | WeightedGraph.java:209-240 | the zero-weight source and Bellman-Ford give a potential h exactly when there is no negative cycle; h(v) is then the least weight of a walk (starting anywhere) that ends at v, and w + h(u) - h(v) is non-negative on every edge |
| Johnson.PotentialAt | WeightedGraph.java:215-223 | a least offer from the added source to v is the least weight of a walk of the original graph that ends at v, starting anywhere |
| Johnson.AugmentNegCycle | WeightedGraph.java:215-219 | joining a fresh source to every node creates no negative cycle and removes none |
| Johnson.ReweightNonNegative | WeightedGraph.java:232-247 | when no edge relaxes under h, every reweighted edge weight is at least 0 |
| Johnson.Telescope | WeightedGraph.java:232-240 | a walk's reweighted weight is its original weight plus h(first) minus h(last) |
| Johnson.AllPairs | WeightedGraph.java:250-260 | with non-negative weights, running Dijkstra from every node fills a table keyed by every ordered pair with shortest distances |
| Johnson.JohnsonsAsWritten | WeightedGraph.java:204-262 | a negative cycle is an error; otherwise the table holds the shortest distances under the reweighted weights, not the original ones |
| Johnson.JohnsonsMisreports | WeightedGraph.java:254-260 | on the graph 0 -> 1 of weight -1 the table entry for (0, 1) is non-negative, although the true distance is -1 |
| Johnson.Johnsons | WeightedGraph.java:204-262 | a negative cycle is an error; otherwise h(v) is the least weight of a walk ending at v, and every pair's entry, shifted back by h(v) - h(u), is the least weight of a walk, or INFINITY when none is lighter than the cap |
| Johnson.JohnsonsOnLink | WeightedGraph.java:204-262 | on the graph 0 -> 1 of weight -1 the corrected table's entry for (0, 1) is -1 |
| Samples.Sample | WeightedGraphTests.java:12-26 | setup() yields a valid weighted graph on nodes 0..4 whose weight table is exactly the seven listed edges |
| Samples.CheckDijkstras | WeightedGraphTests.java:103-106 | the shortest-path query answers 3 from 0 to 2 and 2 from 0 to 3 |
| Samples.CheckBellmanFord | WeightedGraphTests.java:115-121 | after setWeight(1, 3, -2) the query from 0 to 3 answers 1, and after setWeight(1, 3, -1) it answers 2 |
| Samples.DetectNegCycle | WeightedGraphTests.java:125-133 | the sentinel-comparing hasNegativeCycle() from source 0 answers false at first, true after node 5 joins with 3 -> 5 and 5 -> 4 at -1, and false after 5 -> 4 is set to 1 |
| Samples.NoSentinel | WeightedGraph.java:286-295 | a potential no edge improves, kept within [-10, 10], leaves no node whose least offer from 0 equals MINUS_INFINITY, so the sentinel comparison finds nothing |
| Samples.DagRecognized | WeightedGraphTests.java:84-90 | the graph is a DAG, and stops being one after connectFromTo(3, 1) |
| Samples.RemoveFour | WeightedGraphTests.java:58-68 | removeNode(4) lowers in-degree(2), in-degree(3), out-degree(0) and out-degree(1) by one each |
| Samples.CappedIs | WeightedGraph.java:104-154 | a distance certified by a potential no edge improves and a walk attaining it is Dijkstra's capped answer |
| Samples.CheapestIs | WeightedGraph.java:157-201 | a distance certified the same way is Bellman-Ford's least offer |
| Undirected.AddNodeValid | UndirectedGraph.java:86-91 | adding a new id succeeds exactly when it is fresh, and the new node is isolated and the graph stays symmetric |
| Undirected.Connect | UndirectedGraph.java:93-97 | a missing endpoint is an error; otherwise u gains one v and v gains one u (a self-loop lists u twice), and every other count is unchanged |
| Undirected.ConnectValid | UndirectedGraph.java:93-97 | connect keeps the adjacency symmetric and the degree counters right |
| Undirected.Disconnect | UndirectedGraph.java:99-103 | a missing endpoint is an error; otherwise one occurrence is removed in each direction when present, and other lists are untouched |
| Undirected.DisconnectValid | UndirectedGraph.java:99-103 | disconnect keeps the adjacency symmetric and the degree counters right |
| Undirected.ConnectDisconnect | UndirectedGraph.java:93-103 | disconnect after connect restores every adjacency count |
| Undirected.Delete | UndirectedGraph.java:105-112 | an unknown node is an error; otherwise u is gone, no list names u, every other count is unchanged, and symmetry holds |
| Undirected.IsEdge | UndirectedGraph.java:127-142 | a missing endpoint is an error; isEdge(u, u) is false; on a symmetric graph, scanning the shorter list answers whether v is listed under u |
| Undirected.IsEdgeSymmetric | UndirectedGraph.java:127-142 | on a symmetric graph isEdge(u, v) equals isEdge(v, u) |
| Undirected.ConnectIsEdge | UndirectedGraph.java:93-142 | after connect the edge is reported; disconnecting a fresh connection removes it again |
| Undirected.GetNodesForGraph | UndirectedGraph.java:283-302 | the copy has the same ids and lists, valid counters, and stays symmetric |
| Undirected.MakeTree | UndirectedGraph.java:271-280 | the tree has every node of the parent map and an edge p -> v exactly when parent[v] is p, so a root has no incoming edge |
| Bfs.BreadthFirst | UndirectedGraph.java:234-254 | the visited set is exactly the nodes reachable from the start, each visited node's layer is its hop distance, and each parent is a neighbour one layer closer |
| Bfs.DistanceUnique | UndirectedGraph.java:319-324 | the hop distance between two nodes is unique |
| Bfs.ShortestDistanceFromTo | UndirectedGraph.java:118-125 | an unknown endpoint is an error; otherwise -1 exactly when the target is unreachable, and the hop distance when it is reachable |
| Bfs.BfsTree | UndirectedGraph.java:193-202 | has every node and no cycle; its edges are graph edges leading away from the root, one layer deeper; each reachable non-root node has exactly one parent |
| Dfs.DepthFirst | UndirectedGraph.java:219-231 | visits exactly the nodes reachable from the start; every visited non-start node gets a parent and no other node does |
| Dfs.GetConnectedComponentOf | UndirectedGraph.java:167-181 | an unknown node is an error; otherwise the set is exactly the nodes reachable from u, u included |
| Dfs.ComponentSymmetric | UndirectedGraph.java:167-181 | on a symmetric graph a reaches b exactly when b reaches a |
| Dfs.DfsTree | UndirectedGraph.java:183-191 | has every node and no cycle; its edges are graph edges leading away from the root; each reachable non-root node has exactly one parent |

## Left out

- `toString` in all three graph classes renders strings and is not modelled.
- `canReachFromTo` and `doesCloseCircle` (DirectedGraph.java:148-154 and 344-359, WeightedGraph.java:388-390) are not modelled. The Java search prints, and returns on the first unvisited child, so it is not a full search. Reachability is the predicate `Paths.Reach`.
- `getRandNode` (DirectedGraph.java:361-371) draws a random node. `hasNegativeCycle` takes its source as a parameter instead, and `PathQueries.HasNegativeCycle` holds for every source. On an empty graph, Java's `getRandNode` throws IllegalArgumentException from `nextInt(0)` (DirectedGraph.java:363). PathQueries.HasNegativeCycleAsWritten and PathQueries.HasNegativeCycle have no such error path and return false there.
- The `WeightedGraph(DirectedGraph[, w])` constructors (WeightedGraph.java:25-37) are not modelled, because the weight table is never initialised on that path. `addEdge` (WeightedGraph.java:392-396) is also not modelled: it is outside this core.
- Johnson's orchestration has several parts that are not modelled (WeightedGraph.java:207-219):
  - the copy through that constructor;
  - the undefined `searchAlternative`, for which `Johnson.FreshSource` picks SOURCE or an unused id;
  - the virtual source that is never actually connected.
  The model builds the augmented graph directly.
- The negative-cycle gate (WeightedGraph.java:226-229) is modelled by Bellman-Ford's marking result rather than by comparing distances to MINUS_INFINITY. Its sentinel problem is shown separately under Findings.
- Johnson.Johnsons and Johnson.JohnsonsAsWritten also return the potential h, which the Java code keeps internal.
- Dijkstra with `stop == null` (WeightedGraph.java:136, 257) throws in Java when Integer is unboxed. The model's `stop` is an `Option`, and Johnson's per-source runs use `None`, the evident intent.
- The priority queue is modelled as "extract a node of least estimate among the unsettled ones", and ties are chosen nondeterministically.
- `Tuple.equals` reference semantics are not modelled: weight keys are structural pairs. `Edge` and `Tuple` are plain datatypes.
- Java `int` overflow in `INFINITY + w` and `distances + weight` is not modelled: arithmetic is unbounded, and the sentinels are concrete constants.
- BellmanFord.BellmanFord returns, besides the estimates and predecessors, the estimates before marking and the marked set. These are model-side witnesses used to state its contract.
- The undirected list constructor and the `getEdges` dedup (UndirectedGraph.java:23-28, 153-165) are not modelled: the constructor dereferences a null map, and `Edge` has no `equals`.
- GraphNodeTest.java does not compile, and its assertion contradicts `addChild`, so it is not modelled. GraphNode's copy constructor (GraphNode.java:25-29) does not keep out-degree equal to the list length, so it is excluded too.
- Undirected.Delete requires the symmetric invariant `UValid`. Java's `delete` would also run on a non-symmetric store, but the undirected class never builds one.
- Undirected.Delete skips the self-loop entries of u's own list. In Java, `u.removeChild(u)` removes u's first self-loop entry from the list being iterated (UndirectedGraph.java:105-112). If two or more entries followed that entry, the next `next()` throws ConcurrentModificationException. Otherwise `hasNext()` turns false and the loop ends, leaving any one remaining entry unvisited. When that entry is u's second self-loop entry, or there is none, Java agrees with the model; when it is another neighbour, that neighbour keeps its entry for u. Neighbours' in-degree counters are not restored by Java's delete, so `UValid` does not include the in-degree part of the invariant.
- Undirected.MakeTree drops the unused `root` parameter of `makeTree`.
- The visited HashMaps of `bfs` and `dfs` are modelled as sets holding the nodes Java marks true. As in Java, the parent maps (`map<int, Option<int>>`) and the layer map (`map<int, int>`) are keyed by every node from the start, with None and -1 for nodes not reached. Bfs.ShortestDistanceFromTo returns the layer entry of the target, so an unreachable target gives -1.
- Iterators, getters and `checkNode` are inlined into the operations' error results.
- Directed.ConnectFromTo, Weighted.Connect: when `from` exists and `to` does not, Java first appends a null child to `from` and raises its out-degree, and only then throws a NullPointerException on the in-degree (GraphNode.java:50-54). The model returns an error and leaves the store unchanged, so this partial update of `from` is not modelled.
- Samples: the restore half of removeAndRestoreNode (WeightedGraphTests.java:70-80) is not modelled. The re-added lists come back in a different order, and the model has no lemma relating degree counters to the edge set alone. The `reachability`, `findEdges`, `reviewWeights` and `checkWeights` tests are not modelled either. The source that `hasNegativeCycle()` draws at random is fixed to 0; the three answers of detectNegCycle are proved for that source only.

## Findings

| source | as written | input that shows it | evidently intended | confidence | as-written member | corrected member |
|---|---|---|---|---|---|---|
| WeightedGraph.java:286-295 | reports a negative cycle when any Bellman-Ford estimate equals MINUS_INFINITY, a value an ordinary walk weight can also reach | the graph 0 -> 1 with weight -214748364, source 0 | report a cycle only when the marking pass found an edge that still relaxes | not executed | PathQueries.HasNegativeCycleAsWritten, PathQueries.SentinelFalseAlarm | PathQueries.HasNegativeCycle |
| WeightedGraph.java:254-260 | stores the Dijkstra distances of the reweighted graph in the all-pairs table without undoing the reweighting; in Java this stays latent, because the copy at WeightedGraph.java:207 (see Left out) throws first | the graph 0 -> 1 with weight -1: the table entry for (0, 1) is at least 0 | store d - h(u) + h(v), the distance under the original weights | not executed | Johnson.JohnsonsAsWritten, Johnson.JohnsonsMisreports | Johnson.Johnsons |

=== FILE: bellman_ford.dfy ===
/** WeightedGraph.bellmanFord: |V| - 1 passes that relax every edge, then one marking pass
    that sets the head of every edge that still relaxes to MINUS_INFINITY.

    The estimates start at 0 for the source and INFINITY for every other node, and the
    relaxation test treats INFINITY as the ordinary number it is: an edge of negative
    weight out of an unreached node does relax. So the estimate of a node is not the
    weight of the lightest walk from the source but the least "offer" of any walk ending
    at it, where a walk offers its first node's starting estimate plus its weight. */
module BellmanFord {
  import opened Results
  import opened Seqs
  import opened Nodes
  import opened Paths
  import opened Directed
  import opened WeightedPaths
  import opened Weighted

  /** The estimate a node starts from. */
  function Start(s: int, v: int): int {
    if v == s then 0 else INFINITY
  }

  /** What a walk offers its last node. */
  ghost function Cost(w: Weights, s: int, p: seq<int>): int
    requires |p| >= 1
  {
    Start(s, p[0]) + PathWeight(w, p)
  }

  /** Some walk ending at `v` offers exactly `x`. */
  ghost predicate Offered(g: Store, w: Weights, s: int, v: int, x: int) {
    exists p :: IsPath(g, p) && p[|p| - 1] == v && Cost(w, s, p) == x
  }

  /** No walk ending at `v` offers less than `x`. */
  ghost predicate Floor(g: Store, w: Weights, s: int, v: int, x: int) {
    forall p :: IsPath(g, p) && p[|p| - 1] == v ==> x <= Cost(w, s, p)
  }

  /** `x` is the least offer made to `v`. */
  ghost predicate Cheapest(g: Store, w: Weights, s: int, v: int, x: int) {
    Floor(g, w, s, v, x) && Offered(g, w, s, v, x)
  }

  /** No edge of the table can improve an estimate. */
  ghost predicate Tight(w: Weights, dist: map<int, int>) {
    forall a, b :: (a, b) in w ==> a in dist && b in dist && dist[b] <= dist[a] + w[(a, b)]
  }

  /** The result: the returned estimates, the predecessor map, and (beyond what the Java
      method hands back) the estimates after the passes and the nodes the marking pass set
      to MINUS_INFINITY. */
  datatype Outcome = Outcome(dist: map<int, int>, pred: map<int, Option<int>>,
                             settled: map<int, int>, marked: set<int>)

  // ----- the state of the passes -----

  ghost predicate Keyed(g: Store, s: int, dist: map<int, int>, pred: map<int, Option<int>>) {
    dist.Keys == g.Keys + {s} && pred.Keys == g.Keys
  }

  /** Every estimate is the offer of some walk. */
  ghost predicate Achieved(g: Store, w: Weights, s: int, dist: map<int, int>) {
    forall v {:trigger Offered(g, w, s, v, dist[v])} :: v in g && v in dist ==> Offered(g, w, s, v, dist[v])
  }

  /** After k passes: no walk of at most k edges offers less than the estimate of its end. */
  ghost predicate Upper(g: Store, w: Weights, s: int, dist: map<int, int>, k: int) {
    forall p :: IsPath(g, p) && |p| <= k + 1 ==> p[|p| - 1] in dist && dist[p[|p| - 1]] <= Cost(w, s, p)
  }

  /** During pass k + 1: the same for walks of k + 1 edges whose last edge has been relaxed. */
  ghost predicate UpperVia(g: Store, w: Weights, s: int, dist: map<int, int>, k: nat, done: set<(int, int)>) {
    forall p :: IsPath(g, p) && |p| == k + 2 && (p[k], p[k + 1]) in done ==>
      p[k + 1] in dist && dist[p[k + 1]] <= Cost(w, s, p)
  }

  /** A predecessor is a node with an edge to its successor; a node without one still has
      its starting estimate. */
  ghost predicate PredOk(g: Store, s: int, dist: map<int, int>, pred: map<int, Option<int>>) {
    forall v {:trigger pred[v]} :: v in g && v in pred ==>
      && (pred[v].Some? ==> pred[v].value in g && v in g[pred[v].value].adj)
      && (pred[v].None? ==> v in dist && dist[v] == Start(s, v))
  }

  ghost predicate PassInv(g: Store, w: Weights, s: int, dist: map<int, int>, pred: map<int, Option<int>>, k: int) {
    && Keyed(g, s, dist, pred) && (s !in g ==> s in dist && dist[s] == 0)
    && Achieved(g, w, s, dist) && Upper(g, w, s, dist, k) && PredOk(g, s, dist, pred)
  }

  /** `d'` agrees with `d` on its keys and is nowhere larger. */
  ghost predicate Below(d': map<int, int>, d: map<int, int>) {
    d'.Keys == d.Keys && forall v :: v in d ==> d'[v] <= d[v]
  }

  // ----- one relaxation -----

  /** An entry of a table that matches the edges is an edge between stored nodes. */
  lemma EntryEdge(g: Store, w: Weights, e: Edge)
    requires Closed(g) && w.Keys == Edges(g) && IsEntry(w, e)
    ensures e.from in g && e.to in g && e.to in g[e.from].adj && EdgeWeight(w, e.from, e.to) == e.weight
  {
    assert (e.from, e.to) in Edges(g);
  }

  /** The offer through `a` reaches `b`. */
  lemma OfferThrough(g: Store, w: Weights, s: int, dist: map<int, int>, a: int, b: int)
    requires Achieved(g, w, s, dist) && a in g && a in dist && b in g && b in g[a].adj
    ensures Offered(g, w, s, b, dist[a] + EdgeWeight(w, a, b))
  {
    assert Offered(g, w, s, a, dist[a]);
    var p :| IsPath(g, p) && p[|p| - 1] == a && Cost(w, s, p) == dist[a];
    WeightAppend(w, p, b);
    var p' := p + [b];
    assert IsPath(g, p');
    assert Cost(w, s, p') == dist[a] + EdgeWeight(w, a, b);
  }

  lemma AchievedStep(g: Store, w: Weights, s: int, dist: map<int, int>, b: int, x: int)
    requires Achieved(g, w, s, dist) && Offered(g, w, s, b, x)
    ensures Achieved(g, w, s, dist[b := x])
  {
    var d' := dist[b := x];
    forall v | v in g && v in d' ensures Offered(g, w, s, v, d'[v]) {
      if v != b {
        assert d'[v] == dist[v];
        assert v in dist;
      }
    }
  }

  /** Lowering estimates keeps every upper bound, and lowering `b` to at most the estimate
      of `a` plus the edge weight extends the bound to walks ending with a -> b. */
  lemma UpperStep(g: Store, w: Weights, s: int, dist: map<int, int>, d': map<int, int>, k: nat,
                  done: set<(int, int)>, a: int, b: int)
    requires Upper(g, w, s, dist, k) && UpperVia(g, w, s, dist, k, done) && Below(d', dist)
    requires a in dist && b in d' && d'[b] <= dist[a] + EdgeWeight(w, a, b)
    ensures Upper(g, w, s, d', k) && UpperVia(g, w, s, d', k, done + {(a, b)})
  {
    forall p | IsPath(g, p) && |p| <= k + 1 ensures p[|p| - 1] in d' && d'[p[|p| - 1]] <= Cost(w, s, p) {
      var x := p[|p| - 1];
      assert x in dist && dist[x] <= Cost(w, s, p);
      assert d'[x] <= dist[x];
    }
    forall p | IsPath(g, p) && |p| == k + 2 && (p[k], p[k + 1]) in done + {(a, b)}
      ensures p[k + 1] in d' && d'[p[k + 1]] <= Cost(w, s, p)
    {
      var x, y := p[k], p[k + 1];
      if (x, y) in done {
        assert y in dist && dist[y] <= Cost(w, s, p);
        assert d'[y] <= dist[y];
      } else {
        assert x == a && y == b;
        LastEdgeBound(g, w, s, dist, k, p, a, b);
      }
    }
  }

  /** A walk of k + 1 edges ending with a -> b offers at least the estimate of `a` after k
      passes plus the weight of a -> b. */
  lemma LastEdgeBound(g: Store, w: Weights, s: int, dist: map<int, int>, k: nat, p: seq<int>, a: int, b: int)
    requires Upper(g, w, s, dist, k) && IsPath(g, p) && |p| == k + 2 && p[k] == a && p[k + 1] == b
    ensures a in dist && dist[a] + EdgeWeight(w, a, b) <= Cost(w, s, p)
  {
    var p' := p[..k + 1];
    SubPath(g, p, 0, k + 1);
    assert p' + [b] == p;
    WeightAppend(w, p', b);
    assert p'[0] == p[0] && p'[|p'| - 1] == a;
    assert dist[a] <= Cost(w, s, p');
  }

  lemma PredStep(g: Store, s: int, dist: map<int, int>, pred: map<int, Option<int>>, a: int, b: int, x: int)
    requires PredOk(g, s, dist, pred) && a in g && b in g[a].adj
    ensures PredOk(g, s, dist[b := x], pred[b := Some(a)])
  {
    var d', p' := dist[b := x], pred[b := Some(a)];
    forall v | v in g && v in p' ensures
      && (p'[v].Some? ==> p'[v].value in g && v in g[p'[v].value].adj)
      && (p'[v].None? ==> v in d' && d'[v] == Start(s, v))
    {
      if v != b {
        assert p'[v] == pred[v];
      }
    }
  }

  /** One relaxation of the edge `e`, as the inner loop of a pass does it. */
  method RelaxEdge(g: Store, w: Weights, s: int, dist: map<int, int>, pred: map<int, Option<int>>,
                   ghost k: nat, ghost done: set<(int, int)>, e: Edge)
    returns (dist': map<int, int>, pred': map<int, Option<int>>)
    requires Closed(g) && w.Keys == Edges(g) && IsEntry(w, e)
    requires PassInv(g, w, s, dist, pred, k) && UpperVia(g, w, s, dist, k, done)
    ensures PassInv(g, w, s, dist', pred', k) && UpperVia(g, w, s, dist', k, done + {(e.from, e.to)})
  {
    EntryEdge(g, w, e);
    if dist[e.from] + e.weight < dist[e.to] {
      RelaxLowers(g, w, s, dist, pred, k, done, e);
      dist', pred' := dist[e.to := dist[e.from] + e.weight], pred[e.to := Some(e.from)];
    } else {
      UpperStep(g, w, s, dist, dist, k, done, e.from, e.to);
      dist', pred' := dist, pred;
    }
  }

  lemma RelaxLowers(g: Store, w: Weights, s: int, dist: map<int, int>, pred: map<int, Option<int>>,
                    k: nat, done: set<(int, int)>, e: Edge)
    requires e.from in g && e.to in g && e.to in g[e.from].adj && EdgeWeight(w, e.from, e.to) == e.weight
    requires PassInv(g, w, s, dist, pred, k) && UpperVia(g, w, s, dist, k, done)
    requires dist[e.from] + e.weight < dist[e.to]
    ensures PassInv(g, w, s, dist[e.to := dist[e.from] + e.weight], pred[e.to := Some(e.from)], k)
    ensures UpperVia(g, w, s, dist[e.to := dist[e.from] + e.weight], k, done + {(e.from, e.to)})
  {
    var x := dist[e.from] + e.weight;
    OfferThrough(g, w, s, dist, e.from, e.to);
    AchievedStep(g, w, s, dist, e.to, x);
    LowerBounds(g, w, s, dist, k, done, e.from, e.to, x);
    PredStep(g, s, dist, pred, e.from, e.to, x);
    KeyedStep(g, s, dist, pred, e.from, e.to, x);
  }

  lemma LowerBounds(g: Store, w: Weights, s: int, dist: map<int, int>, k: nat, done: set<(int, int)>, a: int, b: int, x: int)
    requires Upper(g, w, s, dist, k) && UpperVia(g, w, s, dist, k, done)
    requires a in dist && b in dist && x == dist[a] + EdgeWeight(w, a, b) && x < dist[b]
    ensures Upper(g, w, s, dist[b := x], k) && UpperVia(g, w, s, dist[b := x], k, done + {(a, b)})
  {
    LowerOne(dist, b, x);
    UpperStep(g, w, s, dist, dist[b := x], k, done, a, b);
  }

  lemma LowerOne(dist: map<int, int>, b: int, x: int)
    requires b in dist && x <= dist[b]
    ensures Below(dist[b := x], dist)
  {
  }

  lemma KeyedStep(g: Store, s: int, dist: map<int, int>, pred: map<int, Option<int>>, a: int, b: int, x: int)
    requires Keyed(g, s, dist, pred) && (s !in g ==> s in dist && dist[s] == 0) && b in g
    ensures Keyed(g, s, dist[b := x], pred[b := Some(a)])
    ensures s !in g ==> s in dist[b := x] && dist[b := x][s] == 0
  {
  }

  /** One pass: relax every entry of the table once, in the table's (arbitrary) order. */
  method Pass(g: Store, w: Weights, s: int, dist0: map<int, int>, pred0: map<int, Option<int>>, ghost k: nat)
    returns (dist: map<int, int>, pred: map<int, Option<int>>)
    requires Closed(g) && w.Keys == Edges(g)
    requires PassInv(g, w, s, dist0, pred0, k)
    ensures PassInv(g, w, s, dist, pred, k + 1)
  {
    var es := Entries(w);
    dist, pred := dist0, pred0;
    ghost var done: set<(int, int)> := {};
    var i := 0;
    while i < |es|
      invariant 0 <= i <= |es|
      invariant Covers(es, i, done)
      invariant PassInv(g, w, s, dist, pred, k) && UpperVia(g, w, s, dist, k, done)
    {
      dist, pred := RelaxEdge(g, w, s, dist, pred, k, done, es[i]);
      CoversStep(es, i, done);
      done := done + {(es[i].from, es[i].to)};
      i := i + 1;
    }
    AllRelaxed(w, es, done);
    PassDone(g, w, s, dist, k, done);
  }

  /** The edges of the first `i` entries have been relaxed. */
  ghost predicate Covers(es: seq<Edge>, i: int, done: set<(int, int)>) {
    forall j :: 0 <= j < i && j < |es| ==> (es[j].from, es[j].to) in done
  }

  lemma CoversStep(es: seq<Edge>, i: int, done: set<(int, int)>)
    requires Covers(es, i, done) && 0 <= i < |es|
    ensures Covers(es, i + 1, done + {(es[i].from, es[i].to)})
  {
  }

  lemma AllRelaxed(w: Weights, es: seq<Edge>, done: set<(int, int)>)
    requires forall e :: e in es <==> IsEntry(w, e)
    requires Covers(es, |es|, done)
    ensures w.Keys <= done
  {
    forall ab | ab in w ensures ab in done {
      var e := Edge(ab.0, ab.1, w[ab]);
      assert IsEntry(w, e);
      var j :| 0 <= j < |es| && es[j] == e;
    }
  }

  /** At the end of a pass every walk of k + 1 edges has had its last edge relaxed. */
  lemma PassDone(g: Store, w: Weights, s: int, dist: map<int, int>, k: nat, done: set<(int, int)>)
    requires w.Keys == Edges(g) && w.Keys <= done
    requires Upper(g, w, s, dist, k) && UpperVia(g, w, s, dist, k, done)
    ensures Upper(g, w, s, dist, k + 1)
  {
    forall p | IsPath(g, p) && |p| <= k + 2 ensures p[|p| - 1] in dist && dist[p[|p| - 1]] <= Cost(w, s, p) {
      if |p| == k + 2 {
        var a, b := p[k], p[k + 1];
        assert a in g && b in g[a].adj;
        assert (a, b) in Edges(g);
      }
    }
  }

  lemma InitPass(g: Store, w: Weights, s: int, dist: map<int, int>, pred: map<int, Option<int>>)
    requires dist == map v | v in g.Keys + {s} :: Start(s, v)
    requires pred == map v | v in g.Keys :: None
    ensures PassInv(g, w, s, dist, pred, 0)
  {
    assert forall v :: v in g ==> v in dist && dist[v] == Start(s, v);
    assert s in dist && dist[s] == 0;
    InitAchieved(g, w, s, dist);
    InitUpper(g, w, s, dist);
  }

  lemma InitAchieved(g: Store, w: Weights, s: int, dist: map<int, int>)
    requires forall v :: v in g ==> v in dist && dist[v] == Start(s, v)
    ensures Achieved(g, w, s, dist)
  {
    forall v | v in g && v in dist ensures Offered(g, w, s, v, dist[v]) {
      SingleCost(g, w, s, v);
    }
  }

  lemma InitUpper(g: Store, w: Weights, s: int, dist: map<int, int>)
    requires forall v :: v in g ==> v in dist && dist[v] == Start(s, v)
    ensures Upper(g, w, s, dist, 0)
  {
    forall p | IsPath(g, p) && |p| <= 1 ensures p[|p| - 1] in dist && dist[p[|p| - 1]] <= Cost(w, s, p) {
      var v := p[0];
      assert p == [v];
      SingleCost(g, w, s, v);
    }
  }

  /** The walk that stays at `v` offers v's starting estimate. */
  lemma SingleCost(g: Store, w: Weights, s: int, v: int)
    requires v in g
    ensures IsPath(g, [v]) && Cost(w, s, [v]) == Start(s, v) && Offered(g, w, s, v, Start(s, v))
  {
    assert IsPath(g, [v]);
  }

  // ----- the marking pass -----

  /** `v` was marked because an edge into it still relaxed: its tail was marked, or the
      estimates after the passes could still be improved along it. */
  ghost predicate Blamed(w: Weights, settled: map<int, int>, marked: set<int>, v: int) {
    exists u :: (u, v) in w && u in settled && v in settled
      && (u in marked || settled[u] + w[(u, v)] < settled[v])
  }

  /** The marking state after the first `i` entries. */
  ghost predicate MarkInv(g: Store, w: Weights, settled: map<int, int>, dist: map<int, int>,
                          marked: set<int>, es: seq<Edge>, i: int)
    requires 0 <= i <= |es|
  {
    && dist.Keys == settled.Keys && marked <= g.Keys
    && (forall v :: v in marked ==> v in dist && dist[v] == MINUS_INFINITY)
    && (forall v {:trigger Blamed(w, settled, marked, v)} :: v in marked ==> Blamed(w, settled, marked, v))
    && (forall v :: v in dist && v !in marked ==> dist[v] == settled[v])
    && (marked == {} ==> forall j :: 0 <= j < i ==>
          es[j].from in settled && es[j].to in settled && settled[es[j].to] <= settled[es[j].from] + es[j].weight)
  }

  lemma BlamedGrow(w: Weights, settled: map<int, int>, marked: set<int>, v: int, b: int)
    requires Blamed(w, settled, marked, v)
    ensures Blamed(w, settled, marked + {b}, v)
  {
    var u :| (u, v) in w && u in settled && v in settled && (u in marked || settled[u] + w[(u, v)] < settled[v]);
  }

  lemma MarkStep(g: Store, w: Weights, settled: map<int, int>, dist: map<int, int>,
                 marked: set<int>, es: seq<Edge>, i: int)
    requires Closed(g) && w.Keys == Edges(g) && g.Keys <= settled.Keys
    requires 0 <= i < |es| && IsEntry(w, es[i]) && MarkInv(g, w, settled, dist, marked, es, i)
    requires dist[es[i].from] + es[i].weight < dist[es[i].to]
    ensures MarkInv(g, w, settled, dist[es[i].to := MINUS_INFINITY], marked + {es[i].to}, es, i + 1)
  {
    var e := es[i];
    EntryEdge(g, w, e);
    var b := e.to;
    var marked' := marked + {b};
    forall v | v in marked' ensures Blamed(w, settled, marked', v) {
      if v in marked {
        BlamedGrow(w, settled, marked, v, b);
      } else {
        assert v == b && (e.from, b) in w;
        assert e.from in marked' || settled[e.from] + w[(e.from, b)] < settled[b];
      }
    }
  }

  lemma MarkSkip(g: Store, w: Weights, settled: map<int, int>, dist: map<int, int>,
                 marked: set<int>, es: seq<Edge>, i: int)
    requires Closed(g) && w.Keys == Edges(g) && g.Keys <= settled.Keys
    requires 0 <= i < |es| && IsEntry(w, es[i]) && MarkInv(g, w, settled, dist, marked, es, i)
    requires dist[es[i].from] + es[i].weight >= dist[es[i].to]
    ensures MarkInv(g, w, settled, dist, marked, es, i + 1)
  {
    EntryEdge(g, w, es[i]);
  }

  /** The marking pass: every entry whose edge still relaxes sets its head to MINUS_INFINITY. */
  method Mark(g: Store, w: Weights, settled: map<int, int>) returns (dist: map<int, int>, marked: set<int>)
    requires Closed(g) && w.Keys == Edges(g) && g.Keys <= settled.Keys
    ensures dist.Keys == settled.Keys && marked <= g.Keys
    ensures forall v :: v in marked ==> dist[v] == MINUS_INFINITY
    ensures forall v {:trigger Blamed(w, settled, marked, v)} :: v in marked ==> Blamed(w, settled, marked, v)
    ensures forall v :: v in dist && v !in marked ==> dist[v] == settled[v]
    ensures marked == {} <==> Tight(w, settled)
  {
    var es := Entries(w);
    dist, marked := settled, {};
    var i := 0;
    while i < |es|
      invariant 0 <= i <= |es| && MarkInv(g, w, settled, dist, marked, es, i)
      invariant Tight(w, settled) ==> marked == {}
    {
      var e := es[i];
      EntryEdge(g, w, e);
      if dist[e.from] + e.weight < dist[e.to] {
        MarkStep(g, w, settled, dist, marked, es, i);
        dist, marked := dist[e.to := MINUS_INFINITY], marked + {e.to};
      } else {
        MarkSkip(g, w, settled, dist, marked, es, i);
      }
      i := i + 1;
    }
    if marked == {} {
      AllTight(w, settled, es);
    }
  }

  lemma AllTight(w: Weights, settled: map<int, int>, es: seq<Edge>)
    requires forall e :: e in es <==> IsEntry(w, e)
    requires forall j :: 0 <= j < |es| ==>
      es[j].from in settled && es[j].to in settled && settled[es[j].to] <= settled[es[j].from] + es[j].weight
    ensures Tight(w, settled)
  {
    forall a, b | (a, b) in w ensures a in settled && b in settled && settled[b] <= settled[a] + w[(a, b)] {
      var e := Edge(a, b, w[(a, b)]);
      assert IsEntry(w, e);
      var j :| 0 <= j < |es| && es[j] == e;
    }
  }

  // ----- the algorithm -----

  /** bellmanFord(source, pred) on a graph whose weight table matches its edges. */
  method BellmanFord(wg: WGraph, s: int) returns (r: Outcome)
    requires Closed(wg.nodes) && wg.weights.Keys == Edges(wg.nodes)
    ensures r.dist.Keys == wg.nodes.Keys + {s} && r.settled.Keys == r.dist.Keys && r.pred.Keys == wg.nodes.Keys
    ensures s !in wg.nodes ==> r.dist[s] == 0
    ensures forall v {:trigger Offered(wg.nodes, wg.weights, s, v, r.settled[v])} :: v in wg.nodes ==> Offered(wg.nodes, wg.weights, s, v, r.settled[v])
    ensures PredOk(wg.nodes, s, r.settled, r.pred)
    ensures r.marked <= wg.nodes.Keys
    ensures forall v :: v in r.marked ==> r.dist[v] == MINUS_INFINITY
    ensures forall v {:trigger Blamed(wg.weights, r.settled, r.marked, v)} :: v in r.marked ==> Blamed(wg.weights, r.settled, r.marked, v)
    ensures forall v :: v in r.dist && v !in r.marked ==> r.dist[v] == r.settled[v]
    ensures r.marked == {} <==> !NegCycle(wg.nodes, wg.weights)
    ensures r.marked == {} ==> Tight(wg.weights, r.dist)
    ensures !NegCycle(wg.nodes, wg.weights) ==> forall v {:trigger Cheapest(wg.nodes, wg.weights, s, v, r.dist[v])} :: v in wg.nodes ==> Cheapest(wg.nodes, wg.weights, s, v, r.dist[v])
  {
    var g, w := wg.nodes, wg.weights;
    var dist, pred := Passes(g, w, s);
    var final, marked := Finish(g, w, s, dist);
    r := Outcome(final, pred, dist, marked);
  }

  /** The marking pass, with what it reveals about negative cycles. */
  method Finish(g: Store, w: Weights, s: int, settled: map<int, int>) returns (final: map<int, int>, marked: set<int>)
    requires Closed(g) && w.Keys == Edges(g) && g.Keys <= settled.Keys
    requires Achieved(g, w, s, settled) && Upper(g, w, s, settled, |g.Keys| - 1)
    ensures final.Keys == settled.Keys && marked <= g.Keys
    ensures forall v :: v in marked ==> final[v] == MINUS_INFINITY
    ensures forall v {:trigger Blamed(w, settled, marked, v)} :: v in marked ==> Blamed(w, settled, marked, v)
    ensures forall v :: v in final && v !in marked ==> final[v] == settled[v]
    ensures marked == {} <==> !NegCycle(g, w)
    ensures marked == {} ==> Tight(w, final)
    ensures !NegCycle(g, w) ==> forall v {:trigger Cheapest(g, w, s, v, final[v])} :: v in g ==> Cheapest(g, w, s, v, final[v])
  {
    final, marked := Mark(g, w, settled);
    Conclude(g, w, s, settled, final, marked);
  }

  /** Initialisation and the |V| - 1 passes. */
  method Passes(g: Store, w: Weights, s: int) returns (dist: map<int, int>, pred: map<int, Option<int>>)
    requires Closed(g) && w.Keys == Edges(g)
    ensures PassInv(g, w, s, dist, pred, |g.Keys| - 1)
  {
    dist := map v | v in g.Keys + {s} :: Start(s, v);
    pred := map v | v in g.Keys :: None;
    InitPass(g, w, s, dist, pred);
    var n := |g.Keys|;
    var i := 0;
    while i < n - 1
      invariant 0 <= i && PassInv(g, w, s, dist, pred, i)
      invariant n >= 1 ==> i <= n - 1
    {
      dist, pred := Pass(g, w, s, dist, pred, i);
      i := i + 1;
    }
  }

  /** What the marking pass reveals about negative cycles and the returned estimates. */
  lemma Conclude(g: Store, w: Weights, s: int, settled: map<int, int>, final: map<int, int>, marked: set<int>)
    requires Closed(g) && w.Keys == Edges(g) && g.Keys <= settled.Keys
    requires Achieved(g, w, s, settled) && Upper(g, w, s, settled, |g.Keys| - 1)
    requires marked == {} <==> Tight(w, settled)
    requires final.Keys == settled.Keys && forall v :: v in final && v !in marked ==> final[v] == settled[v]
    ensures marked == {} <==> !NegCycle(g, w)
    ensures marked == {} ==> Tight(w, final)
    ensures !NegCycle(g, w) ==> forall v {:trigger Cheapest(g, w, s, v, final[v])} :: v in g ==> Cheapest(g, w, s, v, final[v])
  {
    if !NegCycle(g, w) {
      NoNegCycleTight(g, w, s, settled, |g.Keys| - 1);
      NoNegCycleCheapest(g, w, s, settled, |g.Keys| - 1);
      Unmarked(g, w, s, settled, final);
    } else {
      NegCycleLoose(g, w, settled);
    }
  }

  lemma Unmarked(g: Store, w: Weights, s: int, settled: map<int, int>, final: map<int, int>)
    requires final.Keys == settled.Keys && forall v :: v in final ==> final[v] == settled[v]
    requires Tight(w, settled) && forall v :: v in g ==> v in settled && Cheapest(g, w, s, v, settled[v])
    ensures Tight(w, final) && forall v {:trigger Cheapest(g, w, s, v, final[v])} :: v in g ==> Cheapest(g, w, s, v, final[v])
  {
  }

  // ----- the theorems behind the marking pass -----

  /** Without a negative cycle, |V| - 1 passes bound every walk: a walk shortcuts to one
      without repeated nodes, hence of at most |V| - 1 edges. */
  lemma ShortcutBound(g: Store, w: Weights, s: int, dist: map<int, int>, k: int, p: seq<int>)
    requires Upper(g, w, s, dist, k) && k + 1 >= |g.Keys| && !NegCycle(g, w)
    requires IsPath(g, p)
    ensures p[|p| - 1] in dist && dist[p[|p| - 1]] <= Cost(w, s, p)
  {
    var q := Shortcut(g, w, p);
    SimpleLength(g, q);
  }

  lemma NoNegCycleCheapest(g: Store, w: Weights, s: int, dist: map<int, int>, k: int)
    requires Achieved(g, w, s, dist) && Upper(g, w, s, dist, k) && k + 1 >= |g.Keys| && !NegCycle(g, w)
    requires g.Keys <= dist.Keys
    ensures forall v {:trigger Cheapest(g, w, s, v, dist[v])} :: v in g ==> Cheapest(g, w, s, v, dist[v])
  {
    forall v | v in g ensures Cheapest(g, w, s, v, dist[v]) {
      forall p | IsPath(g, p) && p[|p| - 1] == v ensures dist[v] <= Cost(w, s, p) {
        ShortcutBound(g, w, s, dist, k, p);
      }
    }
  }

  /** Without a negative cycle, no edge can improve an estimate after the passes. */
  lemma NoNegCycleTight(g: Store, w: Weights, s: int, dist: map<int, int>, k: int)
    requires Closed(g) && w.Keys == Edges(g) && g.Keys <= dist.Keys
    requires Achieved(g, w, s, dist) && Upper(g, w, s, dist, k) && k + 1 >= |g.Keys| && !NegCycle(g, w)
    ensures Tight(w, dist)
  {
    forall a, b | (a, b) in w ensures a in dist && b in dist && dist[b] <= dist[a] + w[(a, b)] {
      assert (a, b) in Edges(g);
      assert a in g && b in g[a].adj && b in g;
      EdgeTight(g, w, s, dist, k, a, b);
    }
  }

  lemma EdgeTight(g: Store, w: Weights, s: int, dist: map<int, int>, k: int, a: int, b: int)
    requires g.Keys <= dist.Keys && a in g && b in g && b in g[a].adj
    requires Achieved(g, w, s, dist) && Upper(g, w, s, dist, k) && k + 1 >= |g.Keys| && !NegCycle(g, w)
    ensures dist[b] <= dist[a] + EdgeWeight(w, a, b)
  {
    assert Offered(g, w, s, a, dist[a]);
    var p :| IsPath(g, p) && p[|p| - 1] == a && Cost(w, s, p) == dist[a];
    WeightAppend(w, p, b);
    assert IsPath(g, [a, b]);
    var p' := PathConcat(g, p, [a, b]);
    assert p' == p + [b];
    ShortcutBound(g, w, s, dist, k, p');
  }

  /** Along any walk, estimates no edge can improve grow by at most the walk's weight. */
  lemma {:induction false} TightWalk(g: Store, w: Weights, dist: map<int, int>, p: seq<int>)
    requires Tight(w, dist) && w.Keys == Edges(g) && g.Keys <= dist.Keys && IsPath(g, p)
    ensures dist[p[|p| - 1]] <= dist[p[0]] + PathWeight(w, p)
    decreases |p|
  {
    if |p| >= 2 {
      SubPath(g, p, 1, |p|);
      TightWalk(g, w, dist, p[1..]);
      var a, b := p[0], p[1];
      assert a in g && b in g[a].adj;
      assert (a, b) in Edges(g);
    }
  }

  /** A negative cycle leaves some edge that still improves an estimate. */
  lemma NegCycleLoose(g: Store, w: Weights, dist: map<int, int>)
    requires w.Keys == Edges(g) && g.Keys <= dist.Keys && NegCycle(g, w)
    ensures !Tight(w, dist)
  {
    var c :| IsPath(g, c) && |c| >= 2 && c[0] == c[|c| - 1] && PathWeight(w, c) < 0;
    if Tight(w, dist) {
      TightWalk(g, w, dist, c);
    }
  }
}

=== FILE: bfs.dfy ===
/** UndirectedGraph's breadth-first search (bfs) and the two queries built on it,
    ShortestDistanceFromTo and bfsTree. The search only follows adjacency lists, so it is
    stated for any closed store, directed or not. */
module Bfs {
  import opened Results
  import opened Seqs
  import opened Nodes
  import opened Paths
  import opened Directed
  import opened Undirected
  import TopoSort

  /** The three maps bfs fills in, each keyed by every node: which nodes were reached
      (the map of booleans, as the set of its true keys), the node each was reached from,
      and its layer (-1 while unreached). */
  datatype Search = Search(visited: set<int>, parent: map<int, Option<int>>, layer: map<int, int>)

  /** A walk of exactly `k` steps leads from `a` to `b`. */
  ghost predicate Hops(g: Store, a: int, b: int, k: int) {
    exists p :: IsPath(g, p) && p[0] == a && p[|p| - 1] == b && |p| == k + 1
  }

  /** `k` is the least number of steps from `a` to `b`: the reference definition of
      a shortest distance. */
  ghost predicate Distance(g: Store, a: int, b: int, k: int) {
    && Hops(g, a, b, k)
    && forall p :: IsPath(g, p) && p[0] == a && p[|p| - 1] == b ==> k <= |p| - 1
  }

  lemma DistanceUnique(g: Store, a: int, b: int, j: int, k: int)
    requires Distance(g, a, b, j) && Distance(g, a, b, k)
    ensures j == k
  {
    var p :| IsPath(g, p) && p[0] == a && p[|p| - 1] == b && |p| == j + 1;
    var q :| IsPath(g, q) && q[0] == a && q[|q| - 1] == b && |q| == k + 1;
  }

  // ----- the invariant of the search loop -----

  /** The maps cover every node; the start is reached at layer 0 with no parent; reached
      nodes have a layer, the others layer -1 and no parent. */
  ghost predicate Shape(g: Store, u: int, s: Search) {
    && s.layer.Keys == g.Keys && s.parent.Keys == g.Keys
    && u in s.visited && s.visited <= g.Keys
    && s.layer[u] == 0 && s.parent[u] == None
    && (forall v :: v in s.visited ==> s.layer[v] >= 0)
    && (forall v :: v in g && v !in s.visited ==> s.layer[v] == -1 && s.parent[v] == None)
  }

  /** `v` was reached from its parent, along an edge, one layer further out. */
  ghost predicate Linked(g: Store, s: Search, v: int) {
    && v in s.parent && s.parent[v].Some?
    && var p := s.parent[v].value;
    && p in s.visited && p in g && v in g[p].adj
    && v in s.layer && p in s.layer && s.layer[v] == s.layer[p] + 1
  }

  ghost predicate Tree(g: Store, u: int, s: Search) {
    forall v :: v in s.visited && v != u ==> Linked(g, s, v)
  }

  /** The queue holds reached nodes, in order of layer, all in layer `front` or the next. */
  ghost predicate Queue(s: Search, q: seq<int>, front: int) {
    && (forall i :: 0 <= i < |q| ==> q[i] in s.visited && q[i] in s.layer && front <= s.layer[q[i]] <= front + 1)
    && (forall i, j :: 0 <= i <= j < |q| ==> s.layer[q[i]] <= s.layer[q[j]])
  }

  /** No reached node lies beyond the next layer; those out of the queue not beyond this one. */
  ghost predicate Bounded(s: Search, q: seq<int>, front: int) {
    forall v :: v in s.visited ==> v in s.layer && s.layer[v] <= front + 1 && (v !in q ==> s.layer[v] <= front)
  }

  /** Every child of `y` is reached, at most one layer further out. */
  ghost predicate Finished(g: Store, s: Search, y: int) {
    && y in g && y in s.layer
    && forall c :: c in g[y].adj ==> c in s.visited && c in s.layer && s.layer[c] <= s.layer[y] + 1
  }

  /** Between two rounds: every reached node out of the queue is finished. */
  ghost predicate Outer(g: Store, u: int, s: Search, q: seq<int>, front: int) {
    && Closed(g) && Shape(g, u, s) && Tree(g, u, s) && Queue(s, q, front) && Bounded(s, q, front)
    && forall y :: y in s.visited && y !in q ==> Finished(g, s, y)
  }

  /** While the children of `x` (layer `front`) are looked at. */
  ghost predicate Inner(g: Store, u: int, s: Search, q: seq<int>, x: int, front: int) {
    && Closed(g) && Shape(g, u, s) && Tree(g, u, s) && Queue(s, q, front) && Bounded(s, q, front)
    && x in s.visited && s.layer[x] == front
    && forall y :: y in s.visited && y !in q && y != x ==> Finished(g, s, y)
  }

  // ----- the search -----

  /** makeVisitedMap, makeParentMap and makeLayerMap, then the start put in layer 0. */
  function Start(g: Store, u: int): (s: Search)
    requires Closed(g) && u in g
    ensures Outer(g, u, s, [u], 0)
  {
    Search({u}, map v | v in g.Keys :: None, (map v | v in g.Keys :: -1)[u := 0])
  }

  /** A child reached for the first time: marked, given its parent and the next layer. */
  function Visit(s: Search, x: int, c: int): (t: Search)
    requires x in s.layer
    ensures t.visited == s.visited + {c}
  {
    Search(s.visited + {c}, s.parent[c := Some(x)], s.layer[c := s.layer[x] + 1])
  }

  lemma Pop(g: Store, u: int, s: Search, q: seq<int>, front: int)
    requires Outer(g, u, s, q, front) && q != []
    ensures Inner(g, u, s, q[1..], q[0], s.layer[q[0]])
  {
    var L := s.layer[q[0]];
    assert q == [q[0]] + q[1..];
    assert Queue(s, q[1..], L) by {
      forall i | 0 <= i < |q[1..]| ensures L <= s.layer[q[1..][i]] {
        assert q[1..][i] == q[i + 1];
      }
    }
  }

  lemma VisitKeeps(g: Store, u: int, s: Search, q: seq<int>, x: int, front: int, c: int)
    requires Inner(g, u, s, q, x, front) && c in g[x].adj && c !in s.visited
    ensures Inner(g, u, Visit(s, x, c), q + [c], x, front)
  {
    var t := Visit(s, x, c);
    assert c in g && c != u;
    assert Linked(g, t, c);
    forall v | v in t.visited && v != u ensures Linked(g, t, v) {
      if v != c {
        assert Linked(g, s, v);
      }
    }
    assert Queue(t, q + [c], front) by {
      forall i | 0 <= i < |q + [c]| ensures (q + [c])[i] in t.visited && front <= t.layer[(q + [c])[i]] <= front + 1 {
        if i < |q| {
          assert (q + [c])[i] == q[i];
        }
      }
      forall i, j | 0 <= i <= j < |q + [c]| ensures t.layer[(q + [c])[i]] <= t.layer[(q + [c])[j]] {
        if j < |q| {
          assert (q + [c])[i] == q[i] && (q + [c])[j] == q[j];
        } else if i < |q| {
          assert (q + [c])[i] == q[i];
        }
      }
    }
    forall y | y in t.visited && y !in q + [c] && y != x ensures Finished(g, t, y) {
      assert Finished(g, s, y);
    }
  }

  lemma Finish(g: Store, u: int, s: Search, q: seq<int>, x: int, front: int)
    requires Inner(g, u, s, q, x, front)
    requires forall c :: c in g[x].adj ==> c in s.visited
    ensures Outer(g, u, s, q, front)
  {
  }

  /** One round of bfs: the children of `x`, in list order, each reached child marked,
      given `x` as parent and the next layer, and queued. */
  method Explore(g: Store, u: int, s0: Search, q0: seq<int>, x: int, ghost front: int) returns (s: Search, q: seq<int>)
    requires Inner(g, u, s0, q0, x, front)
    ensures Outer(g, u, s, q, front)
    ensures s0.visited <= s.visited && |q| - |q0| == |s.visited| - |s0.visited|
  {
    s, q := s0, q0;
    var kids := g[x].adj;
    for i := 0 to |kids|
      invariant Inner(g, u, s, q, x, front)
      invariant forall j :: 0 <= j < i ==> kids[j] in s.visited
      invariant s0.visited <= s.visited && |q| - |q0| == |s.visited| - |s0.visited|
    {
      var c := kids[i];
      if c !in s.visited {
        VisitKeeps(g, u, s, q, x, front, c);
        s := Visit(s, x, c);
        q := q + [c];
      }
    }
    Finish(g, u, s, q, x, front);
  }

  /** bfs(u): the queue loop of the Java method, one round per dequeued node. The nodes
      reached are exactly those reachable from `u`, each in the layer that is its least
      number of steps from `u`, each but `u` with a parent one layer nearer. */
  method BreadthFirst(g: Store, u: int) returns (s: Search)
    requires Closed(g) && u in g
    ensures Shape(g, u, s) && Tree(g, u, s)
    ensures forall v :: v in g ==> (v in s.visited <==> Reach(g, u, v))
    ensures forall v :: v in s.visited ==> Distance(g, u, v, s.layer[v])
  {
    s := Start(g, u);
    var q := [u];
    ghost var front := 0;
    while q != []
      invariant Outer(g, u, s, q, front)
      decreases g.Keys - s.visited, |q|
    {
      var x := q[0];
      Pop(g, u, s, q, front);
      front := s.layer[x];
      ghost var before, len := s.visited, |q|;
      s, q := Explore(g, u, s, q[1..], x, front);
      if s.visited - before != {} {
        var w := Pick(s.visited - before);
        assert w in g.Keys - before && w !in g.Keys - s.visited;
      } else {
        assert forall w :: w in s.visited ==> w in s.visited - before || w in before;
        assert s.visited == before;
      }
    }
    Explored(g, u, s, front);
  }

  /** Once the queue is empty, every reached node is finished, and that closes the proof. */
  lemma Explored(g: Store, u: int, s: Search, front: int)
    requires Outer(g, u, s, [], front)
    ensures forall v :: v in g ==> (v in s.visited <==> Reach(g, u, v))
    ensures forall v :: v in s.visited ==> Distance(g, u, v, s.layer[v])
  {
    forall v | v in s.visited ensures Reach(g, u, v) && Distance(g, u, v, s.layer[v]) {
      TreeHops(g, u, s, v);
      var w :| IsPath(g, w) && w[0] == u && w[|w| - 1] == v && |w| == s.layer[v] + 1;
      forall p | IsPath(g, p) && p[0] == u && p[|p| - 1] == v ensures s.layer[v] <= |p| - 1 {
        WalkLayer(g, u, s, p);
      }
    }
    forall v | v in g && Reach(g, u, v) ensures v in s.visited {
      var p :| IsPath(g, p) && p[0] == u && p[|p| - 1] == v;
      WalkLayer(g, u, s, p);
    }
  }

  /** Following the parents back from a reached node gives a walk of `layer` steps. */
  lemma {:induction false} TreeHops(g: Store, u: int, s: Search, v: int)
    requires Shape(g, u, s) && Tree(g, u, s) && v in s.visited
    ensures Hops(g, u, v, s.layer[v])
    decreases s.layer[v]
  {
    if v == u {
      assert IsPath(g, [u]);
    } else {
      assert Linked(g, s, v);
      var p := s.parent[v].value;
      TreeHops(g, u, s, p);
      var w :| IsPath(g, w) && w[0] == u && w[|w| - 1] == p && |w| == s.layer[p] + 1;
      var w' := w + [v];
      assert IsPath(g, w') by {
        forall i | 0 <= i < |w'| - 1 ensures w'[i + 1] in g[w'[i]].adj {
          if i < |w| - 1 {
            assert w'[i] == w[i] && w'[i + 1] == w[i + 1];
          }
        }
      }
    }
  }

  /** When every reached node is finished, every walk from the start ends at a reached node
      whose layer is at most the walk's number of steps. */
  lemma {:induction false} WalkLayer(g: Store, u: int, s: Search, p: seq<int>)
    requires Shape(g, u, s) && forall y :: y in s.visited ==> Finished(g, s, y)
    requires IsPath(g, p) && p[0] == u
    ensures p[|p| - 1] in s.visited && s.layer[p[|p| - 1]] <= |p| - 1
    decreases |p|
  {
    var n := |p|;
    if n > 1 {
      var pre := p[..n - 1];
      assert IsPath(g, pre) by {
        forall i | 0 <= i < |pre| - 1 ensures pre[i + 1] in g[pre[i]].adj {
          assert pre[i] == p[i] && pre[i + 1] == p[i + 1];
        }
      }
      WalkLayer(g, u, s, pre);
      assert pre[n - 2] == p[n - 2];
      assert p[n - 1] in g[p[n - 2]].adj;
      var y, c := p[n - 2], p[n - 1];
      assert y in s.visited && s.layer[y] <= n - 2;
      assert Finished(g, s, y);
      assert c in s.visited && s.layer[c] <= s.layer[y] + 1;
    } else {
      assert p[n - 1] == u;
    }
  }

  // ----- the queries -----

  /** ShortestDistanceFromTo(from, to): bfs from `from` (an unknown start is an error),
      then the layer of `to` (an unknown target has none: an error too). */
  method ShortestDistanceFromTo(g: Store, from: int, to: int) returns (r: Result<int>)
    requires Closed(g)
    ensures r.Err? <==> from !in g || to !in g
    ensures r.Err? ==> r.error == UnknownNode(if from !in g then from else to)
    ensures r.Ok? ==> (r.value == -1 <==> !Reach(g, from, to))
    ensures r.Ok? && r.value != -1 ==> Distance(g, from, to, r.value)
  {
    if from !in g {
      return Err(UnknownNode(from));
    }
    var s := BreadthFirst(g, from);
    if to !in s.layer {
      return Err(UnknownNode(to));
    }
    r := Ok(s.layer[to]);
  }

  /** bfsTree(from): makeTree over bfs's parents. Its edges are edges of the graph, each
      leading one step further from `from` along a shortest walk; every node reachable from
      `from`, other than `from`, has exactly one incoming tree edge, other nodes none; and
      the tree has no cycle. */
  method BfsTree(g: Store, from: int) returns (r: Result<Store>)
    requires Closed(g)
    ensures r.Err? <==> from !in g
    ensures r.Err? ==> r.error == UnknownNode(from)
    ensures r.Ok? ==> r.value.Keys == g.Keys && DValid(r.value) && !HasCycle(r.value)
    ensures r.Ok? ==> forall a, b :: (a, b) in Edges(r.value) ==> b in g[a].adj && b != from && Reach(g, from, a)
    ensures r.Ok? ==> forall a, b, k :: (a, b) in Edges(r.value) && Distance(g, from, a, k) ==> Distance(g, from, b, k + 1)
    ensures r.Ok? ==> forall a, c, b :: (a, b) in Edges(r.value) && (c, b) in Edges(r.value) ==> a == c
    ensures r.Ok? ==> forall b :: b in g && b != from && Reach(g, from, b) ==> exists a :: (a, b) in Edges(r.value)
  {
    if from !in g {
      return Err(UnknownNode(from));
    }
    var s := BreadthFirst(g, from);
    assert forall k :: k in s.parent && s.parent[k].Some? ==> Linked(g, s, k);
    var tree := MakeTree(s.parent);
    BfsTreeFacts(g, from, s, tree);
    r := Ok(tree);
  }

  lemma BfsTreeFacts(g: Store, from: int, s: Search, tree: Store)
    requires Shape(g, from, s) && Tree(g, from, s)
    requires forall v :: v in g ==> (v in s.visited <==> Reach(g, from, v))
    requires forall v :: v in s.visited ==> Distance(g, from, v, s.layer[v])
    requires forall a, b :: (a, b) in Edges(tree) <==> b in s.parent && s.parent[b] == Some(a)
    ensures !HasCycle(tree)
    ensures forall a, b :: (a, b) in Edges(tree) ==> b in g[a].adj && b != from && Reach(g, from, a)
    ensures forall a, b, k :: (a, b) in Edges(tree) && Distance(g, from, a, k) ==> Distance(g, from, b, k + 1)
    ensures forall b :: b in g && b != from && Reach(g, from, b) ==> exists a :: (a, b) in Edges(tree)
  {
    forall a, b | (a, b) in Edges(tree) ensures Linked(g, s, b) && s.parent[b] == Some(a) {
    }
    TopoSort.RankedAcyclic(tree, s.layer);
    forall a, b, k | (a, b) in Edges(tree) && Distance(g, from, a, k) ensures Distance(g, from, b, k + 1) {
      assert Linked(g, s, b);
      DistanceUnique(g, from, a, k, s.layer[a]);
    }
    forall b | b in g && b != from && Reach(g, from, b) ensures exists a :: (a, b) in Edges(tree) {
      assert Linked(g, s, b);
      assert (s.parent[b].value, b) in Edges(tree);
    }
  }
}

=== FILE: dfs.dfy ===
/** UndirectedGraph's depth-first search (dfs) and the two queries built on it,
    getConnectedComponentOf and dfsTree. Like bfs, it only follows adjacency lists. */
module Dfs {
  import opened Results
  import opened Seqs
  import opened Nodes
  import opened Paths
  import opened Directed
  import opened Undirected
  import TopoSort

  /** The two maps dfs fills in, keyed by every node: which nodes were reached (the map of
      booleans, as the set of its true keys) and the node each was reached from. */
  datatype Search = Search(visited: set<int>, parent: map<int, Option<int>>)

  /** A reached node with a parent got it from a node reached earlier (lower rank, the
      order of discovery), along an edge. */
  ghost predicate Linked(g: Store, s: Search, rank: map<int, int>, v: int) {
    && v in s.parent && s.parent[v].Some?
    && var p := s.parent[v].value;
    && p in s.visited && p in g && v in g[p].adj
    && p in rank && v in rank && rank[p] < rank[v]
  }

  /** The bookkeeping every call of dfs starts and ends with. */
  ghost predicate Forest(g: Store, s: Search, rank: map<int, int>) {
    && Closed(g) && s.visited <= g.Keys && s.parent.Keys == g.Keys && rank.Keys == s.visited
    && (forall v :: v in s.visited ==> 0 <= rank[v] < |s.visited|)
    && (forall v :: v in s.visited && s.parent[v].Some? ==> Linked(g, s, rank, v))
  }

  /** Every child of `y` is reached. */
  ghost predicate Finished(g: Store, visited: set<int>, y: int) {
    y in g && forall c :: c in g[y].adj ==> c in visited
  }

  /** The state of a call of dfs(u) that started from `s0`, between two children. */
  ghost predicate Round(g: Store, u: int, s0: Search, s: Search, rank: map<int, int>) {
    && Forest(g, s, rank) && s0.parent.Keys == g.Keys
    && s0.visited + {u} <= s.visited
    && (forall v :: v in g && v !in s.visited ==> s.parent[v] == None)
    && (forall v :: v in s.visited - s0.visited ==> Reach(g, u, v))
    && (forall v :: v in s.visited - s0.visited && v != u ==> Finished(g, s.visited, v) && s.parent[v].Some?)
    && (forall v :: v in s0.visited + {u} ==> s.parent[v] == s0.parent[v])
  }

  /** dfs(u): a node already reached is left alone; otherwise it is marked, and each child
      not yet reached gets `u` as parent and is searched in turn. Nodes reached by this
      call are reachable from `u` and finished; parents change only for them. The caller
      may have set u's parent just before the call. */
  method Visit(g: Store, u: int, s0: Search, ghost rank0: map<int, int>) returns (s: Search, ghost rank: map<int, int>)
    requires Forest(g, s0, rank0) && u in g
    requires forall v :: v in g && v !in s0.visited && v != u ==> s0.parent[v] == None
    requires u !in s0.visited && s0.parent[u].Some? ==> var p := s0.parent[u].value; p in s0.visited && u in g[p].adj && p in rank0
    ensures Forest(g, s, rank)
    ensures s0.visited + {u} <= s.visited
    ensures forall v :: v in g && v !in s.visited ==> s.parent[v] == None
    ensures forall v :: v in s.visited - s0.visited ==> Reach(g, u, v) && Finished(g, s.visited, v)
    ensures forall v :: v in s.visited - s0.visited && v != u ==> s.parent[v].Some?
    ensures forall v :: v in s0.visited + {u} ==> s.parent[v] == s0.parent[v]
    decreases g.Keys - s0.visited, 0
  {
    if u in s0.visited {
      return s0, rank0;
    }
    s := s0.(visited := s0.visited + {u});
    rank := rank0[u := |s0.visited|];
    Opening(g, u, s0, rank0);
    var kids := g[u].adj;
    for i := 0 to |kids|
      invariant Round(g, u, s0, s, rank)
      invariant forall j :: 0 <= j < i ==> kids[j] in s.visited
    {
      ghost var before := s.visited;
      s, rank := Child(g, u, s0, s, rank, kids[i]);
      Grown(kids, i, before, s.visited);
    }
    assert Finished(g, s.visited, u);
    Closing(g, u, s0, s, rank);
  }

  lemma Grown(kids: seq<int>, i: int, before: set<int>, after: set<int>)
    requires 0 <= i < |kids| && before + {kids[i]} <= after
    requires forall j :: 0 <= j < i ==> kids[j] in before
    ensures forall j :: 0 <= j < i + 1 ==> kids[j] in after
  {
  }

  /** One child `c` of `u`: when not yet reached, it gets `u` as parent and is searched. */
  method Child(g: Store, u: int, s0: Search, s: Search, ghost rank: map<int, int>, c: int)
    returns (s': Search, ghost rank': map<int, int>)
    requires Round(g, u, s0, s, rank) && u in g && c in g[u].adj && u !in s0.visited
    ensures Round(g, u, s0, s', rank') && s.visited + {c} <= s'.visited
    decreases g.Keys - s.visited, 1
  {
    if c in s.visited {
      return s, rank;
    }
    var sc := s.(parent := s.parent[c := Some(u)]);
    ParentKeeps(g, s, rank, u, c);
    s', rank' := Visit(g, c, sc, rank);
    AfterChild(g, u, s0, s, sc, s', rank, rank', c);
  }

  lemma Opening(g: Store, u: int, s0: Search, rank0: map<int, int>)
    requires Forest(g, s0, rank0) && u in g && u !in s0.visited
    requires forall v :: v in g && v !in s0.visited && v != u ==> s0.parent[v] == None
    requires s0.parent[u].Some? ==> var p := s0.parent[u].value; p in s0.visited && u in g[p].adj && p in rank0
    ensures Round(g, u, s0, s0.(visited := s0.visited + {u}), rank0[u := |s0.visited|])
  {
    MarkKeeps(g, u, s0, rank0);
    ReachRefl(g, u);
  }

  lemma Closing(g: Store, u: int, s0: Search, s: Search, rank: map<int, int>)
    requires Round(g, u, s0, s, rank) && Finished(g, s.visited, u)
    ensures forall v :: v in s.visited - s0.visited ==> Reach(g, u, v) && Finished(g, s.visited, v)
    ensures forall v :: v in s.visited - s0.visited && v != u ==> s.parent[v].Some?
  {
  }

  /** After the call on a child, the state of the call on `u` is kept. */
  lemma AfterChild(g: Store, u: int, s0: Search, s: Search, sc: Search, s': Search,
                   rank: map<int, int>, rank': map<int, int>, c: int)
    requires Round(g, u, s0, s, rank) && u in g && c in g[u].adj && c !in s.visited
    requires sc == s.(parent := s.parent[c := Some(u)])
    requires Forest(g, s', rank') && sc.visited + {c} <= s'.visited
    requires forall v :: v in g && v !in s'.visited ==> s'.parent[v] == None
    requires forall v :: v in s'.visited - sc.visited ==> Reach(g, c, v) && Finished(g, s'.visited, v)
    requires forall v :: v in s'.visited - sc.visited && v != c ==> s'.parent[v].Some?
    requires forall v :: v in sc.visited + {c} ==> s'.parent[v] == sc.parent[v]
    ensures Round(g, u, s0, s', rank') && s.visited + {c} <= s'.visited
  {
    assert c in g;
    ReachAfter(g, u, c, sc.visited, s'.visited);
    forall v | v in s'.visited - s0.visited ensures Reach(g, u, v) {
      if v !in s'.visited - sc.visited {
        assert v in s.visited - s0.visited;
      }
    }
    forall v | v in s'.visited - s0.visited && v != u ensures Finished(g, s'.visited, v) && s'.parent[v].Some? {
      if v !in s'.visited - sc.visited {
        assert Finished(g, s.visited, v) && s.parent[v].Some?;
      }
    }
  }

  /** Marking `u` (with the next rank) keeps the bookkeeping. */
  lemma MarkKeeps(g: Store, u: int, s0: Search, rank0: map<int, int>)
    requires Forest(g, s0, rank0) && u in g && u !in s0.visited
    requires s0.parent[u].Some? ==> var p := s0.parent[u].value; p in s0.visited && u in g[p].adj && p in rank0
    ensures Forest(g, s0.(visited := s0.visited + {u}), rank0[u := |s0.visited|])
  {
    var s, rank := s0.(visited := s0.visited + {u}), rank0[u := |s0.visited|];
    forall v | v in s.visited && s.parent[v].Some? ensures Linked(g, s, rank, v) {
      if v != u {
        assert Linked(g, s0, rank0, v);
      }
    }
  }

  /** Giving an unreached child of a reached node that node as parent keeps the bookkeeping. */
  lemma ParentKeeps(g: Store, s: Search, rank: map<int, int>, u: int, c: int)
    requires Forest(g, s, rank) && u in s.visited && c in g && c !in s.visited
    ensures Forest(g, s.(parent := s.parent[c := Some(u)]), rank)
  {
    var t := s.(parent := s.parent[c := Some(u)]);
    forall v | v in t.visited && t.parent[v].Some? ensures Linked(g, t, rank, v) {
      assert Linked(g, s, rank, v);
    }
  }

  /** What the child's call reached is reachable from `u` too. */
  lemma ReachAfter(g: Store, u: int, c: int, before: set<int>, after: set<int>)
    requires u in g && c in g[u].adj && c in g
    requires forall v :: v in after - before ==> Reach(g, c, v)
    ensures forall v :: v in after - before ==> Reach(g, u, v)
  {
    forall v | v in after - before ensures Reach(g, u, v) {
      ReachEdge(g, u, c);
      ReachTrans(g, u, c, v);
    }
  }

  // ----- the queries -----

  /** makeVisitedMap and makeParentMap: nothing reached, no parents. */
  function Fresh(g: Store): (s: Search)
    requires Closed(g)
    ensures Forest(g, s, map[])
    ensures forall v :: v in g ==> s.parent[v] == None
  {
    Search({}, map v | v in g.Keys :: None)
  }

  /** dfs from `u` on a fresh search: the nodes reached are exactly those reachable from
      `u`; every one but `u` has a parent reached before it, along an edge; `u` and the
      unreached nodes have none. */
  method DepthFirst(g: Store, u: int) returns (s: Search, ghost rank: map<int, int>)
    requires Closed(g) && u in g
    ensures Forest(g, s, rank)
    ensures forall v :: v in g ==> (v in s.visited <==> Reach(g, u, v))
    ensures forall v :: v in g ==> (s.parent[v].Some? <==> v in s.visited && v != u)
  {
    var s0 := Fresh(g);
    s, rank := Visit(g, u, s0, map[]);
    assert s.visited - s0.visited == s.visited;
    DepthFirstFacts(g, u, s, rank);
  }

  lemma DepthFirstFacts(g: Store, u: int, s: Search, rank: map<int, int>)
    requires Forest(g, s, rank) && u in s.visited && s.parent[u] == None
    requires forall v :: v in s.visited ==> Reach(g, u, v) && Finished(g, s.visited, v)
    requires forall v :: v in s.visited && v != u ==> s.parent[v].Some?
    requires forall v :: v in g && v !in s.visited ==> s.parent[v] == None
    ensures forall v :: v in g ==> (v in s.visited <==> Reach(g, u, v))
    ensures forall v :: v in g ==> (s.parent[v].Some? <==> v in s.visited && v != u)
  {
    ReachClosed(g, u, s.visited);
  }

  /** A set that holds `u` and, with every member, all its children, holds every node
      reachable from `u`. */
  lemma ReachClosed(g: Store, u: int, r: set<int>)
    requires u in r && forall v :: v in r ==> Finished(g, r, v)
    ensures forall v :: Reach(g, u, v) ==> v in r
  {
    forall v | Reach(g, u, v) ensures v in r {
      var p :| IsPath(g, p) && p[0] == u && p[|p| - 1] == v;
      WalkInside(g, u, r, p);
    }
  }

  lemma {:induction false} WalkInside(g: Store, u: int, r: set<int>, p: seq<int>)
    requires u in r && forall v :: v in r ==> Finished(g, r, v)
    requires IsPath(g, p) && p[0] == u
    ensures p[|p| - 1] in r
    decreases |p|
  {
    var n := |p|;
    if n > 1 {
      var pre := p[..n - 1];
      assert IsPath(g, pre) by {
        forall i | 0 <= i < |pre| - 1 ensures pre[i + 1] in g[pre[i]].adj {
          assert pre[i] == p[i] && pre[i + 1] == p[i + 1];
        }
      }
      WalkInside(g, u, r, pre);
      var y, c := p[n - 2], p[n - 1];
      assert pre[n - 2] == y && c in g[y].adj;
      assert Finished(g, r, y);
    } else {
      assert p[n - 1] == u;
    }
  }

  /** getConnectedComponentOf(u): an unknown node is an error; otherwise the nodes dfs
      marks, which are the nodes reachable from `u`. */
  method GetConnectedComponentOf(g: Store, u: int) returns (r: Result<set<int>>)
    requires Closed(g)
    ensures r.Err? <==> u !in g
    ensures r.Err? ==> r.error == UnknownNode(u)
    ensures r.Ok? ==> forall v :: v in r.value <==> v in g && Reach(g, u, v)
  {
    if u !in g {
      return Err(UnknownNode(u));
    }
    var s, rank := DepthFirst(g, u);
    r := Ok(s.visited);
  }

  /** With symmetric lists, reachability goes both ways, so two nodes lie in each other's
      component or in neither. */
  lemma ComponentSymmetric(g: Store, a: int, b: int)
    requires Symmetric(g)
    ensures Reach(g, a, b) <==> Reach(g, b, a)
  {
    if Reach(g, a, b) {
      ReachBack(g, a, b);
    }
    if Reach(g, b, a) {
      ReachBack(g, b, a);
    }
  }

  lemma ReachBack(g: Store, a: int, b: int)
    requires Symmetric(g) && Reach(g, a, b)
    ensures Reach(g, b, a)
  {
    var p :| IsPath(g, p) && p[0] == a && p[|p| - 1] == b;
    var q := Backwards(p);
    assert IsPath(g, q) by {
      forall i | 0 <= i < |q| - 1 ensures q[i + 1] in g[q[i]].adj {
        var j := |p| - 2 - i;
        assert q[i] == p[j + 1] && q[i + 1] == p[j];
        assert p[j + 1] in g[p[j]].adj;
        assert Count(g[p[j]].adj, p[j + 1]) == Count(g[p[j + 1]].adj, p[j]);
      }
    }
  }

  /** dfsTree(from): makeTree over dfs's parents. Its edges are edges of the graph; every
      node reachable from `from`, other than `from`, has exactly one incoming tree edge,
      other nodes none; and the tree has no cycle. */
  method DfsTree(g: Store, from: int) returns (r: Result<Store>)
    requires Closed(g)
    ensures r.Err? <==> from !in g
    ensures r.Err? ==> r.error == UnknownNode(from)
    ensures r.Ok? ==> r.value.Keys == g.Keys && DValid(r.value) && !HasCycle(r.value)
    ensures r.Ok? ==> forall a, b :: (a, b) in Edges(r.value) ==> b in g[a].adj && b != from && Reach(g, from, a)
    ensures r.Ok? ==> forall a, c, b :: (a, b) in Edges(r.value) && (c, b) in Edges(r.value) ==> a == c
    ensures r.Ok? ==> forall b :: b in g && b != from && Reach(g, from, b) ==> exists a :: (a, b) in Edges(r.value)
  {
    if from !in g {
      return Err(UnknownNode(from));
    }
    var s, rank := DepthFirst(g, from);
    assert forall k :: k in s.parent && s.parent[k].Some? ==> Linked(g, s, rank, k);
    var tree := MakeTree(s.parent);
    DfsTreeFacts(g, from, s, rank, tree);
    r := Ok(tree);
  }

  lemma DfsTreeFacts(g: Store, from: int, s: Search, rank: map<int, int>, tree: Store)
    requires Forest(g, s, rank) && from in g
    requires forall v :: v in g ==> (v in s.visited <==> Reach(g, from, v))
    requires forall v :: v in g ==> (s.parent[v].Some? <==> v in s.visited && v != from)
    requires forall a, b :: (a, b) in Edges(tree) <==> b in s.parent && s.parent[b] == Some(a)
    ensures !HasCycle(tree)
    ensures forall a, b :: (a, b) in Edges(tree) ==> b in g[a].adj && b != from && Reach(g, from, a)
    ensures forall b :: b in g && b != from && Reach(g, from, b) ==> exists a :: (a, b) in Edges(tree)
  {
    forall a, b | (a, b) in Edges(tree) ensures Linked(g, s, rank, b) && s.parent[b] == Some(a) {
    }
    TopoSort.RankedAcyclic(tree, rank);
    forall b | b in g && b != from && Reach(g, from, b) ensures exists a :: (a, b) in Edges(tree) {
      assert (s.parent[b].value, b) in Edges(tree);
    }
  }
}

=== FILE: dijkstra.dfy ===
/** WeightedGraph.Dijkstras: single-source shortest paths for non-negative weights.
    Every node starts at INFINITY, the source at 0; the queue holds every node, the
    node with the least current estimate is taken out and, unless it is the stop node,
    its children are relaxed (a child whose estimate improves is taken out of the queue
    and put back). */
module Dijkstra {
  import opened Results
  import opened Seqs
  import opened Nodes
  import opened Paths
  import opened Directed
  import opened WeightedPaths
  import opened Weighted

  /** The two maps the Java method fills: estimates and predecessors. */
  datatype Search = Search(dist: map<int, int>, pred: map<int, Option<int>>)

  /** A walk from `s` to `v` that never leaves the stop node: every node but the last
      differs from `stop`. With no stop node this is any walk from s to v. */
  ghost predicate StopPath(g: Store, stop: Option<int>, p: seq<int>, s: int, v: int) {
    && IsPath(g, p) && p[0] == s && p[|p| - 1] == v
    && (forall i :: 0 <= i < |p| - 1 ==> Some(p[i]) != stop)
  }

  /** No such walk weighs less than `d`. */
  ghost predicate LowerBound(g: Store, w: Weights, stop: Option<int>, s: int, v: int, d: int) {
    forall p :: StopPath(g, stop, p, s, v) ==> d <= PathWeight(w, p)
  }

  /** Some such walk weighs exactly `d`. */
  ghost predicate Attained(g: Store, w: Weights, stop: Option<int>, s: int, v: int, d: int) {
    exists p :: StopPath(g, stop, p, s, v) && PathWeight(w, p) == d
  }

  /** `d` is the least weight of a walk from s to v that does not leave the stop node,
      or INFINITY when there is none lighter than INFINITY. */
  ghost predicate ShortestCapped(g: Store, w: Weights, stop: Option<int>, s: int, v: int, d: int) {
    d <= INFINITY && LowerBound(g, w, stop, s, v, d) && (d == INFINITY || Attained(g, w, stop, s, v, d))
  }

  // ----- the loop state -----

  ghost predicate Bounds(g: Store, s: int, dist: map<int, int>) {
    && dist.Keys == g.Keys && s in g && dist[s] == 0
    && (forall v :: v in dist ==> 0 <= dist[v] <= INFINITY)
  }

  /** Every node taken out of the queue is no farther than any node still in it. */
  ghost predicate Ordered(g: Store, dist: map<int, int>, q: set<int>) {
    && q <= g.Keys && dist.Keys == g.Keys
    && (forall a, b :: a in g && a !in q && b in q ==> dist[a] <= dist[b])
  }

  /** No edge out of `a` can improve an estimate. */
  ghost predicate RelaxedFrom(g: Store, w: Weights, dist: map<int, int>, a: int)
    requires a in g
  {
    forall c :: c in g[a].adj ==> a in dist && c in dist && dist[c] <= dist[a] + EdgeWeight(w, a, c)
  }

  /** Every node out of the queue, except the stop node and those in `open`, has been relaxed. */
  ghost predicate Relaxed(g: Store, w: Weights, stop: Option<int>, dist: map<int, int>, q: set<int>, open: set<int>) {
    forall a :: a in g && a !in q && a !in open && Some(a) != stop ==> RelaxedFrom(g, w, dist, a)
  }

  /** Every finite estimate is the weight of a walk that does not leave the stop node. */
  ghost predicate Witnessed(g: Store, w: Weights, stop: Option<int>, s: int, dist: map<int, int>) {
    forall v {:trigger Attained(g, w, stop, s, v, dist[v])} ::
      v in g && v in dist && dist[v] < INFINITY ==> Attained(g, w, stop, s, v, dist[v])
  }

  /** `u` is a valid predecessor of `v`: a relaxed node, out of the queue, with an edge to v
      that accounts for v's estimate exactly. */
  ghost predicate PredEdge(g: Store, w: Weights, stop: Option<int>, dist: map<int, int>, q: set<int>, u: int, v: int) {
    && u in g && u !in q && Some(u) != stop && v in g[u].adj && u in dist && v in dist
    && dist[v] == dist[u] + EdgeWeight(w, u, v)
  }

  /** The predecessor map: none exactly for the source and the nodes still at INFINITY. */
  ghost predicate PredOk(g: Store, w: Weights, stop: Option<int>, s: int, dist: map<int, int>,
                         pred: map<int, Option<int>>, q: set<int>) {
    && pred.Keys == g.Keys && dist.Keys == g.Keys
    && (forall v {:trigger pred[v]} :: v in g ==> (pred[v].None? <==> v == s || dist[v] == INFINITY))
    && (forall v {:trigger pred[v]} :: v in g && pred[v].Some? ==> PredEdge(g, w, stop, dist, q, pred[v].value, v))
  }

  ghost predicate Inv(g: Store, w: Weights, stop: Option<int>, s: int, dist: map<int, int>,
                      pred: map<int, Option<int>>, q: set<int>, open: set<int>) {
    && Bounds(g, s, dist) && Ordered(g, dist, q) && Relaxed(g, w, stop, dist, q, open)
    && Witnessed(g, w, stop, s, dist) && PredOk(g, w, stop, s, dist, pred, q)
  }

  // ----- the algorithm -----

  /** Polling the priority queue: some node of least estimate (ties broken arbitrarily). */
  method ExtractMin(dist: map<int, int>, q: set<int>) returns (sel: int)
    requires q != {} && q <= dist.Keys
    ensures sel in q && forall x :: x in q ==> dist[sel] <= dist[x]
  {
    ghost var y0 := Pick(q);
    sel :| sel in q;
    var rest := q - {sel};
    while rest != {}
      invariant rest <= q && sel in q
      invariant forall x :: x in q && x !in rest ==> dist[sel] <= dist[x]
      decreases rest
    {
      ghost var y := Pick(rest);
      var x :| x in rest;
      if dist[x] < dist[sel] {
        sel := x;
      }
      rest := rest - {x};
    }
  }

  lemma InitInv(g: Store, w: Weights, stop: Option<int>, s: int, dist: map<int, int>, pred: map<int, Option<int>>)
    requires Closed(g) && s in g
    requires dist == map v | v in g.Keys :: if v == s then 0 else INFINITY
    requires pred == map v | v in g.Keys :: None
    ensures Inv(g, w, stop, s, dist, pred, g.Keys, {})
  {
    assert StopPath(g, stop, [s], s, s);
  }

  /** Taking the least node out of the queue keeps the state, with that node still open. */
  lemma TakeOut(g: Store, w: Weights, stop: Option<int>, s: int, dist: map<int, int>,
                pred: map<int, Option<int>>, q: set<int>, sel: int)
    requires Inv(g, w, stop, s, dist, pred, q, {})
    requires sel in q && forall x :: x in q ==> dist[sel] <= dist[x]
    ensures Inv(g, w, stop, s, dist, pred, q - {sel}, {sel})
    ensures forall a :: a in g && a !in q - {sel} ==> dist[a] <= dist[sel]
  {
  }

  /** The stop node is taken out without relaxing its edges. */
  lemma SkipStop(g: Store, w: Weights, stop: Option<int>, s: int, dist: map<int, int>,
                 pred: map<int, Option<int>>, q: set<int>, sel: int)
    requires Inv(g, w, stop, s, dist, pred, q, {sel}) && Some(sel) == stop
    ensures Inv(g, w, stop, s, dist, pred, q, {})
  {
  }

  /** The state while the children of `sel` are relaxed. */
  ghost predicate ChildInv(g: Store, w: Weights, stop: Option<int>, s: int, dist: map<int, int>,
                           pred: map<int, Option<int>>, q: set<int>, sel: int, done: set<int>) {
    && Inv(g, w, stop, s, dist, pred, q, {sel})
    && sel in g && sel !in q && Some(sel) != stop
    && (forall a :: a in g && a !in q ==> dist[a] <= dist[sel])
    && (forall c :: c in done ==> c in g && dist[c] <= dist[sel] + EdgeWeight(w, sel, c))
  }

  /** One relaxation: `child`'s estimate improves through `sel`; the child cannot have left
      the queue, so putting it back changes nothing. */
  method Relax(g: Store, w: Weights, stop: Option<int>, s: int, dist: map<int, int>,
               pred: map<int, Option<int>>, q: set<int>, sel: int, ghost done: set<int>, child: int)
    returns (dist': map<int, int>, pred': map<int, Option<int>>, q': set<int>)
    requires NonNegative(w)
    requires ChildInv(g, w, stop, s, dist, pred, q, sel, done)
    requires child in g[sel].adj && child in g
    requires dist[sel] + EdgeWeight(w, sel, child) < dist[child]
    ensures ChildInv(g, w, stop, s, dist', pred', q', sel, done + {child})
    ensures q' == q
  {
    var d := dist[sel] + EdgeWeight(w, sel, child);
    StillQueued(g, w, stop, s, dist, pred, q, sel, done, child);
    RelaxKeeps(g, w, stop, s, dist, pred, q, sel, done, child, d);
    dist', pred', q' := dist[child := d], pred[child := Some(sel)], q + {child};
  }

  /** An improvable child is still queued, and its improved estimate is finite, at least
      the estimate of `sel`, and the weight of a walk. */
  lemma StillQueued(g: Store, w: Weights, stop: Option<int>, s: int, dist: map<int, int>,
                    pred: map<int, Option<int>>, q: set<int>, sel: int, done: set<int>, child: int)
    requires NonNegative(w)
    requires ChildInv(g, w, stop, s, dist, pred, q, sel, done)
    requires child in g[sel].adj && child in g
    requires dist[sel] + EdgeWeight(w, sel, child) < dist[child]
    ensures child in q && child != s && child != sel
    ensures 0 <= EdgeWeight(w, sel, child) && dist[sel] < INFINITY
    ensures Attained(g, w, stop, s, child, dist[sel] + EdgeWeight(w, sel, child))
  {
    assert EdgeWeight(w, sel, child) >= 0;
    RelaxWitness(g, w, stop, s, dist, sel, child);
  }

  lemma RelaxWitness(g: Store, w: Weights, stop: Option<int>, s: int, dist: map<int, int>, sel: int, child: int)
    requires Witnessed(g, w, stop, s, dist) && dist.Keys == g.Keys && sel in g && child in g
    requires Some(sel) != stop && child in g[sel].adj && dist[sel] < INFINITY
    ensures Attained(g, w, stop, s, child, dist[sel] + EdgeWeight(w, sel, child))
  {
    assert Attained(g, w, stop, s, sel, dist[sel]);
    var p :| StopPath(g, stop, p, s, sel) && PathWeight(w, p) == dist[sel];
    var p' := p + [child];
    WeightAppend(w, p, child);
    assert StopPath(g, stop, p', s, child);
  }

  lemma RelaxKeeps(g: Store, w: Weights, stop: Option<int>, s: int, dist: map<int, int>,
                   pred: map<int, Option<int>>, q: set<int>, sel: int, done: set<int>, child: int, d: int)
    requires ChildInv(g, w, stop, s, dist, pred, q, sel, done)
    requires child in g[sel].adj && child in q && child != s && child != sel
    requires d == dist[sel] + EdgeWeight(w, sel, child) && d < dist[child] && dist[sel] <= d
    requires Attained(g, w, stop, s, child, d)
    ensures q + {child} == q
    ensures ChildInv(g, w, stop, s, dist[child := d], pred[child := Some(sel)], q, sel, done + {child})
  {
    var dist' := dist[child := d];
    var pred' := pred[child := Some(sel)];
    BoundsKeep(g, s, dist, child, d);
    OrderedKeep(g, dist, q, sel, child, d);
    RelaxedKeep(g, w, stop, dist, q, sel, child, d);
    WitnessedKeep(g, w, stop, s, dist, child, d);
    PredKeep(g, w, stop, s, dist, pred, q, sel, child, d);
    DoneKeep(g, w, dist, q, sel, done, child, d);
  }

  lemma BoundsKeep(g: Store, s: int, dist: map<int, int>, child: int, d: int)
    requires Bounds(g, s, dist) && child in g && child != s && 0 <= d < dist[child]
    ensures Bounds(g, s, dist[child := d])
  {
  }

  lemma OrderedKeep(g: Store, dist: map<int, int>, q: set<int>, sel: int, child: int, d: int)
    requires Ordered(g, dist, q) && child in q && sel in g && sel !in q && dist[sel] <= d
    requires forall a :: a in g && a !in q ==> dist[a] <= dist[sel]
    ensures Ordered(g, dist[child := d], q)
    ensures forall a :: a in g && a !in q ==> dist[child := d][a] <= dist[child := d][sel]
  {
  }

  lemma DoneKeep(g: Store, w: Weights, dist: map<int, int>, q: set<int>, sel: int, done: set<int>, child: int, d: int)
    requires dist.Keys == g.Keys && sel in g && child in g && child != sel
    requires forall c :: c in done ==> c in g && dist[c] <= dist[sel] + EdgeWeight(w, sel, c)
    requires d == dist[sel] + EdgeWeight(w, sel, child) && d < dist[child]
    ensures forall c :: c in done + {child} ==> c in g && dist[child := d][c] <= dist[child := d][sel] + EdgeWeight(w, sel, c)
  {
  }

  lemma RelaxedKeep(g: Store, w: Weights, stop: Option<int>, dist: map<int, int>, q: set<int>,
                    sel: int, child: int, d: int)
    requires Relaxed(g, w, stop, dist, q, {sel}) && dist.Keys == g.Keys
    requires child in q && child in g && d < dist[child]
    ensures Relaxed(g, w, stop, dist[child := d], q, {sel})
  {
    var dist' := dist[child := d];
    forall a | a in g && a !in q && a != sel && Some(a) != stop ensures RelaxedFrom(g, w, dist', a) {
      assert RelaxedFrom(g, w, dist, a);
    }
  }

  lemma WitnessedKeep(g: Store, w: Weights, stop: Option<int>, s: int, dist: map<int, int>, child: int, d: int)
    requires Witnessed(g, w, stop, s, dist) && Attained(g, w, stop, s, child, d)
    ensures Witnessed(g, w, stop, s, dist[child := d])
  {
  }

  lemma PredKeep(g: Store, w: Weights, stop: Option<int>, s: int, dist: map<int, int>,
                 pred: map<int, Option<int>>, q: set<int>, sel: int, child: int, d: int)
    requires PredOk(g, w, stop, s, dist, pred, q) && Bounds(g, s, dist)
    requires sel in g && sel !in q && Some(sel) != stop && child in g[sel].adj && child in q && child in g
    requires child != s && d == dist[sel] + EdgeWeight(w, sel, child) && d < dist[child]
    ensures PredOk(g, w, stop, s, dist[child := d], pred[child := Some(sel)], q)
  {
    SameKeys(dist, child, d);
    SameKeys(pred, child, Some(sel));
    PredNoneKeep(g, s, dist, pred, sel, child, d);
    PredEdgesKeep(g, w, stop, dist, pred, q, sel, child, d);
  }

  /** Updating an existing key leaves the key set alone. */
  lemma SameKeys<V>(m: map<int, V>, k: int, x: V)
    requires k in m
    ensures m[k := x].Keys == m.Keys
  {
  }

  /** Still no predecessor exactly for the source and the nodes at INFINITY. */
  lemma PredNoneKeep(g: Store, s: int, dist: map<int, int>, pred: map<int, Option<int>>,
                     sel: int, child: int, d: int)
    requires pred.Keys == g.Keys && dist.Keys == g.Keys && child in g && child != s
    requires forall v {:trigger pred[v]} :: v in g ==> (pred[v].None? <==> v == s || dist[v] == INFINITY)
    requires d < dist[child] <= INFINITY
    ensures forall v {:trigger pred[child := Some(sel)][v]} :: v in g ==>
      (pred[child := Some(sel)][v].None? <==> v == s || dist[child := d][v] == INFINITY)
  {
  }

  /** Every predecessor, the new one of `child` included, is still a valid predecessor. */
  lemma PredEdgesKeep(g: Store, w: Weights, stop: Option<int>, dist: map<int, int>,
                      pred: map<int, Option<int>>, q: set<int>, sel: int, child: int, d: int)
    requires pred.Keys == g.Keys && dist.Keys == g.Keys
    requires forall v {:trigger pred[v]} :: v in g && pred[v].Some? ==> PredEdge(g, w, stop, dist, q, pred[v].value, v)
    requires sel in g && sel !in q && Some(sel) != stop && child in g[sel].adj && child in q && child in g
    requires d == dist[sel] + EdgeWeight(w, sel, child)
    ensures forall v {:trigger pred[child := Some(sel)][v]} :: v in g && pred[child := Some(sel)][v].Some? ==>
      PredEdge(g, w, stop, dist[child := d], q, pred[child := Some(sel)][v].value, v)
  {
    var pred' := pred[child := Some(sel)];
    forall v | v in g && pred'[v].Some? ensures PredEdge(g, w, stop, dist[child := d], q, pred'[v].value, v) {
      if v != child {
        PredEdgeKeep(g, w, stop, dist, q, pred[v].value, v, child, d);
      }
    }
  }

  /** An existing predecessor edge u -> v survives a change of some other node's estimate:
      u is out of the queue and the changed node is in it. */
  lemma PredEdgeKeep(g: Store, w: Weights, stop: Option<int>, dist: map<int, int>, q: set<int>,
                     u: int, v: int, child: int, d: int)
    requires PredEdge(g, w, stop, dist, q, u, v) && child in q && v != child
    ensures PredEdge(g, w, stop, dist[child := d], q, u, v)
  {
    assert u != child;
  }

  /** Relaxing every child of `sel` (the set of its children, in no particular order). */
  method RelaxChildren(g: Store, w: Weights, stop: Option<int>, s: int, dist0: map<int, int>,
                       pred0: map<int, Option<int>>, q: set<int>, sel: int)
    returns (dist: map<int, int>, pred: map<int, Option<int>>)
    requires Closed(g) && NonNegative(w)
    requires ChildInv(g, w, stop, s, dist0, pred0, q, sel, {})
    ensures Inv(g, w, stop, s, dist, pred, q, {})
  {
    dist, pred := dist0, pred0;
    var kids := Elems(g[sel].adj);
    ghost var done: set<int> := {};
    var q' := q;
    while kids != {}
      invariant q' == q
      invariant kids + done == Elems(g[sel].adj)
      invariant ChildInv(g, w, stop, s, dist, pred, q, sel, done)
      decreases kids
    {
      ghost var y := Pick(kids);
      var child :| child in kids;
      var discovered := dist[sel] + EdgeWeight(w, sel, child);
      if discovered < dist[child] {
        dist, pred, q' := Relax(g, w, stop, s, dist, pred, q, sel, done, child);
      }
      done := done + {child};
      kids := kids - {child};
    }
    ChildrenDone(g, w, stop, s, dist, pred, q, sel, done);
  }

  lemma ChildrenDone(g: Store, w: Weights, stop: Option<int>, s: int, dist: map<int, int>,
                     pred: map<int, Option<int>>, q: set<int>, sel: int, done: set<int>)
    requires ChildInv(g, w, stop, s, dist, pred, q, sel, done) && done == Elems(g[sel].adj)
    ensures Inv(g, w, stop, s, dist, pred, q, {})
  {
    assert RelaxedFrom(g, w, dist, sel);
  }

  /** When every node has been relaxed, no walk that avoids the stop node beats an estimate. */
  lemma {:induction false} Complete(g: Store, w: Weights, stop: Option<int>, s: int, dist: map<int, int>, p: seq<int>)
    requires Bounds(g, s, dist) && Relaxed(g, w, stop, dist, {}, {})
    requires |p| >= 1 && StopPath(g, stop, p, s, p[|p| - 1])
    ensures dist[p[|p| - 1]] <= PathWeight(w, p)
    decreases |p|
  {
    if |p| > 1 {
      var p' := p[..|p| - 1];
      var u, v := p[|p| - 2], p[|p| - 1];
      assert StopPath(g, stop, p', s, u);
      Complete(g, w, stop, s, dist, p');
      assert p' + [v] == p;
      WeightAppend(w, p', v);
      assert RelaxedFrom(g, w, dist, u);
    }
  }

  lemma Finish(g: Store, w: Weights, stop: Option<int>, s: int, dist: map<int, int>, pred: map<int, Option<int>>)
    requires Inv(g, w, stop, s, dist, pred, {}, {})
    ensures forall v {:trigger ShortestCapped(g, w, stop, s, v, dist[v])} :: v in g ==> ShortestCapped(g, w, stop, s, v, dist[v])
  {
    forall v, p | v in g && StopPath(g, stop, p, s, v) ensures dist[v] <= PathWeight(w, p) {
      Complete(g, w, stop, s, dist, p);
    }
  }

  /** Dijkstras(source, stop, pred). A source that is not a node makes the Java code fail
      when its children are looked up, which happens unless it is the stop node. */
  method Dijkstras(wg: WGraph, source: int, stop: Option<int>) returns (r: Result<Search>)
    requires WValid(wg) && NonNegative(wg.weights)
    ensures r.Err? <==> source !in wg.nodes && stop != Some(source)
    ensures r.Err? ==> r.error == UnknownNode(source)
    ensures r.Ok? ==> r.value.dist.Keys == wg.nodes.Keys + {source} && r.value.dist[source] == 0
    ensures r.Ok? ==> forall v {:trigger ShortestCapped(wg.nodes, wg.weights, stop, source, v, r.value.dist[v])} :: v in wg.nodes ==> ShortestCapped(wg.nodes, wg.weights, stop, source, v, r.value.dist[v])
    ensures r.Ok? && source in wg.nodes ==> PredOk(wg.nodes, wg.weights, stop, source, r.value.dist, r.value.pred, {})
  {
    var g, w := wg.nodes, wg.weights;
    if source !in g {
      if stop != Some(source) {
        return Err(UnknownNode(source));
      }
      var search := FromNonNode(g, w, stop, source);
      return Ok(search);
    }
    var search := Run(g, w, stop, source);
    return Ok(search);
  }

  /** A source that is not a node but is the stop node: nothing is relaxed, every node
      stays at INFINITY. */
  method FromNonNode(g: Store, w: Weights, stop: Option<int>, source: int) returns (r: Search)
    requires source !in g
    ensures r.dist.Keys == g.Keys + {source} && r.dist[source] == 0
    ensures forall v {:trigger ShortestCapped(g, w, stop, source, v, r.dist[v])} :: v in g ==> ShortestCapped(g, w, stop, source, v, r.dist[v])
  {
    var dist := map v | v in g.Keys + {source} :: if v == source then 0 else INFINITY;
    var pred := map v | v in g.Keys :: None;
    NoWalkFrom(g, w, stop, source, dist);
    r := Search(dist, pred);
  }

  /** Initialise the estimates, poll until the queue is empty. */
  method Run(g: Store, w: Weights, stop: Option<int>, source: int) returns (r: Search)
    requires Closed(g) && NonNegative(w) && source in g
    ensures r.dist.Keys == g.Keys && r.dist[source] == 0
    ensures forall v {:trigger ShortestCapped(g, w, stop, source, v, r.dist[v])} :: v in g ==> ShortestCapped(g, w, stop, source, v, r.dist[v])
    ensures PredOk(g, w, stop, source, r.dist, r.pred, {})
  {
    var dist := map v | v in g.Keys :: if v == source then 0 else INFINITY;
    var pred := map v | v in g.Keys :: None;
    InitInv(g, w, stop, source, dist, pred);
    dist, pred := Settle(g, w, stop, source, dist, pred);
    Finish(g, w, stop, source, dist, pred);
    r := Search(dist, pred);
  }

  /** The main loop: poll until the queue is empty. */
  method Settle(g: Store, w: Weights, stop: Option<int>, s: int, dist0: map<int, int>, pred0: map<int, Option<int>>)
    returns (dist: map<int, int>, pred: map<int, Option<int>>)
    requires Closed(g) && NonNegative(w)
    requires Inv(g, w, stop, s, dist0, pred0, g.Keys, {})
    ensures Inv(g, w, stop, s, dist, pred, {}, {})
  {
    dist, pred := dist0, pred0;
    var q := g.Keys;
    while q != {}
      invariant Inv(g, w, stop, s, dist, pred, q, {})
      decreases q
    {
      var sel := ExtractMin(dist, q);
      TakeOut(g, w, stop, s, dist, pred, q, sel);
      q := q - {sel};
      if Some(sel) != stop {
        dist, pred := RelaxChildren(g, w, stop, s, dist, pred, q, sel);
      } else {
        SkipStop(g, w, stop, s, dist, pred, q, sel);
      }
    }
  }

  /** From a source that is not a node there is no walk at all. */
  lemma NoWalkFrom(g: Store, w: Weights, stop: Option<int>, s: int, dist: map<int, int>)
    requires s !in g && forall v :: v in g ==> v in dist && dist[v] == INFINITY
    ensures forall v {:trigger ShortestCapped(g, w, stop, s, v, dist[v])} :: v in g ==> ShortestCapped(g, w, stop, s, v, dist[v])
  {
  }

  // ----- properties -----

  /** Non-negative weights make every walk weigh at least 0. */
  lemma {:induction false} NonNegativeWalk(w: Weights, p: seq<int>)
    requires NonNegative(w)
    ensures PathWeight(w, p) >= 0
    decreases |p|
  {
    if |p| >= 2 {
      NonNegativeWalk(w, p[1..]);
    }
  }

  /** With non-negative weights, stopping at the target costs nothing: the best walk to
      `t` that does not pass through `t` on the way is as good as the best walk to `t`. */
  lemma StopAtTarget(g: Store, w: Weights, s: int, t: int, d: int)
    requires NonNegative(w)
    ensures ShortestCapped(g, w, Some(t), s, t, d) <==> ShortestCapped(g, w, None, s, t, d)
  {
    if ShortestCapped(g, w, Some(t), s, t, d) {
      forall p | StopPath(g, None, p, s, t) ensures d <= PathWeight(w, p) {
        var q := FirstVisit(g, w, p, t);
      }
      if d != INFINITY {
        var p :| StopPath(g, Some(t), p, s, t) && PathWeight(w, p) == d;
        assert StopPath(g, None, p, s, t);
      }
    }
    if ShortestCapped(g, w, None, s, t, d) {
      forall p | StopPath(g, Some(t), p, s, t) ensures d <= PathWeight(w, p) {
        assert StopPath(g, None, p, s, t);
      }
      if d != INFINITY {
        var p :| StopPath(g, None, p, s, t) && PathWeight(w, p) == d;
        var q := FirstVisit(g, w, p, t);
        assert PathWeight(w, q) == d;
      }
    }
  }

  /** The prefix of a walk up to its first visit of its last node: a walk that does not
      pass through that node on the way, and no heavier. */
  lemma FirstVisit(g: Store, w: Weights, p: seq<int>, t: int) returns (q: seq<int>)
    requires NonNegative(w) && IsPath(g, p) && p[|p| - 1] == t
    ensures StopPath(g, Some(t), q, p[0], t) && PathWeight(w, q) <= PathWeight(w, p)
  {
    var i := 0;
    while p[i] != t
      invariant 0 <= i < |p| && forall k :: 0 <= k < i ==> p[k] != t
      decreases |p| - i
    {
      i := i + 1;
    }
    q := p[..i + 1];
    SubPath(g, p, 0, i + 1);
    WeightSplit(w, p, i);
    NonNegativeWalk(w, p[i..]);
  }
}

=== FILE: directed_graph.dfy ===
/** DirectedGraph.java: the id -> node store with its mutations and the copy and
    reverse constructions. Mutations are pure functions (or methods, where the source
    loops) from one store value to the next. */
module Directed {
  import opened Results
  import opened Seqs
  import opened Nodes
  import opened Paths

  /** No adjacency list names the same child twice: connectFromTo refuses duplicates. */
  ghost predicate NoDupAdj(g: Store) {
    forall u :: u in g ==> NoDup(g[u].adj)
  }

  /** The invariant every DirectedGraph keeps. */
  ghost predicate DValid(g: Store) {
    Valid(g) && NoDupAdj(g)
  }

  /** The directed edges of the store (getEdges), as (from, to) pairs. */
  function Edges(g: Store): (e: set<(int, int)>)
    ensures forall a, b :: (a, b) in e <==> a in g && b in g[a].adj
  {
    set a, b | a in g.Keys && b in g[a].adj :: (a, b)
  }

  /** Edges that start or end at `u`. */
  ghost function Incident(e: set<(int, int)>, u: int): set<(int, int)> {
    set x | x in e && (x.0 == u || x.1 == u)
  }

  /** isEdgeFromTo: both ends are nodes and `to` is listed as a child of `from`. */
  function IsEdgeFromTo(g: Store, from: int, to: int): (b: bool)
    ensures b <==> (from, to) in Edges(g) && to in g
  {
    from in g && to in g && IsChild(g, from, to)
  }

  /** addNode: refuses an id already present, otherwise adds an isolated node. */
  function AddNode(g: Store, u: int): (r: Result<Store>)
    ensures u in g <==> r.Err?
    ensures r.Err? ==> r.error == DuplicateNode(u)
    ensures r.Ok? ==>
      && r.value.Keys == g.Keys + {u}
      && r.value[u].adj == []
      && (forall k :: k in g ==> r.value[k] == g[k])
      && Edges(r.value) == Edges(g)
    ensures r.Ok? && DValid(g) ==> DValid(r.value)
  {
    if u in g then Err(DuplicateNode(u))
    else
      AddNodeKeeps(g, u);
      Ok(g[u := NewNode(u)])
  }

  lemma AddNodeKeeps(g: Store, u: int)
    requires u !in g
    ensures DValid(g) ==> DValid(g[u := NewNode(u)])
  {
    if DValid(g) {
      AddFreshNodeValid(g, u);
    }
  }

  /** connectFromTo: refuses an existing edge; a missing endpoint is an error (the Java
      code dereferences a null node); otherwise adds exactly the edge from -> to. */
  function ConnectFromTo(g: Store, from: int, to: int): (r: Result<Store>)
    ensures r.Ok? <==> from in g && to in g && (from, to) !in Edges(g)
    ensures IsEdgeFromTo(g, from, to) ==> r == Err(DuplicateEdge(from, to))
    ensures r.Ok? ==>
      && r.value.Keys == g.Keys
      && Edges(r.value) == Edges(g) + {(from, to)}
      && r.value[from].outDegree == g[from].outDegree + 1
      && r.value[to].inDegree == g[to].inDegree + 1
      && (forall k :: k in g && k != from ==> r.value[k].adj == g[k].adj)
    ensures r.Ok? && DValid(g) ==> DValid(r.value)
  {
    if IsEdgeFromTo(g, from, to) then Err(DuplicateEdge(from, to))
    else if from !in g then Err(UnknownNode(from))
    else if to !in g then Err(UnknownNode(to))
    else
      ConnectKeeps(g, from, to);
      Ok(AddChild(g, from, to))
  }

  lemma ConnectKeeps(g: Store, from: int, to: int)
    requires from in g && to in g && to !in g[from].adj
    ensures DValid(g) ==> DValid(AddChild(g, from, to))
  {
    if DValid(g) {
      AddChildValid(g, from, to);
    }
  }

  /** disconnectFromTo: refuses a missing edge, otherwise removes exactly from -> to. */
  function DisconnectFromTo(g: Store, from: int, to: int): (r: Result<Store>)
    ensures r.Ok? <==> IsEdgeFromTo(g, from, to)
    ensures r.Err? ==> r.error == MissingEdge(from, to)
    ensures r.Ok? ==>
      && r.value.Keys == g.Keys
      && r.value[from].adj == RemoveFirst(g[from].adj, to)
      && (forall k :: k in g ==> r.value[k].id == g[k].id)
      && r.value[from].outDegree == g[from].outDegree - 1
      && r.value[to].inDegree == g[to].inDegree - 1
      && (forall k :: k in g && k != from ==> r.value[k].adj == g[k].adj && r.value[k].outDegree == g[k].outDegree)
      && (forall k :: k in g && k != to ==> r.value[k].inDegree == g[k].inDegree)
    ensures r.Ok? && DValid(g) ==>
      && DValid(r.value)
      && r.value[from].adj == Drop(g[from].adj, {to})
  {
    if !IsEdgeFromTo(g, from, to) then Err(MissingEdge(from, to))
    else
      DisconnectKeeps(g, from, to);
      Ok(RemoveChild(g, from, to))
  }

  lemma DisconnectKeeps(g: Store, from: int, to: int)
    requires from in g && to in g && to in g[from].adj
    ensures DValid(g) ==>
      && DValid(RemoveChild(g, from, to))
      && RemoveChild(g, from, to)[from].adj == Drop(g[from].adj, {to})
  {
    if DValid(g) {
      RemoveChildValid(g, from, to);
      RemoveFirstIsDrop(g[from].adj, to);
      DropNoDup(g[from].adj, {to});
    }
  }

  /** The state the first loop of disconnect(u) keeps: the children in `done` are cut off. */
  ghost predicate OutgoingCut(g0: Store, g: Store, u: int, done: set<int>)
    requires u in g0
  {
    && g.Keys == g0.Keys
    && (forall k :: k in g0 ==> g[k].id == g0[k].id)
    && g[u].adj == Drop(g0[u].adj, done)
    && g[u].outDegree == |g[u].adj|
    && (forall k :: k in g0 && k != u ==> g[k].adj == g0[k].adj && g[k].outDegree == g0[k].outDegree)
    && (forall k :: k in g0 ==> g[k].inDegree == g0[k].inDegree - (if k in done then 1 else 0))
  }

  lemma OutgoingStep(g0: Store, g: Store, u: int, done: set<int>, c: int)
    requires u in g0 && NoDup(g0[u].adj) && (forall k :: k in g0[u].adj ==> k in g0)
    requires OutgoingCut(g0, g, u, done)
    requires c in g0[u].adj && c !in done
    ensures IsEdgeFromTo(g, u, c)
    ensures OutgoingCut(g0, DisconnectFromTo(g, u, c).value, u, done + {c})
  {
    DropDrop(g0[u].adj, done, {c});
    DropNoDup(g0[u].adj, done);
    RemoveFirstIsDrop(g[u].adj, c);
  }

  /** The loop state of the first loop of disconnect(u): `kids` still to cut, `done` cut. */
  ghost predicate OutgoingLoop(g0: Store, g: Store, u: int, kids: set<int>, done: set<int>)
    requires u in g0
  {
    kids + done == Elems(g0[u].adj) && kids !! done && OutgoingCut(g0, g, u, done)
  }

  /** One pass of the first loop of disconnect(u): disconnectFromTo(u, c) for a child not yet cut. */
  method CutChild(g0: Store, g: Store, u: int, kids: set<int>, ghost done: set<int>, c: int) returns (g1: Store)
    requires u in g0 && NoDup(g0[u].adj) && (forall k :: k in g0[u].adj ==> k in g0)
    requires OutgoingLoop(g0, g, u, kids, done) && c in kids
    ensures OutgoingLoop(g0, g1, u, kids - {c}, done + {c})
  {
    OutgoingStep(g0, g, u, done, c);
    MoveOne(kids, done, c);
    g1 := DisconnectFromTo(g, u, c).value;
  }

  /** Moving one element from the to-do set to the done set keeps their union and disjointness. */
  lemma MoveOne(kids: set<int>, done: set<int>, c: int)
    requires c in kids && kids !! done
    ensures (kids - {c}) + (done + {c}) == kids + done && (kids - {c}) !! (done + {c})
  {
  }

  /** The first loop of disconnect(u): every child of `u` is disconnected. */
  method DisconnectOutgoing(g0: Store, u: int) returns (g: Store)
    requires u in g0 && NoDup(g0[u].adj) && (forall k :: k in g0[u].adj ==> k in g0)
    requires g0[u].outDegree == |g0[u].adj|
    ensures OutgoingCut(g0, g, u, Elems(g0[u].adj))
  {
    g := g0;
    var kids := Elems(g0[u].adj);
    ghost var done: set<int> := {};
    DropNothing(g0[u].adj, done);
    assert kids + done == kids;
    while kids != {}
      invariant OutgoingLoop(g0, g, u, kids, done)
      decreases kids
    {
      ghost var w := Pick(kids);
      var c :| c in kids;
      g := CutChild(g0, g, u, kids, done, c);
      done := done + {c};
      kids := kids - {c};
    }
    assert done == Elems(g0[u].adj);
  }

  /** After the first loop the store is valid again: u's entries have left `Targets`. */
  lemma OutgoingDone(g0: Store, g: Store, u: int)
    requires DValid(g0) && u in g0 && OutgoingCut(g0, g, u, Elems(g0[u].adj))
    ensures g.Keys == g0.Keys && DValid(g)
    ensures g[u].adj == []
    ensures forall k :: k in g0 && k != u ==> g[k].adj == g0[k].adj
    ensures forall k :: k in g0 && k != u ==>
      g[k].inDegree == g0[k].inDegree - (if k in g0[u].adj then 1 else 0)
  {
    DropAll(g0[u].adj, Elems(g0[u].adj));
    OutgoingShape(g0, g, u);
    TargetsReplaceList(g0, g, u);
    OutgoingInDegrees(g0, g, u);
  }

  /** The parts of DValid that do not involve in-degrees hold once u's list is empty. */
  lemma OutgoingShape(g0: Store, g: Store, u: int)
    requires DValid(g0) && u in g0 && OutgoingCut(g0, g, u, Elems(g0[u].adj)) && g[u].adj == []
    ensures Ids(g) && Closed(g) && OutDegrees(g) && NoDupAdj(g)
  {
    forall k | k in g ensures g[k].id == k && g[k].outDegree == |g[k].adj| && NoDup(g[k].adj) {
      if k != u {
        assert g[k].adj == g0[k].adj;
      }
    }
    forall a, b | a in g && b in g[a].adj ensures b in g {
      assert a != u && g[a].adj == g0[a].adj;
    }
  }

  lemma OutgoingInDegrees(g0: Store, g: Store, u: int)
    requires InDegrees(g0) && u in g0 && NoDup(g0[u].adj) && g.Keys == g0.Keys
    requires forall k :: k in g0 ==> g[k].inDegree == g0[k].inDegree - (if k in Elems(g0[u].adj) then 1 else 0)
    requires Targets(g) + multiset(g0[u].adj) == Targets(g0)
    ensures InDegrees(g)
  {
    forall k | k in g ensures g[k].inDegree == Targets(g)[k] {
      assert (Targets(g) + multiset(g0[u].adj))[k] == Targets(g0)[k];
      NoDupCount(g0[u].adj, k);
    }
  }

  /** Progress of the second loop of disconnect(u): the nodes outside `rest` no longer
      point at `u`, the others are as they were, and in-degrees other than u's are kept. */
  ghost predicate IncomingCut(g0: Store, g: Store, u: int, rest: set<int>) {
    && g.Keys == g0.Keys && u in g && g[u].adj == []
    && (forall k :: k in g0 && k != u && k !in rest ==> g[k].adj == Drop(g0[k].adj, {u}))
    && (forall k :: k in g0 && k != u && k in rest ==> g[k].adj == g0[k].adj)
    && (forall k :: k in g0 && k != u ==> g[k].inDegree == g0[k].inDegree)
  }

  /** One iteration: disconnect `t` from `u` when `t` points at it. */
  method CutIncoming(g0: Store, g: Store, u: int, rest: set<int>, t: int) returns (g': Store)
    requires DValid(g) && IncomingCut(g0, g, u, rest) && t in rest && t in g
    ensures DValid(g') && IncomingCut(g0, g', u, rest - {t})
  {
    g' := g;
    if IsEdgeFromTo(g, t, u) {
      CutEdge(g0, g, u, rest, t);
      var step := DisconnectFromTo(g, t, u);
      g' := step.value;
    } else if t != u {
      DropNothing(g0[t].adj, {u});
    }
  }

  /** Cutting the edge t -> u moves `t` out of `rest`. */
  lemma CutEdge(g0: Store, g: Store, u: int, rest: set<int>, t: int)
    requires DValid(g) && IncomingCut(g0, g, u, rest) && t in rest && IsEdgeFromTo(g, t, u)
    ensures DValid(DisconnectFromTo(g, t, u).value)
    ensures IncomingCut(g0, DisconnectFromTo(g, t, u).value, u, rest - {t})
  {
  }

  /** The second loop of disconnect(u): every node with an edge into `u` is disconnected from it. */
  method DisconnectIncoming(g0: Store, u: int) returns (g: Store)
    requires DValid(g0) && u in g0 && g0[u].adj == []
    ensures g.Keys == g0.Keys && DValid(g)
    ensures g[u].adj == []
    ensures forall k :: k in g0 && k != u ==> g[k].adj == Drop(g0[k].adj, {u})
    ensures forall k :: k in g0 && k != u ==> g[k].inDegree == g0[k].inDegree
  {
    g := g0;
    var rest := g.Keys;
    while rest != {}
      invariant rest <= g0.Keys
      invariant DValid(g) && IncomingCut(g0, g, u, rest)
      decreases rest
    {
      ghost var w := Pick(rest);
      var t :| t in rest;
      g := CutIncoming(g0, g, u, rest, t);
      rest := rest - {t};
    }
  }

  /** disconnectFromTo removes exactly the edge it names. */
  lemma DisconnectEdges(g: Store, from: int, to: int)
    requires DValid(g) && IsEdgeFromTo(g, from, to)
    ensures Edges(DisconnectFromTo(g, from, to).value) == Edges(g) - {(from, to)}
  {
    var h := DisconnectFromTo(g, from, to).value;
    assert h[from].adj == Drop(g[from].adj, {to});
    forall e ensures e in Edges(h) <==> e in Edges(g) && e != (from, to) {
      var (a, b) := e;
      if a != from && a in g {
        assert h[a].adj == g[a].adj;
      }
    }
  }

  /** disconnect(u): every outgoing edge of `u` (over the set of its children), then every
      incoming one (over all node ids), is removed through disconnectFromTo. */
  method Disconnect(g0: Store, u: int) returns (r: Result<Store>)
    requires DValid(g0)
    ensures u !in g0 <==> r.Err?
    ensures r.Err? ==> r.error == UnknownNode(u)
    ensures r.Ok? ==>
      && r.value.Keys == g0.Keys
      && DValid(r.value)
      && r.value[u].adj == []
      && (forall k :: k in g0 && k != u ==> r.value[k].adj == Drop(g0[k].adj, {u}))
      && (forall k :: k in g0 && k != u ==>
            r.value[k].inDegree == g0[k].inDegree - (if k in g0[u].adj then 1 else 0))
  {
    if u !in g0 {
      return Err(UnknownNode(u));
    }
    var g1 := DisconnectOutgoing(g0, u);
    OutgoingDone(g0, g1, u);
    var g2 := DisconnectIncoming(g1, u);
    return Ok(g2);
  }

  /** removeNode(u): disconnect `u` completely, then delete it. */
  method RemoveNode(g0: Store, u: int) returns (r: Result<Store>)
    requires DValid(g0)
    ensures u !in g0 <==> r.Err?
    ensures r.Err? ==> r.error == UnknownNode(u)
    ensures r.Ok? ==>
      && r.value.Keys == g0.Keys - {u}
      && DValid(r.value)
      && Edges(r.value) == Edges(g0) - Incident(Edges(g0), u)
      && (forall k :: k in r.value ==> r.value[k].adj == Drop(g0[k].adj, {u}))
      && (forall k :: k in r.value ==>
            r.value[k].outDegree == g0[k].outDegree - (if (k, u) in Edges(g0) then 1 else 0))
      && (forall k :: k in r.value ==>
            r.value[k].inDegree == g0[k].inDegree - (if (u, k) in Edges(g0) then 1 else 0))
  {
    var d := Disconnect(g0, u);
    if d.Err? {
      return d;
    }
    var g := d.value;
    RemoveIsolated(g, u);
    RemovedEdges(g0, g, u);
    RemovedDegrees(g0, g, u);
    return Ok(g - {u});
  }

  /** Out-degrees after the deletion: one less for each node that pointed at `u`. */
  lemma RemovedDegrees(g0: Store, g: Store, u: int)
    requires DValid(g0) && g.Keys == g0.Keys && DValid(g)
    requires forall k :: k in g0 && k != u ==> g[k].adj == Drop(g0[k].adj, {u})
    ensures forall k :: k in g - {u} ==>
      (g - {u})[k].outDegree == g0[k].outDegree - (if (k, u) in Edges(g0) then 1 else 0)
  {
    forall k | k in g - {u} ensures g[k].outDegree == g0[k].outDegree - (if (k, u) in Edges(g0) then 1 else 0) {
      DropOneLength(g0[k].adj, u);
    }
  }

  /** The edges left after the deletion are the old ones that do not touch `u`. */
  lemma RemovedEdges(g0: Store, g: Store, u: int)
    requires u in g0 && g.Keys == g0.Keys && g[u].adj == []
    requires forall k :: k in g0 && k != u ==> g[k].adj == Drop(g0[k].adj, {u})
    ensures Edges(g - {u}) == Edges(g0) - Incident(Edges(g0), u)
  {
    forall e | e in Edges(g - {u}) ensures e in Edges(g0) - Incident(Edges(g0), u) {
      var (a, b) := e;
      assert a in g && a != u && b in g[a].adj;
    }
    forall e | e in Edges(g0) - Incident(Edges(g0), u) ensures e in Edges(g - {u}) {
      var (a, b) := e;
      assert a in g0 && b in g0[a].adj && a != u && b != u;
    }
  }

  /** Deleting a node that has no edges left keeps the invariant. */
  lemma RemoveIsolated(g: Store, u: int)
    requires DValid(g) && u in g && g[u].adj == []
    requires forall k :: k in g && k != u ==> u !in g[k].adj
    ensures DValid(g - {u})
  {
    var h := g - {u};
    TargetsUpdate(g, u, g[u]);
    assert g[u := g[u]] == g;
    assert Targets(g) == Targets(h);
  }

  /** With no duplicates, dropping one value shortens the list by one exactly when present. */
  lemma DropOneLength(s: seq<int>, x: int)
    requires NoDup(s)
    ensures |Drop(s, {x})| == |s| - (if x in s then 1 else 0)
  {
    RemoveFirstIsDrop(s, x);
  }

  /** The copy constructor: the copy is indistinguishable from the original (same ids, the
      same adjacency lists in the same order, the same counters). */
  method Copy(g: Store) returns (c: Store)
    requires DValid(g)
    ensures c == g
  {
    c := CopyStore(g);
  }

  /** `h` holds exactly the edges of `g` turned around, on the same node set. */
  ghost predicate IsReverseOf(h: Store, g: Store) {
    && h.Keys == g.Keys
    && forall a, b :: (a, b) in Edges(h) <==> (b, a) in Edges(g)
  }

  /** The reversed edges out of the parents in `done`. */
  ghost function ReversedFrom(g: Store, done: set<int>): set<(int, int)> {
    set a, b | a in done && a in g && b in g[a].adj :: (b, a)
  }

  /** The reversed edges into `p` from its first `i` children. */
  ghost function ReversedPrefix(g: Store, p: int, i: int): set<(int, int)>
    requires p in g && 0 <= i <= |g[p].adj|
  {
    set b | b in g[p].adj[..i] :: (b, p)
  }

  /** The first loop of getReverse: addNode for every id. */
  method AddAllNodes(ks: set<int>) returns (rev: Store)
    ensures rev.Keys == ks && DValid(rev) && Edges(rev) == {}
  {
    rev := map[];
    var rest := ks;
    while rest != {}
      invariant rest <= ks && rev.Keys == ks - rest
      invariant DValid(rev) && Edges(rev) == {}
      decreases rest
    {
      ghost var w := Pick(rest);
      var t :| t in rest;
      rev := AddNode(rev, t).value;
      rest := rest - {t};
    }
  }

  /** One connectFromTo(child, parent) of getReverse, on an edge not yet present. */
  method ConnectNew(rev: Store, a: int, b: int) returns (rev': Store)
    requires DValid(rev) && a in rev && b in rev && (a, b) !in Edges(rev)
    ensures rev'.Keys == rev.Keys && DValid(rev')
    ensures Edges(rev') == Edges(rev) + {(a, b)}
  {
    rev' := ConnectFromTo(rev, a, b).value;
  }

  /** The inner loop of getReverse: connectFromTo(child, p) for every child of `p`. */
  method ReverseChildren(g: Store, rev0: Store, p: int, ghost done: set<int>) returns (rev: Store)
    requires DValid(g) && p in g && p !in done
    requires DValid(rev0) && rev0.Keys == g.Keys && Edges(rev0) == ReversedFrom(g, done)
    ensures DValid(rev) && rev.Keys == g.Keys && Edges(rev) == ReversedFrom(g, done + {p})
  {
    rev := rev0;
    var kids := g[p].adj;
    var i := 0;
    while i < |kids|
      invariant 0 <= i <= |kids|
      invariant DValid(rev) && rev.Keys == g.Keys
      invariant Edges(rev) == ReversedFrom(g, done) + ReversedPrefix(g, p, i)
    {
      assert kids[..i + 1] == kids[..i] + [kids[i]];
      assert kids[i] !in kids[..i] by {
        forall j | 0 <= j < i ensures kids[..i][j] != kids[i] {
          assert kids[..i][j] == kids[j];
        }
      }
      rev := ConnectNew(rev, kids[i], p);
      i := i + 1;
    }
    assert kids[..i] == kids;
  }

  /** getReverse: every node, then for every edge parent -> child the edge child -> parent.
      Since no adjacency list repeats a child, none of these connections is refused. */
  method GetReverse(g: Store) returns (rev: Store)
    requires DValid(g)
    ensures DValid(rev) && IsReverseOf(rev, g) && Reversed(rev, g)
  {
    rev := AddAllNodes(g.Keys);
    var rest := g.Keys;
    ghost var done: set<int> := {};
    while rest != {}
      invariant rest + done == g.Keys && rest !! done
      invariant DValid(rev) && rev.Keys == g.Keys
      invariant Edges(rev) == ReversedFrom(g, done)
      decreases rest
    {
      ghost var w := Pick(rest);
      var p :| p in rest;
      rev := ReverseChildren(g, rev, p, done);
      done := done + {p};
      rest := rest - {p};
    }
  }

  /** Reversing twice gives back the original edge set. */
  lemma ReverseTwice(g: Store, h: Store, k: Store)
    requires IsReverseOf(h, g) && IsReverseOf(k, h)
    ensures k.Keys == g.Keys && Edges(k) == Edges(g)
  {
    forall e | e in Edges(k) ensures e in Edges(g) {
      assert (e.1, e.0) in Edges(h);
    }
    forall e | e in Edges(g) ensures e in Edges(k) {
      assert (e.1, e.0) in Edges(h);
    }
  }

  /** Every edge has its opposite edge. */
  ghost predicate BiDirectional(g: Store) {
    forall a, b :: (a, b) in Edges(g) ==> (b, a) in Edges(g)
  }

  /** isBiDirectional: scans the edge set for an edge whose opposite is missing. */
  method IsBiDirectional(g: Store) returns (b: bool)
    requires Closed(g)
    ensures b <==> BiDirectional(g)
  {
    var es := Edges(g);
    ghost var seen: set<(int, int)> := {};
    while es != {}
      invariant es + seen == Edges(g)
      invariant forall e :: e in seen ==> (e.1, e.0) in Edges(g)
      decreases es
    {
      ghost var w := Pick(es);
      var e :| e in es;
      if !IsEdgeFromTo(g, e.1, e.0) {
        return false;
      }
      seen := seen + {e};
      es := es - {e};
    }
    return true;
  }
}

=== FILE: graph_node.dfy ===
/** GraphNode.java: a node is an id, an ordered adjacency list (duplicates allowed)
    and two degree counters that are updated incrementally. Java nodes point at each
    other by reference; here every node lives in an arena `Store` keyed by id and the
    adjacency list holds ids, so an id stands for the node's identity. */
module Nodes {
  import opened Seqs

  datatype Node = Node(id: int, adj: seq<int>, outDegree: int, inDegree: int)

  /** The id -> node map every graph class keeps (`nodes`). */
  type Store = map<int, Node>

  /** Every adjacency entry names a node of the store. */
  ghost predicate Closed(g: Store) {
    forall u, v :: u in g && v in g[u].adj ==> v in g
  }

  /** A node is stored under its own id. */
  ghost predicate Ids(g: Store) {
    forall u :: u in g ==> g[u].id == u
  }

  /** All adjacency entries of the nodes in `ks`, as a multiset of target ids. */
  ghost function TargetsOf(g: Store, ks: set<int>): multiset<int>
    requires ks <= g.Keys
    decreases ks
  {
    if ks == {} then multiset{}
    else
      var k := Pick(ks);
      multiset(g[k].adj) + TargetsOf(g, ks - {k})
  }

  /** All adjacency entries of the store: `Targets(g)[v]` is the number of entries pointing at v. */
  ghost function Targets(g: Store): multiset<int> {
    TargetsOf(g, g.Keys)
  }

  /** The bookkeeping invariant: out-degree is the adjacency length and in-degree is
      the number of adjacency entries, over the whole store, that point at the node. */
  ghost predicate Valid(g: Store) {
    Ids(g) && Closed(g) && OutDegrees(g) && InDegrees(g)
  }

  ghost predicate OutDegrees(g: Store) {
    forall u :: u in g ==> g[u].outDegree == |g[u].adj|
  }

  ghost predicate InDegrees(g: Store) {
    forall u :: u in g ==> g[u].inDegree == Targets(g)[u]
  }

  // ----- the multiset of adjacency entries -----

  lemma {:induction false} TargetsOfPick(g: Store, ks: set<int>, k: int)
    requires ks <= g.Keys && k in ks
    ensures TargetsOf(g, ks) == multiset(g[k].adj) + TargetsOf(g, ks - {k})
    decreases ks
  {
    var j := Pick(ks);
    assert TargetsOf(g, ks) == multiset(g[j].adj) + TargetsOf(g, ks - {j});
    if j != k {
      TargetsOfPick(g, ks - {j}, k);
      TargetsOfPick(g, ks - {k}, j);
      assert ks - {j} - {k} == ks - {k} - {j};
    }
  }

  lemma {:induction false} TargetsOfFrame(g: Store, h: Store, ks: set<int>)
    requires ks <= g.Keys && ks <= h.Keys
    requires forall k :: k in ks ==> g[k].adj == h[k].adj
    ensures TargetsOf(g, ks) == TargetsOf(h, ks)
    decreases ks
  {
    if ks != {} {
      var k := Pick(ks);
      TargetsOfPick(g, ks, k);
      TargetsOfPick(h, ks, k);
      TargetsOfFrame(g, h, ks - {k});
    }
  }

  lemma {:induction false} TargetsOfMember(g: Store, ks: set<int>, x: int)
    requires ks <= g.Keys
    ensures x in TargetsOf(g, ks) <==> exists k :: k in ks && x in g[k].adj
    decreases ks
  {
    if ks != {} {
      var k := Pick(ks);
      TargetsOfPick(g, ks, k);
      TargetsOfMember(g, ks - {k}, x);
    }
  }

  /** `Targets(g)[v] > 0` exactly when some stored node lists v. */
  lemma TargetsMember(g: Store, x: int)
    ensures x in Targets(g) <==> exists k :: k in g && x in g[k].adj
  {
    TargetsOfMember(g, g.Keys, x);
  }

  /** Replacing or inserting the node stored under `u` swaps its entries in `Targets`. */
  lemma TargetsUpdate(g: Store, u: int, n: Node)
    ensures Targets(g[u := n]) == multiset(n.adj) + Targets(g - {u})
    ensures u in g ==> Targets(g) == multiset(g[u].adj) + Targets(g - {u})
  {
    var h := g[u := n];
    TargetsOfPick(h, h.Keys, u);
    assert h.Keys - {u} == (g - {u}).Keys;
    TargetsOfFrame(h, g - {u}, h.Keys - {u});
    if u in g {
      TargetsOfPick(g, g.Keys, u);
      assert g.Keys - {u} == (g - {u}).Keys;
      TargetsOfFrame(g, g - {u}, g.Keys - {u});
    }
  }

  // ----- GraphNode operations -----

  /** GraphNode(int): a new node with no edges. */
  function NewNode(id: int): (n: Node)
    ensures n.id == id && n.adj == []
    ensures n.outDegree == |n.adj| && n.inDegree == 0
  {
    Node(id, [], 0, 0)
  }

  /** Storing a new node under an unused id keeps the bookkeeping invariant. */
  lemma {:induction false} AddFreshNodeValid(g: Store, id: int)
    requires Valid(g) && id !in g
    ensures Valid(g[id := NewNode(id)])
    ensures Targets(g[id := NewNode(id)]) == Targets(g)
  {
    var h := g[id := NewNode(id)];
    TargetsUpdate(g, id, NewNode(id));
    assert g - {id} == g;
    TargetsMember(g, id);
  }

  /** addChild: append `v` to u's list, bump u's out-degree and v's in-degree. */
  function AddChild(g: Store, u: int, v: int): (r: Store)
    requires u in g && v in g
    ensures r.Keys == g.Keys
    ensures r[u].adj == g[u].adj + [v]
    ensures r[u].outDegree == g[u].outDegree + 1
    ensures r[v].inDegree == g[v].inDegree + 1
    ensures forall k :: k in g ==> r[k].id == g[k].id
    ensures forall k :: k in g && k != u ==> r[k].adj == g[k].adj && r[k].outDegree == g[k].outDegree
    ensures forall k :: k in g && k != v ==> r[k].inDegree == g[k].inDegree
  {
    var g1 := g[u := g[u].(adj := g[u].adj + [v], outDegree := g[u].outDegree + 1)];
    g1[v := g1[v].(inDegree := g1[v].inDegree + 1)]
  }

  /** removeChild: when `v` is listed, drop its first occurrence and decrement both
      counters; otherwise nothing changes. */
  function RemoveChild(g: Store, u: int, v: int): (r: Store)
    requires u in g && v in g
    ensures r.Keys == g.Keys
    ensures v !in g[u].adj ==> r == g
    ensures v in g[u].adj ==>
      && multiset(r[u].adj) == multiset(g[u].adj) - multiset{v}
      && r[u].adj == RemoveFirst(g[u].adj, v)
      && r[u].outDegree == g[u].outDegree - 1
      && r[v].inDegree == g[v].inDegree - 1
    ensures forall k :: k in g ==> r[k].id == g[k].id
    ensures forall k :: k in g && k != u ==> r[k].adj == g[k].adj && r[k].outDegree == g[k].outDegree
    ensures forall k :: k in g && k != v ==> r[k].inDegree == g[k].inDegree
  {
    if v in g[u].adj then
      var g1 := g[u := g[u].(adj := RemoveFirst(g[u].adj, v), outDegree := g[u].outDegree - 1)];
      g1[v := g1[v].(inDegree := g1[v].inDegree - 1)]
    else g
  }

  /** isChild: is `v` listed (at least once) in u's adjacency? */
  function IsChild(g: Store, u: int, v: int): (b: bool)
    requires u in g
    ensures b <==> Count(g[u].adj, v) > 0
  {
    v in g[u].adj
  }

  /** Changing only u's adjacency list changes `Targets` by the difference of the two lists. */
  lemma {:induction false} TargetsReplaceList(g: Store, r: Store, u: int)
    requires u in g && r.Keys == g.Keys
    requires forall k :: k in g && k != u ==> r[k].adj == g[k].adj
    ensures Targets(r) + multiset(g[u].adj) == Targets(g) + multiset(r[u].adj)
  {
    TargetsOfPick(g, g.Keys, u);
    TargetsOfPick(r, r.Keys, u);
    TargetsOfFrame(r, g, g.Keys - {u});
  }

  /** addChild keeps the bookkeeping invariant and adds exactly one entry `v`. */
  lemma {:induction false} AddChildValid(g: Store, u: int, v: int)
    requires Valid(g) && u in g && v in g
    ensures Valid(AddChild(g, u, v))
    ensures Targets(AddChild(g, u, v)) == Targets(g) + multiset{v}
  {
    var r := AddChild(g, u, v);
    TargetsReplaceList(g, r, u);
    assert multiset(r[u].adj) == multiset(g[u].adj) + multiset{v};
    MultisetCancel(Targets(r), Targets(g) + multiset{v}, multiset(g[u].adj));
    assert Closed(r) by {
      forall a, b | a in r && b in r[a].adj ensures b in r {
        if a == u && b !in g[u].adj {
          assert b == v;
        }
      }
    }
    assert InDegrees(r) by {
      forall k | k in r ensures r[k].inDegree == Targets(r)[k] {
        assert g[k].inDegree == Targets(g)[k];
      }
    }
  }

  lemma {:induction false} RemoveChildTargets(g: Store, u: int, v: int)
    requires u in g && v in g && v in g[u].adj
    ensures Targets(RemoveChild(g, u, v)) == Targets(g) - multiset{v}
  {
    var r := RemoveChild(g, u, v);
    TargetsReplaceList(g, r, u);
    assert multiset(g[u].adj) == multiset(r[u].adj) + multiset{v};
    assert Targets(r) + multiset{v} + multiset(r[u].adj) == Targets(g) + multiset(r[u].adj);
    MultisetCancel(Targets(r) + multiset{v}, Targets(g), multiset(r[u].adj));
  }

  lemma RemoveChildClosed(g: Store, u: int, v: int)
    requires Closed(g) && u in g && v in g
    ensures Closed(RemoveChild(g, u, v))
  {
    var r := RemoveChild(g, u, v);
    forall a, b | a in r && b in r[a].adj ensures b in r {
      if a == u && v in g[u].adj {
        assert b in multiset(r[u].adj);
        assert b in multiset(g[u].adj);
      }
    }
  }

  lemma RemoveChildInDegrees(g: Store, u: int, v: int)
    requires InDegrees(g) && u in g && v in g && v in g[u].adj
    requires Targets(RemoveChild(g, u, v)) == Targets(g) - multiset{v}
    ensures InDegrees(RemoveChild(g, u, v))
  {
    var r := RemoveChild(g, u, v);
    forall k | k in r ensures r[k].inDegree == Targets(r)[k] {
      assert g[k].inDegree == Targets(g)[k];
      if k == v {
        TargetsMember(g, v);
      }
    }
  }

  /** removeChild keeps the bookkeeping invariant and removes exactly one entry `v`
      when there was one. */
  lemma {:induction false} RemoveChildValid(g: Store, u: int, v: int)
    requires Valid(g) && u in g && v in g
    ensures Valid(RemoveChild(g, u, v))
    ensures v in g[u].adj ==> Targets(RemoveChild(g, u, v)) == Targets(g) - multiset{v}
  {
    if v in g[u].adj {
      RemoveChildTargets(g, u, v);
      RemoveChildClosed(g, u, v);
      RemoveChildInDegrees(g, u, v);
    }
  }

  /** The first half of the copy constructor: a fresh node for every id. */
  method IsolatedStore(ks: set<int>) returns (c: Store)
    ensures c.Keys == ks && Valid(c)
    ensures forall u :: u in c ==> c[u].adj == []
  {
    c := map[];
    var unseen := ks;
    while unseen != {}
      invariant unseen <= ks
      invariant c.Keys == ks - unseen
      invariant Valid(c)
      invariant forall u :: u in c ==> c[u].adj == []
    {
      ghost var w := Pick(unseen);
      var k :| k in unseen;
      AddFreshNodeValid(c, k);
      c := c[k := NewNode(k)];
      unseen := unseen - {k};
    }
  }

  /** The loop state of AddChildren: the first `i` kids have been added to `k`. */
  ghost predicate ChildrenSoFar(c0: Store, c: Store, k: int, kids: seq<int>, i: int) {
    && 0 <= i <= |kids| && k in c0
    && c.Keys == c0.Keys && Valid(c)
    && c[k].adj == kids[..i]
    && (forall u :: u in c0 && u != k ==> c[u].adj == c0[u].adj)
  }

  /** One addChild of AddChildren's loop. */
  method AddNext(c0: Store, c: Store, k: int, kids: seq<int>, i: int) returns (c': Store)
    requires forall x :: x in kids ==> x in c0
    requires ChildrenSoFar(c0, c, k, kids, i) && i < |kids|
    ensures ChildrenSoFar(c0, c', k, kids, i + 1)
  {
    AddChildValid(c, k, kids[i]);
    assert kids[..i + 1] == kids[..i] + [kids[i]];
    c' := AddChild(c, k, kids[i]);
  }

  /** addChild for every id of `kids`, in order, on a node that has no children yet. */
  method AddChildren(c0: Store, k: int, kids: seq<int>) returns (c: Store)
    requires Valid(c0) && k in c0 && c0[k].adj == []
    requires forall x :: x in kids ==> x in c0
    ensures Valid(c) && c.Keys == c0.Keys
    ensures c[k].adj == kids
    ensures forall u :: u in c0 && u != k ==> c[u].adj == c0[u].adj
  {
    c := c0;
    var i := 0;
    while i < |kids|
      invariant ChildrenSoFar(c0, c, k, kids, i)
    {
      c := AddNext(c0, c, k, kids, i);
      i := i + 1;
    }
    assert kids[..i] == kids;
  }

  /** The copy constructor (DirectedGraph(DirectedGraph), UndirectedGraph(UndirectedGraph),
      getNodesForGraph): fresh nodes for every id, then every child re-added through
      addChild, so the counters are recomputed from the adjacency lists. */
  method CopyStore(g: Store) returns (c: Store)
    requires Ids(g) && Closed(g)
    ensures c.Keys == g.Keys
    ensures forall u :: u in c ==> c[u].adj == g[u].adj
    ensures Valid(c)
    ensures Valid(g) ==> c == g
  {
    c := IsolatedStore(g.Keys);
    var todo := g.Keys;
    while todo != {}
      invariant todo <= g.Keys
      invariant c.Keys == g.Keys
      invariant Valid(c)
      invariant forall u :: u in c && u !in todo ==> c[u].adj == g[u].adj
      invariant forall u :: u in todo ==> c[u].adj == []
    {
      ghost var w := Pick(todo);
      var k :| k in todo;
      c := AddChildren(c, k, g[k].adj);
      todo := todo - {k};
    }
    if Valid(g) {
      TargetsOfFrame(c, g, g.Keys);
      assert forall u :: u in g ==> c[u] == g[u];
    }
  }
}

=== FILE: johnson.dfy ===
/** WeightedGraph.johnsons: all-pairs shortest paths. A fresh source is joined to every
    node by an edge of weight 0, Bellman-Ford from it yields a potential h, every edge
    (u, v) is reweighted to w + h(u) - h(v) (never negative once no negative cycle
    exists), the source is dropped, and Dijkstra runs from every node. */
module Johnson {
  import opened Results
  import opened Seqs
  import opened Nodes
  import opened Paths
  import opened Directed
  import opened WeightedPaths
  import opened Weighted
  import opened Dijkstra
  import opened BellmanFord
  import opened PathQueries

  /** Integer.MIN_VALUE: the id the Java code gives the added source. */
  const SOURCE: int := -2147483648

  // ----- the augmented graph -----

  /** An id the graph does not use: SOURCE when it is free, otherwise one above every id. */
  method FreshSource(g: Store) returns (s: int)
    ensures s !in g
    ensures SOURCE !in g ==> s == SOURCE
  {
    if SOURCE !in g {
      return SOURCE;
    }
    s := 0;
    var rest := g.Keys;
    while rest != {}
      invariant rest <= g.Keys
      invariant forall v :: v in g && v !in rest ==> v < s
      decreases rest
    {
      ghost var x := Pick(rest);
      var v :| v in rest;
      if v >= s {
        s := v + 1;
      }
      rest := rest - {v};
    }
  }

  /** The node ids in iteration order (iterateV). */
  method NodeOrder(g: Store) returns (order: seq<int>)
    ensures NoDup(order) && forall v :: v in order <==> v in g
  {
    order := [];
    var rest := g.Keys;
    while rest != {}
      invariant rest <= g.Keys && NoDup(order)
      invariant forall v :: v in order <==> v in g && v !in rest
      decreases rest
    {
      ghost var x := Pick(rest);
      var v :| v in rest;
      order := order + [v];
      rest := rest - {v};
    }
  }

  /** The store after the source is added and connectFromTo(s, v) is called for every node
      v in `order`: the source lists the nodes in that order and every node gains one
      incoming edge. */
  function Augment(g: Store, s: int, order: seq<int>): (a: Store)
    ensures a.Keys == g.Keys + {s} && a[s].adj == order
    ensures s !in g ==> forall v :: v in g ==> a[v].adj == g[v].adj
  {
    (map v | v in g.Keys :: g[v].(inDegree := g[v].inDegree + 1))[s := Node(s, order, |order|, 0)]
  }

  /** The weight table after those connections: every new edge weighs 0. */
  function AugmentWeights(w: Weights, g: Store, s: int): (r: Weights)
    ensures forall e :: e in r <==> e in w || (e.0 == s && e.1 in g)
    ensures forall e :: e in w && e.0 != s ==> r[e] == w[e]
    ensures forall v :: v in g ==> r[(s, v)] == 0
  {
    w + map v | v in g.Keys :: (s, v) := 0
  }

  /** The augmented graph is a weighted graph whose source has no incoming edge. */
  lemma AugmentValid(g: Store, w: Weights, s: int, order: seq<int>)
    requires Closed(g) && w.Keys == Edges(g) && s !in g && (forall v :: v in order <==> v in g)
    ensures Closed(Augment(g, s, order))
    ensures AugmentWeights(w, g, s).Keys == Edges(Augment(g, s, order))
    ensures forall u :: u in Augment(g, s, order) ==> s !in Augment(g, s, order)[u].adj
  {
    var a := Augment(g, s, order);
    AugmentAttached(g, s, order);
    Attached(g, s, a);
    AttachedEdges(g, w, s, a);
  }

  lemma AugmentAttached(g: Store, s: int, order: seq<int>)
    requires s !in g && (forall v :: v in order <==> v in g)
    ensures AttachedTo(g, s, Augment(g, s, order))
  {
  }

  /** `a` is `g` with node `s` added, whose children are exactly the nodes of `g`. */
  ghost predicate AttachedTo(g: Store, s: int, a: Store) {
    && s !in g && a.Keys == g.Keys + {s}
    && (forall v :: v in g ==> a[v].adj == g[v].adj)
    && (forall v :: v in a[s].adj <==> v in g)
  }

  lemma Attached(g: Store, s: int, a: Store)
    requires Closed(g) && AttachedTo(g, s, a)
    ensures Closed(a) && forall u :: u in a ==> s !in a[u].adj
  {
    forall u, v | u in a && v in a[u].adj ensures v in g {
      if u != s {
        assert u in g && v in g[u].adj;
      }
    }
  }

  lemma AttachedEdges(g: Store, w: Weights, s: int, a: Store)
    requires w.Keys == Edges(g) && AttachedTo(g, s, a)
    ensures AugmentWeights(w, g, s).Keys == Edges(a)
  {
    forall e | e in Edges(a) ensures e in AugmentWeights(w, g, s) {
      if e.0 != s {
        assert e.0 in g && e.1 in g[e.0].adj;
      }
    }
  }

  /** Off the source, the augmented table agrees with the original one. */
  lemma OffSource(w: Weights, g: Store, s: int, x: int, y: int)
    requires s !in g && x != s
    ensures EdgeWeight(AugmentWeights(w, g, s), x, y) == EdgeWeight(w, x, y)
  {
  }

  /** Two tables that agree on every step of a walk give it the same weight. */
  lemma {:induction false} SameWeight(w1: Weights, w2: Weights, p: seq<int>)
    requires forall i :: 0 <= i < |p| - 1 ==> EdgeWeight(w1, p[i], p[i + 1]) == EdgeWeight(w2, p[i], p[i + 1])
    ensures PathWeight(w1, p) == PathWeight(w2, p)
    decreases |p|
  {
    if |p| >= 2 {
      var q := p[1..];
      forall i | 0 <= i < |q| - 1 ensures EdgeWeight(w1, q[i], q[i + 1]) == EdgeWeight(w2, q[i], q[i + 1]) {
        assert q[i] == p[i + 1] && q[i + 1] == p[i + 2];
      }
      SameWeight(w1, w2, q);
    }
  }

  /** A walk of the graph is a walk of the augmented graph, with the same weight. */
  lemma LiftWalk(g: Store, w: Weights, s: int, a: Store, p: seq<int>)
    requires AttachedTo(g, s, a) && IsPath(g, p)
    ensures IsPath(a, p)
    ensures PathWeight(AugmentWeights(w, g, s), p) == PathWeight(w, p)
  {
    forall i | 0 <= i < |p| - 1 ensures p[i + 1] in a[p[i]].adj {
      var x, y := p[i], p[i + 1];
      assert x in g && y in g[x].adj;
    }
    forall i | 0 <= i < |p| - 1
      ensures EdgeWeight(AugmentWeights(w, g, s), p[i], p[i + 1]) == EdgeWeight(w, p[i], p[i + 1])
    {
      OffSource(w, g, s, p[i], p[i + 1]);
    }
    SameWeight(AugmentWeights(w, g, s), w, p);
  }

  /** A walk of the augmented graph that does not start at the source never meets it, so it
      is a walk of the graph with the same weight. */
  lemma DropWalk(g: Store, w: Weights, s: int, a: Store, p: seq<int>)
    requires AttachedTo(g, s, a) && forall u :: u in a ==> s !in a[u].adj
    requires IsPath(a, p) && p[0] != s
    ensures IsPath(g, p)
    ensures PathWeight(AugmentWeights(w, g, s), p) == PathWeight(w, p)
  {
    forall i | 0 <= i < |p| ensures p[i] != s {
      if i > 0 {
        var x, y := p[i - 1], p[i];
        assert x in a && y in a[x].adj;
      }
    }
    forall i | 0 <= i < |p| - 1 ensures p[i + 1] in g[p[i]].adj {
      var x, y := p[i], p[i + 1];
      assert x in a && y in a[x].adj;
    }
    forall i | 0 <= i < |p| - 1
      ensures EdgeWeight(AugmentWeights(w, g, s), p[i], p[i + 1]) == EdgeWeight(w, p[i], p[i + 1])
    {
      OffSource(w, g, s, p[i], p[i + 1]);
    }
    SameWeight(AugmentWeights(w, g, s), w, p);
  }

  /** Joining the source creates no cycle and removes none. */
  lemma AugmentNegCycle(g: Store, w: Weights, s: int, a: Store)
    requires Closed(g) && AttachedTo(g, s, a)
    ensures NegCycle(a, AugmentWeights(w, g, s)) <==> NegCycle(g, w)
  {
    var aw := AugmentWeights(w, g, s);
    if NegCycle(g, w) {
      var c :| IsPath(g, c) && |c| >= 2 && c[0] == c[|c| - 1] && PathWeight(w, c) < 0;
      LiftWalk(g, w, s, a, c);
    }
    if NegCycle(a, aw) {
      var c :| IsPath(a, c) && |c| >= 2 && c[0] == c[|c| - 1] && PathWeight(aw, c) < 0;
      Attached(g, s, a);
      var x, y := c[|c| - 2], c[|c| - 1];
      assert x in a && y in a[x].adj;
      DropWalk(g, w, s, a, c);
    }
  }

  // ----- the potential -----

  /** `x` is the least weight of a walk of the graph that ends at `v`. A walk of one node
      weighs 0, so `x <= 0`; this is the distance from a source joined to every node by an
      edge of weight 0. */
  ghost predicate LeastInto(g: Store, w: Weights, v: int, x: int) {
    && (forall p :: IsPath(g, p) && p[|p| - 1] == v ==> x <= PathWeight(w, p))
    && (exists p :: IsPath(g, p) && p[|p| - 1] == v && PathWeight(w, p) == x)
  }

  /** Putting the source in front of a walk of the graph gives a walk of the augmented
      graph that offers the walk's own weight. */
  lemma FromSource(g: Store, w: Weights, s: int, a: Store, p: seq<int>)
    requires AttachedTo(g, s, a) && IsPath(g, p)
    ensures IsPath(a, [s] + p) && ([s] + p)[|[s] + p| - 1] == p[|p| - 1]
    ensures Cost(AugmentWeights(w, g, s), s, [s] + p) == PathWeight(w, p)
  {
    var q := [s] + p;
    LiftWalk(g, w, s, a, p);
    assert q[1..] == p;
    forall i | 0 <= i < |q| - 1 ensures q[i + 1] in a[q[i]].adj {
      if i > 0 {
        assert q[i] == p[i - 1] && q[i + 1] == p[i];
      }
    }
  }

  /** A walk of the augmented graph from the source to a node of the graph, less its first
      step, is a walk of the graph that weighs what the whole walk offers. */
  lemma PastSource(g: Store, w: Weights, s: int, a: Store, q: seq<int>) returns (p: seq<int>)
    requires AttachedTo(g, s, a) && forall u :: u in a ==> s !in a[u].adj
    requires IsPath(a, q) && q[0] == s && q[|q| - 1] in g
    ensures IsPath(g, p) && p[|p| - 1] == q[|q| - 1]
    ensures PathWeight(w, p) == Cost(AugmentWeights(w, g, s), s, q)
  {
    assert |q| >= 2;
    p := q[1..];
    var x := q[1];
    assert x in a[s].adj;
    DropWalk(g, w, s, a, p);
  }

  /** Bellman-Ford from the joined source settles every node of the graph on its least
      incoming walk weight. */
  lemma PotentialAt(g: Store, w: Weights, s: int, a: Store, v: int, x: int)
    requires AttachedTo(g, s, a) && forall u :: u in a ==> s !in a[u].adj
    requires v in g && Cheapest(a, AugmentWeights(w, g, s), s, v, x)
    ensures LeastInto(g, w, v, x)
  {
    var aw := AugmentWeights(w, g, s);
    forall p | IsPath(g, p) && p[|p| - 1] == v ensures x <= PathWeight(w, p) {
      FromSource(g, w, s, a, p);
    }
    var q :| IsPath(a, q) && q[|q| - 1] == v && Cost(aw, s, q) == x;
    if q[0] != s {
      DropWalk(g, w, s, a, q);
      assert false;
    }
    var p := PastSource(g, w, s, a, q);
  }

  /** The same for every node of the graph. */
  lemma PotentialsLeast(g: Store, w: Weights, s: int, a: Store, h: map<int, int>)
    requires AttachedTo(g, s, a) && forall u :: u in a ==> s !in a[u].adj
    requires a.Keys <= h.Keys
    requires forall v {:trigger Cheapest(a, AugmentWeights(w, g, s), s, v, h[v])} :: v in a ==> Cheapest(a, AugmentWeights(w, g, s), s, v, h[v])
    ensures forall v :: v in g ==> v in h && LeastInto(g, w, v, h[v])
  {
    forall v | v in g ensures v in h && LeastInto(g, w, v, h[v]) {
      assert v in a;
      PotentialAt(g, w, s, a, v, h[v]);
    }
  }

  // ----- reweighting -----

  /** The potential of a node (0 for an id the map does not cover). */
  function Potential(h: map<int, int>, v: int): int {
    if v in h then h[v] else 0
  }

  /** Every edge (u, v) reweighted to w + h(u) - h(v), as the loop over iterateE does; the
      source's edges leave with the source, so only the original edges remain. */
  function Reweight(w: Weights, h: map<int, int>): (r: Weights)
    ensures r.Keys == w.Keys
  {
    map e | e in w :: w[e] + Potential(h, e.0) - Potential(h, e.1)
  }

  /** Estimates no edge of a table can improve make every reweighted edge non-negative. */
  lemma ReweightNonNegative(w: Weights, aw: Weights, h: map<int, int>)
    requires forall e :: e in w ==> e in aw && aw[e] == w[e]
    requires Tight(aw, h)
    ensures NonNegative(Reweight(w, h))
  {
    forall e | e in Reweight(w, h) ensures Reweight(w, h)[e] >= 0 {
      var (x, y) := e;
      assert (x, y) in aw;
    }
  }

  /** Every step of a walk of the graph has a weight entry. */
  lemma StepsWeighted(g: Store, w: Weights, p: seq<int>)
    requires IsPath(g, p) && w.Keys == Edges(g)
    ensures forall i :: 0 <= i < |p| - 1 ==> (p[i], p[i + 1]) in w
  {
    forall i | 0 <= i < |p| - 1 ensures (p[i], p[i + 1]) in w {
      var x, y := p[i], p[i + 1];
      assert x in g && y in g[x].adj;
    }
  }

  /** Reweighting telescopes along a walk: only the potentials of its ends remain. */
  lemma {:induction false} Telescope(w: Weights, h: map<int, int>, p: seq<int>)
    requires |p| >= 1 && forall i :: 0 <= i < |p| - 1 ==> (p[i], p[i + 1]) in w
    ensures PathWeight(Reweight(w, h), p) == PathWeight(w, p) + Potential(h, p[0]) - Potential(h, p[|p| - 1])
    decreases |p|
  {
    if |p| >= 2 {
      var q := p[1..];
      forall i | 0 <= i < |q| - 1 ensures (q[i], q[i + 1]) in w {
        assert q[i] == p[i + 1] && q[i + 1] == p[i + 2];
      }
      Telescope(w, h, q);
    }
  }

  /** A reweighted distance brought back to the original weights; INFINITY stays. */
  function Restore(h: map<int, int>, u: int, v: int, d: int): int {
    if d == INFINITY then INFINITY else d - Potential(h, u) + Potential(h, v)
  }

  /** `x` answers the query (u, v): it is the least weight of a walk from u to v, or it is
      INFINITY and no walk from u to v weighs less than INFINITY - h(u) + h(v). */
  ghost predicate Answers(g: Store, w: Weights, h: map<int, int>, u: int, v: int, x: int) {
    || (LowerBound(g, w, None, u, v, x) && Attained(g, w, None, u, v, x))
    || (x == INFINITY && LowerBound(g, w, None, u, v, INFINITY - Potential(h, u) + Potential(h, v)))
  }

  /** A capped distance under the reweighted table, restored, answers the query under the
      original table: reweighting shifts every walk from u to v by the same amount. */
  lemma Translate(g: Store, w: Weights, h: map<int, int>, u: int, v: int, d: int)
    requires w.Keys == Edges(g) && ShortestCapped(g, Reweight(w, h), None, u, v, d)
    ensures Answers(g, w, h, u, v, Restore(h, u, v, d))
  {
    var shift := Potential(h, u) - Potential(h, v);
    forall p | StopPath(g, None, p, u, v) ensures d - shift <= PathWeight(w, p) {
      StepsWeighted(g, w, p);
      Telescope(w, h, p);
    }
    if d != INFINITY {
      var p :| StopPath(g, None, p, u, v) && PathWeight(Reweight(w, h), p) == d;
      StepsWeighted(g, w, p);
      Telescope(w, h, p);
    }
  }

  // ----- the algorithm -----

  /** The first half of johnsons: join a fresh source to every node with weight 0, run
      Bellman-Ford from it and refuse a negative cycle. The estimates are the potential;
      the "Johnson failed" check that follows can never fire. */
  method Potentials(wg: WGraph) returns (r: Result<map<int, int>>)
    requires WValid(wg)
    ensures r.Err? <==> NegCycle(wg.nodes, wg.weights)
    ensures r.Err? ==> r.error == NegativeCycle
    ensures r.Ok? ==> wg.nodes.Keys <= r.value.Keys && NonNegative(Reweight(wg.weights, r.value))
    ensures r.Ok? ==> forall v :: v in wg.nodes ==> LeastInto(wg.nodes, wg.weights, v, r.value[v])
  {
    var g, w := wg.nodes, wg.weights;
    var s := FreshSource(g);
    var order := NodeOrder(g);
    var a, aw := Augment(g, s, order), AugmentWeights(w, g, s);
    AugmentValid(g, w, s, order);
    AugmentAttached(g, s, order);
    AugmentNegCycle(g, w, s, a);
    var outcome := BellmanFord.BellmanFord(WGraph(a, aw), s);
    if outcome.marked != {} {
      return Err(NegativeCycle);
    }
    Attached(g, s, a);
    PotentialsLeast(g, w, s, a, outcome.dist);
    ReweightNonNegative(w, aw, outcome.dist);
    var ok := PositiveWeights(Reweight(w, outcome.dist));
    assert ok;
    r := Ok(outcome.dist);
  }

  /** One Dijkstra run with no stop node from `u`, its estimates stored under (u, v). */
  method Row(g: Store, w: Weights, u: int) returns (row: map<(int, int), int>)
    requires WValid(WGraph(g, w)) && NonNegative(w) && u in g
    ensures forall e :: e in row <==> e.0 == u && e.1 in g
    ensures forall e {:trigger row[e]} :: e in row ==> ShortestCapped(g, w, None, e.0, e.1, row[e])
  {
    var search := Dijkstras(WGraph(g, w), u, None);
    row := Keyed(u, search.value.dist);
  }

  /** The estimates of one run, each stored under (u, v). */
  function Keyed(u: int, dist: map<int, int>): (row: map<(int, int), int>)
    ensures forall e :: e in row <==> e.0 == u && e.1 in dist
    ensures forall e :: e in row ==> row[e] == dist[e.1]
  {
    map v | v in dist.Keys :: (u, v) := dist[v]
  }

  /** The closing loop of johnsons: a row for every node. */
  method AllPairs(g: Store, w: Weights) returns (table: map<(int, int), int>)
    requires WValid(WGraph(g, w)) && NonNegative(w)
    ensures forall e :: e in table <==> e.0 in g && e.1 in g
    ensures forall e {:trigger table[e]} :: e in table ==> ShortestCapped(g, w, None, e.0, e.1, table[e])
  {
    var order := NodeOrder(g);
    table := map[];
    var i := 0;
    while i < |order|
      invariant 0 <= i <= |order|
      invariant forall e :: e in table <==> e.0 in order[..i] && e.1 in g
      invariant forall e {:trigger table[e]} :: e in table ==> ShortestCapped(g, w, None, e.0, e.1, table[e])
    {
      var row := Row(g, w, order[i]);
      assert order[..i + 1] == order[..i] + [order[i]];
      table := table + row;
      i := i + 1;
    }
    assert order[..i] == order;
    assert forall v :: v in order <==> v in g;
    forall e ensures e in table <==> e.0 in g && e.1 in g {
      assert e.0 in order <==> e.0 in g;
    }
  }

  /** johnsons as the Java code has it: the table holds the distances under the reweighted
      table, which is what Dijkstra computed; the potential is never taken back off. */
  method JohnsonsAsWritten(wg: WGraph) returns (r: Result<map<(int, int), int>>, h: map<int, int>)
    requires WValid(wg)
    ensures r.Err? <==> NegCycle(wg.nodes, wg.weights)
    ensures r.Err? ==> r.error == NegativeCycle
    ensures r.Ok? ==> NonNegative(Reweight(wg.weights, h))
    ensures r.Ok? ==> forall e :: e in r.value <==> e.0 in wg.nodes && e.1 in wg.nodes
    ensures r.Ok? ==> forall e {:trigger r.value[e]} :: e in r.value ==>
      ShortestCapped(wg.nodes, Reweight(wg.weights, h), None, e.0, e.1, r.value[e])
    ensures r.Ok? ==> forall v :: v in wg.nodes ==> v in h && LeastInto(wg.nodes, wg.weights, v, h[v])
  {
    var p := Potentials(wg);
    if p.Err? {
      return Err(p.error), map[];
    }
    h := p.value;
    var table := AllPairs(wg.nodes, Reweight(wg.weights, h));
    r := Ok(table);
  }

  /** Every entry of a table restored to the original weights. */
  function RestoreAll(t: map<(int, int), int>, h: map<int, int>): (r: map<(int, int), int>)
    ensures r.Keys == t.Keys
  {
    map e | e in t :: Restore(h, e.0, e.1, t[e])
  }

  lemma RestoreAnswers(g: Store, w: Weights, h: map<int, int>, t: map<(int, int), int>)
    requires w.Keys == Edges(g)
    requires forall e {:trigger t[e]} :: e in t ==> ShortestCapped(g, Reweight(w, h), None, e.0, e.1, t[e])
    ensures forall e {:trigger RestoreAll(t, h)[e]} :: e in RestoreAll(t, h) ==>
      Answers(g, w, h, e.0, e.1, RestoreAll(t, h)[e])
  {
    forall e | e in RestoreAll(t, h) ensures Answers(g, w, h, e.0, e.1, RestoreAll(t, h)[e]) {
      Translate(g, w, h, e.0, e.1, t[e]);
    }
  }

  /** johnsons with the evident intent: every entry is taken back to the original weights,
      so each pair holds its shortest distance (or INFINITY when none is below the cap). */
  method Johnsons(wg: WGraph) returns (r: Result<map<(int, int), int>>, h: map<int, int>)
    requires WValid(wg)
    ensures r.Err? <==> NegCycle(wg.nodes, wg.weights)
    ensures r.Err? ==> r.error == NegativeCycle
    ensures r.Ok? ==> forall e :: e in r.value <==> e.0 in wg.nodes && e.1 in wg.nodes
    ensures r.Ok? ==> forall e {:trigger r.value[e]} :: e in r.value ==>
      Answers(wg.nodes, wg.weights, h, e.0, e.1, r.value[e])
    ensures r.Ok? ==> forall v :: v in wg.nodes ==> v in h && LeastInto(wg.nodes, wg.weights, v, h[v])
  {
    var raw;
    raw, h := JohnsonsAsWritten(wg);
    if raw.Err? {
      return raw, h;
    }
    RestoreAnswers(wg.nodes, wg.weights, h, raw.value);
    r := Ok(RestoreAll(raw.value, h));
  }

  // ----- the discrepancy on a two-node graph -----

  /** Under non-negative weights a capped distance is never negative. */
  lemma CappedNonNegative(g: Store, w: Weights, u: int, v: int, d: int)
    requires NonNegative(w) && ShortestCapped(g, w, None, u, v, d)
    ensures d >= 0
  {
    if d != INFINITY {
      var p :| StopPath(g, None, p, u, v) && PathWeight(w, p) == d;
      NonNegativeWalk(w, p);
    }
  }

  /** On Link(-1) the Java table holds 0 or more for the pair (0, 1), although the single
      edge from 0 to 1 weighs -1. */
  method JohnsonsMisreports() returns (t: map<(int, int), int>)
    ensures (0, 1) in t && t[(0, 1)] >= 0
    ensures Attained(Link(-1).nodes, Link(-1).weights, None, 0, 1, -1)
  {
    LinkValid(-1);
    LinkNoNegCycle(-1);
    var r, h := JohnsonsAsWritten(Link(-1));
    t := r.value;
    LinkEntry(h, t);
  }

  lemma LinkEntry(h: map<int, int>, t: map<(int, int), int>)
    requires NonNegative(Reweight(Link(-1).weights, h))
    requires forall e :: e in t <==> e.0 in Link(-1).nodes && e.1 in Link(-1).nodes
    requires forall e {:trigger t[e]} :: e in t ==> ShortestCapped(Link(-1).nodes, Reweight(Link(-1).weights, h), None, e.0, e.1, t[e])
    ensures (0, 1) in t && t[(0, 1)] >= 0
    ensures Attained(Link(-1).nodes, Link(-1).weights, None, 0, 1, -1)
  {
    var g, w := Link(-1).nodes, Link(-1).weights;
    assert (0, 1) in t;
    CappedNonNegative(g, Reweight(w, h), 0, 1, t[(0, 1)]);
    assert StopPath(g, None, [0, 1], 0, 1) && PathWeight(w, [0, 1]) == -1;
  }

  /** The corrected johnsons on Link(-1) stores -1 for the pair (0, 1), the weight of its
      single edge. */
  method JohnsonsOnLink() returns (t: map<(int, int), int>)
    ensures (0, 1) in t && t[(0, 1)] == -1
  {
    LinkValid(-1);
    LinkNoNegCycle(-1);
    var r, h := Johnsons(Link(-1));
    t := r.value;
    assert (0, 1) in t;
    var g, w, x := Link(-1).nodes, Link(-1).weights, t[(0, 1)];
    assert Answers(g, w, h, 0, 1, x);
    LinkPotentials(h);
    LinkOneStep();
    if LowerBound(g, w, None, 0, 1, x) && Attained(g, w, None, 0, 1, x) {
      LinkAttained(x);
    }
  }

  /** The least incoming walk weights of Link(-1) are 0 for node 0 and at least -1 for node 1. */
  lemma LinkPotentials(h: map<int, int>)
    requires 0 in h && LeastInto(Link(-1).nodes, Link(-1).weights, 0, h[0])
    requires 1 in h && LeastInto(Link(-1).nodes, Link(-1).weights, 1, h[1])
    ensures Potential(h, 0) <= 0 && Potential(h, 1) >= -1
  {
    var g, w := Link(-1).nodes, Link(-1).weights;
    assert IsPath(g, [0]) && PathWeight(w, [0]) == 0;
    var p :| IsPath(g, p) && p[|p| - 1] == 1 && PathWeight(w, p) == h[1];
    LinkWalk(-1, p);
  }

  /** The edge of Link(-1) is a walk from 0 to 1 of weight -1. */
  lemma LinkOneStep()
    ensures StopPath(Link(-1).nodes, None, [0, 1], 0, 1) && PathWeight(Link(-1).weights, [0, 1]) == -1
  {
  }

  /** The only walk of Link(-1) from 0 to 1 weighs -1. */
  lemma LinkAttained(x: int)
    requires Attained(Link(-1).nodes, Link(-1).weights, None, 0, 1, x)
    ensures x == -1
  {
    var p :| StopPath(Link(-1).nodes, None, p, 0, 1) && PathWeight(Link(-1).weights, p) == x;
    LinkWalk(-1, p);
    LinkOneStep();
  }
}

=== FILE: path_queries.dfy ===
/** The queries WeightedGraph answers with its shortest-path engines: hasNegativeCycle and
    WeightOfShortestPathFromTo. */
module PathQueries {
  import opened Results
  import opened Seqs
  import opened Nodes
  import opened Paths
  import opened Directed
  import opened WeightedPaths
  import opened Weighted
  import opened Dijkstra
  import opened BellmanFord

  /** The least offer made to a node is unique. */
  lemma CheapestUnique(g: Store, w: Weights, s: int, v: int, x: int, y: int)
    requires Cheapest(g, w, s, v, x) && Cheapest(g, w, s, v, y)
    ensures x == y
  {
    var p :| IsPath(g, p) && p[|p| - 1] == v && Cost(w, s, p) == x;
    var q :| IsPath(g, q) && q[|q| - 1] == v && Cost(w, s, q) == y;
  }

  // ----- hasNegativeCycle -----

  /** hasNegativeCycle as the Java code has it: run Bellman-Ford and look for an estimate
      equal to MINUS_INFINITY. A negative cycle is always reported; without one, the answer
      is "true" exactly when some node's least offer happens to equal the sentinel. */
  method HasNegativeCycleAsWritten(wg: WGraph, source: int) returns (b: bool)
    requires Closed(wg.nodes) && wg.weights.Keys == Edges(wg.nodes)
    ensures NegCycle(wg.nodes, wg.weights) ==> b
    ensures !NegCycle(wg.nodes, wg.weights) ==>
      (b <==> exists v :: v in wg.nodes && Cheapest(wg.nodes, wg.weights, source, v, MINUS_INFINITY))
  {
    var r := BellmanFord.BellmanFord(wg, source);
    b := exists v :: v in r.dist.Keys && r.dist[v] == MINUS_INFINITY;
    if NegCycle(wg.nodes, wg.weights) {
      var v := Pick(r.marked);
      assert v in r.dist.Keys && r.dist[v] == MINUS_INFINITY;
    } else {
      SentinelHit(wg.nodes, wg.weights, source, r.dist, b);
    }
  }

  lemma SentinelHit(g: Store, w: Weights, s: int, dist: map<int, int>, b: bool)
    requires dist.Keys == g.Keys + {s} && (s !in g ==> dist[s] == 0)
    requires forall v {:trigger Cheapest(g, w, s, v, dist[v])} :: v in g ==> Cheapest(g, w, s, v, dist[v])
    requires b <==> exists v :: v in dist.Keys && dist[v] == MINUS_INFINITY
    ensures b <==> exists v :: v in g && Cheapest(g, w, s, v, MINUS_INFINITY)
  {
    if b {
      var v :| v in dist.Keys && dist[v] == MINUS_INFINITY;
      assert v in g;
      assert Cheapest(g, w, s, v, dist[v]);
    }
    if v :| v in g && Cheapest(g, w, s, v, MINUS_INFINITY) {
      assert Cheapest(g, w, s, v, dist[v]);
      CheapestUnique(g, w, s, v, dist[v], MINUS_INFINITY);
      assert v in dist.Keys;
    }
  }

  /** hasNegativeCycle with the evident intent: report a cycle exactly when the marking pass
      marked a node. This holds for every choice of source. */
  method HasNegativeCycle(wg: WGraph, source: int) returns (b: bool)
    requires Closed(wg.nodes) && wg.weights.Keys == Edges(wg.nodes)
    ensures b <==> NegCycle(wg.nodes, wg.weights)
  {
    var r := BellmanFord.BellmanFord(wg, source);
    b := r.marked != {};
  }

  /** Two nodes and one edge 0 -> 1 of weight `x`. */
  function Link(x: int): (wg: WGraph) {
    WGraph(map[0 := Node(0, [1], 1, 0), 1 := Node(1, [], 0, 1)], map[(0, 1) := x])
  }

  lemma LinkValid(x: int)
    ensures WValid(Link(x))
  {
    LinkStore(x);
    LinkEdges(x);
  }

  lemma LinkStore(x: int)
    ensures DValid(Link(x).nodes)
  {
    LinkTargets(x);
    LinkShape(x);
  }

  lemma LinkShape(x: int)
    ensures Ids(Link(x).nodes) && Closed(Link(x).nodes) && OutDegrees(Link(x).nodes) && NoDupAdj(Link(x).nodes)
  {
    assert Link(x).nodes.Keys == {0, 1};
  }

  lemma LinkEdges(x: int)
    ensures Edges(Link(x).nodes) == {(0, 1)}
  {
    var g := Link(x).nodes;
    forall a, b | (a, b) in Edges(g) ensures (a, b) == (0, 1) {
      assert a in g && b in g[a].adj;
    }
    assert (0, 1) in Edges(g);
  }

  lemma LinkTargets(x: int)
    ensures InDegrees(Link(x).nodes)
  {
    LinkTargetCount(x);
    assert Link(x).nodes.Keys == {0, 1};
  }

  lemma LinkTargetCount(x: int)
    ensures Targets(Link(x).nodes) == multiset{1}
  {
    var g := Link(x).nodes;
    var one: Store := map[1 := Node(1, [], 0, 1)];
    var none: Store := map[];
    TargetsUpdate(one, 0, g[0]);
    assert one[0 := g[0]] == g && one - {0} == one;
    TargetsUpdate(none, 1, one[1]);
    assert none[1 := one[1]] == one && none - {1} == none;
    assert Targets(none) == multiset{};
  }

  /** The only walks of that graph: a single node, or 0 -> 1. */
  lemma LinkWalk(x: int, p: seq<int>)
    requires IsPath(Link(x).nodes, p)
    ensures |p| == 1 || p == [0, 1]
  {
    var g := Link(x).nodes;
    InnerHasChildren(g, p);
    if |p| >= 2 {
      var a, b := p[0], p[1];
      assert a in g && b in g[a].adj;
      assert a == 0 && b == 1;
    }
  }

  /** Every node of a walk but the last has a child. */
  lemma InnerHasChildren(g: Store, p: seq<int>)
    requires IsPath(g, p)
    ensures forall i :: 0 <= i < |p| - 1 ==> g[p[i]].adj != []
  {
    forall i | 0 <= i < |p| - 1 ensures g[p[i]].adj != [] {
      assert p[i + 1] in g[p[i]].adj;
    }
  }

  /** The graph has no cycle at all, whatever the weight. */
  lemma LinkNoNegCycle(x: int)
    ensures !NegCycle(Link(x).nodes, Link(x).weights)
  {
    forall c | IsPath(Link(x).nodes, c) && |c| >= 2 ensures c[0] != c[|c| - 1] {
      LinkWalk(x, c);
    }
  }

  /** On Link(MINUS_INFINITY) the Java check reports a negative cycle the graph does
      not have: the lightest offer to node 1 is 0 + MINUS_INFINITY. */
  method SentinelFalseAlarm() returns (b: bool)
    ensures b && !NegCycle(Link(MINUS_INFINITY).nodes, Link(MINUS_INFINITY).weights)
  {
    var wg := Link(MINUS_INFINITY);
    LinkValid(MINUS_INFINITY);
    LinkNoNegCycle(MINUS_INFINITY);
    SentinelCheapest();
    b := HasNegativeCycleAsWritten(wg, 0);
  }

  /** From node 0, the least offer to node 1 is exactly the sentinel. */
  lemma SentinelCheapest()
    ensures Cheapest(Link(MINUS_INFINITY).nodes, Link(MINUS_INFINITY).weights, 0, 1, MINUS_INFINITY)
  {
    var g, w := Link(MINUS_INFINITY).nodes, Link(MINUS_INFINITY).weights;
    forall p | IsPath(g, p) && p[|p| - 1] == 1 ensures MINUS_INFINITY <= Cost(w, 0, p) {
      LinkWalk(MINUS_INFINITY, p);
    }
    assert IsPath(g, [0, 1]) && Cost(w, 0, [0, 1]) == MINUS_INFINITY;
  }

  // ----- WeightOfShortestPathFromTo -----

  /** WeightOfShortestPathFromTo(from, to): Dijkstra stopping at `to` when no weight is
      negative, Bellman-Ford otherwise; the estimate of `to` is the answer. Reading a missing
      estimate (or running Dijkstra from a missing source) is an error. */
  method WeightOfShortestPathFromTo(wg: WGraph, from: int, to: int) returns (r: Result<int>)
    requires WValid(wg)
    ensures r.Err? <==> to != from && (to !in wg.nodes || (from !in wg.nodes && NonNegative(wg.weights)))
    ensures r.Err? ==> r.error == UnknownNode(if to !in wg.nodes then to else from)
    ensures from !in wg.nodes && to == from ==> r == Ok(0)
    ensures r.Ok? && NonNegative(wg.weights) && from in wg.nodes && to in wg.nodes ==>
      ShortestCapped(wg.nodes, wg.weights, None, from, to, r.value)
    ensures r.Ok? && !NonNegative(wg.weights) && !NegCycle(wg.nodes, wg.weights) && to in wg.nodes ==>
      Cheapest(wg.nodes, wg.weights, from, to, r.value)
  {
    var nonNegative := PositiveWeights(wg.weights);
    if nonNegative {
      var search := Dijkstras(wg, from, Some(to));
      if search.Err? {
        return Err(if to !in wg.nodes then UnknownNode(to) else search.error);
      }
      if to !in search.value.dist {
        return Err(UnknownNode(to));
      }
      r := Ok(search.value.dist[to]);
      if from in wg.nodes && to in wg.nodes {
        assert ShortestCapped(wg.nodes, wg.weights, Some(to), from, to, search.value.dist[to]);
        StopAtTarget(wg.nodes, wg.weights, from, to, r.value);
      }
    } else {
      var outcome := BellmanFord.BellmanFord(wg, from);
      if to !in outcome.dist {
        return Err(UnknownNode(to));
      }
      r := Ok(outcome.dist[to]);
      if !NegCycle(wg.nodes, wg.weights) && to in wg.nodes {
        assert Cheapest(wg.nodes, wg.weights, from, to, outcome.dist[to]);
      }
    }
  }
}

=== FILE: paths.dfy ===
/** Paths, reachability and cycles over an arena of nodes. A path is the sequence of
    the ids it visits; it has at least one node and each step follows an adjacency entry. */
module Paths {
  import opened Nodes

  ghost predicate IsPath(g: Store, p: seq<int>) {
    && |p| >= 1
    && (forall i :: 0 <= i < |p| ==> p[i] in g)
    && (forall i :: 0 <= i < |p| - 1 ==> p[i + 1] in g[p[i]].adj)
  }

  /** `b` can be reached from `a` (every stored node reaches itself). */
  ghost predicate Reach(g: Store, a: int, b: int) {
    exists p :: IsPath(g, p) && p[0] == a && p[|p| - 1] == b
  }

  /** Some path of at least one step comes back to where it started. */
  ghost predicate HasCycle(g: Store) {
    exists p :: IsPath(g, p) && |p| >= 2 && p[0] == p[|p| - 1]
  }

  lemma ReachRefl(g: Store, a: int)
    requires a in g
    ensures Reach(g, a, a)
  {
    assert IsPath(g, [a]);
  }

  lemma ReachEdge(g: Store, a: int, b: int)
    requires a in g && b in g && b in g[a].adj
    ensures Reach(g, a, b)
  {
    assert IsPath(g, [a, b]);
  }

  /** Two paths that meet glue into one. */
  lemma PathConcat(g: Store, p: seq<int>, q: seq<int>) returns (r: seq<int>)
    requires IsPath(g, p) && IsPath(g, q) && p[|p| - 1] == q[0]
    ensures IsPath(g, r) && r[0] == p[0] && r[|r| - 1] == q[|q| - 1]
    ensures |r| == |p| + |q| - 1
    ensures r == p + q[1..]
  {
    r := p + q[1..];
    forall i | 0 <= i < |r| - 1 ensures r[i + 1] in g[r[i]].adj {
      if i < |p| - 1 {
        assert r[i] == p[i] && r[i + 1] == p[i + 1];
      } else {
        assert r[i] == q[i - |p| + 1] && r[i + 1] == q[i - |p| + 2];
      }
    }
  }

  lemma ReachTrans(g: Store, a: int, b: int, c: int)
    requires Reach(g, a, b) && Reach(g, b, c)
    ensures Reach(g, a, c)
  {
    var p :| IsPath(g, p) && p[0] == a && p[|p| - 1] == b;
    var q :| IsPath(g, q) && q[0] == b && q[|q| - 1] == c;
    var r := PathConcat(g, p, q);
  }

  lemma ReachStep(g: Store, a: int, b: int, c: int)
    requires Reach(g, a, b) && b in g && c in g && c in g[b].adj
    ensures Reach(g, a, c)
  {
    ReachEdge(g, b, c);
    ReachTrans(g, a, b, c);
  }

  /** Every node of a path is reached from its start and reaches its end. */
  lemma PathNodes(g: Store, p: seq<int>, i: int)
    requires IsPath(g, p) && 0 <= i < |p|
    ensures Reach(g, p[0], p[i]) && Reach(g, p[i], p[|p| - 1])
  {
    var pre := p[..i + 1];
    var suf := p[i..];
    assert IsPath(g, pre) by {
      forall j | 0 <= j < |pre| - 1 ensures pre[j + 1] in g[pre[j]].adj {
        assert pre[j] == p[j] && pre[j + 1] == p[j + 1];
      }
    }
    assert IsPath(g, suf) by {
      forall j | 0 <= j < |suf| - 1 ensures suf[j + 1] in g[suf[j]].adj {
        assert suf[j] == p[i + j] && suf[j + 1] == p[i + j + 1];
      }
    }
  }

  /** `h` is `g` with every edge turned around, on the same node set. */
  ghost predicate Reversed(h: Store, g: Store) {
    && h.Keys == g.Keys
    && forall a, b :: a in g && b in g ==> (b in h[a].adj <==> a in g[b].adj)
  }

  function Backwards(p: seq<int>): (r: seq<int>)
    ensures |r| == |p|
    ensures forall i :: 0 <= i < |p| ==> r[i] == p[|p| - 1 - i]
  {
    if |p| == 0 then [] else Backwards(p[1..]) + [p[0]]
  }

  /** Reachability in the reversed graph is reachability in the original, backwards. */
  lemma ReversedReach(h: Store, g: Store, a: int, b: int)
    requires Reversed(h, g)
    ensures Reach(h, a, b) <==> Reach(g, b, a)
  {
    if Reach(h, a, b) {
      var p :| IsPath(h, p) && p[0] == a && p[|p| - 1] == b;
      var q := Backwards(p);
      assert IsPath(g, q) by {
        forall i | 0 <= i < |q| - 1 ensures q[i + 1] in g[q[i]].adj {
          var j := |p| - 2 - i;
          assert q[i] == p[j + 1] && q[i + 1] == p[j];
        }
      }
    }
    if Reach(g, b, a) {
      var p :| IsPath(g, p) && p[0] == b && p[|p| - 1] == a;
      var q := Backwards(p);
      assert IsPath(h, q) by {
        forall i | 0 <= i < |q| - 1 ensures q[i + 1] in h[q[i]].adj {
          var j := |p| - 2 - i;
          assert q[i] == p[j + 1] && q[i + 1] == p[j];
        }
      }
    }
  }
}

=== FILE: results.dfy ===
/** Error kinds and the failure-compatible wrappers the graph operations return.
    The Java code signals every one of these by throwing (a GraphException or,
    where it dereferences a missing map entry, a NullPointerException); the model
    returns them as values instead. */
module Results {

  /** Why an operation refused to run. */
  datatype GraphError =
    | UnknownNode(node: int)
    | DuplicateNode(node: int)
    | DuplicateEdge(from: int, to: int)
    | MissingEdge(from: int, to: int)
    | NegativeCycle
    | InternalInvariant

  /** Either the value an operation computed or the error it signalled. */
  datatype Result<+T> = Ok(value: T) | Err(error: GraphError) {
    predicate IsFailure() {
      Err?
    }

    function PropagateFailure<U>(): Result<U>
      requires Err?
    {
      Err(error)
    }

    function Extract(): T
      requires Ok?
    {
      value
    }
  }

  /** Java's nullable Integer (a predecessor, an optional stop node). */
  datatype Option<+T> = None | Some(value: T)
}

=== FILE: samples.dfy ===
/** The five-node graph WeightedGraphTests builds before every test, and what five of its
    tests expect of it: Dijkstra's distances, Bellman-Ford's distances after a weight turns
    negative, isDAG before and after an edge 3 -> 1, negative-cycle detection, and the
    degrees after node 4 is removed.

    A potential that no edge can improve bounds the weight of every walk from below; that
    one fact pins each expected value down. */
module Samples {
  import opened Results
  import opened Nodes
  import opened Paths
  import opened Directed
  import opened WeightedPaths
  import opened Weighted
  import opened Dijkstra
  import opened BellmanFord
  import opened TopoSort
  import opened PathQueries
  import Undirected

  /** The weights of the test graph: 0 -> 4 (1), 0 -> 1 (3), 1 -> 2 (1), 1 -> 3 (3),
      1 -> 4 (1), 4 -> 2 (2), 4 -> 3 (1). */
  const SampleWeights: Weights :=
    map[(0, 4) := 1, (0, 1) := 3, (1, 2) := 1, (1, 3) := 3, (1, 4) := 1, (4, 2) := 2, (4, 3) := 1]

  /** setup(): five addNode calls and seven connectFromTo calls, each of which succeeds. */
  method Sample() returns (wg: WGraph)
    ensures WValid(wg) && wg.nodes.Keys == {0, 1, 2, 3, 4} && wg.weights == SampleWeights
  {
    var g := AddAllNodes({0, 1, 2, 3, 4});
    wg := WGraph(g, map[]);
    wg := OutOfZero(wg);
    wg := OutOfOne(wg);
    wg := OutOfFour(wg);
  }

  /** connectFromTo(0, 4, 1) and connectFromTo(0, 1, 3). */
  method OutOfZero(wg: WGraph) returns (r: WGraph)
    requires WValid(wg) && wg.nodes.Keys == {0, 1, 2, 3, 4} && wg.weights == map[]
    ensures WValid(r) && r.nodes.Keys == {0, 1, 2, 3, 4} && r.weights == map[(0, 4) := 1, (0, 1) := 3]
  {
    r := Join(wg, 0, 4, 1);
    r := Join(r, 0, 1, 3);
  }

  /** connectFromTo(1, 2, 1), connectFromTo(1, 3, 3) and connectFromTo(1, 4, 1). */
  method OutOfOne(wg: WGraph) returns (r: WGraph)
    requires WValid(wg) && wg.nodes.Keys == {0, 1, 2, 3, 4} && wg.weights == map[(0, 4) := 1, (0, 1) := 3]
    ensures WValid(r) && r.nodes.Keys == {0, 1, 2, 3, 4}
    ensures r.weights == map[(0, 4) := 1, (0, 1) := 3, (1, 2) := 1, (1, 3) := 3, (1, 4) := 1]
  {
    r := Join(wg, 1, 2, 1);
    r := Join(r, 1, 3, 3);
    r := Join(r, 1, 4, 1);
  }

  /** connectFromTo(4, 2, 2) and connectFromTo(4, 3, 1). */
  method OutOfFour(wg: WGraph) returns (r: WGraph)
    requires WValid(wg) && wg.nodes.Keys == {0, 1, 2, 3, 4}
    requires wg.weights == map[(0, 4) := 1, (0, 1) := 3, (1, 2) := 1, (1, 3) := 3, (1, 4) := 1]
    ensures WValid(r) && r.nodes.Keys == {0, 1, 2, 3, 4} && r.weights == SampleWeights
  {
    r := Join(wg, 4, 2, 2);
    r := Join(r, 4, 3, 1);
  }

  /** connectFromTo(a, b, x) on two stored nodes not yet joined. */
  method Join(wg: WGraph, a: int, b: int, x: int) returns (r: WGraph)
    requires WValid(wg) && a in wg.nodes && b in wg.nodes && (a, b) !in wg.weights
    ensures WValid(r) && r.nodes.Keys == wg.nodes.Keys && r.weights == wg.weights[(a, b) := x]
  {
    r := Connect(wg, a, b, x).value;
  }

  // ----- potentials -----

  /** Such a potential rules out a negative cycle. */
  lemma TightNoNegCycle(g: Store, w: Weights, d: map<int, int>)
    requires Tight(w, d) && w.Keys == Edges(g) && g.Keys <= d.Keys
    ensures !NegCycle(g, w)
  {
    forall c | IsPath(g, c) && |c| >= 2 && c[0] == c[|c| - 1] ensures PathWeight(w, c) >= 0 {
      TightWalk(g, w, d, c);
    }
  }

  /** A potential no edge can improve, kept within [-10, 10], keeps every offer from 0 far
      above MINUS_INFINITY: no walk can make the sentinel the least offer. */
  lemma NoSentinel(g: Store, w: Weights, d: map<int, int>)
    requires Tight(w, d) && w.Keys == Edges(g) && g.Keys <= d.Keys
    requires forall u :: u in d ==> -10 <= d[u] <= 10
    ensures !exists v :: v in g && Cheapest(g, w, 0, v, MINUS_INFINITY)
  {
    forall p | IsPath(g, p) ensures Cost(w, 0, p) > MINUS_INFINITY {
      var a, z := p[0], p[|p| - 1];
      assert a in d && z in d;
      assert -10 <= d[a] <= 10 && -10 <= d[z] <= 10;
      TightWalk(g, w, d, p);
      assert PathWeight(w, p) >= -20;
      assert Start(0, a) >= 0;
    }
  }

  /** A certificate that `d[v]` is the distance from `s` to `v`: `d` is a potential no edge
      can improve, 0 at `s` and never above INFINITY, and `p` is a walk from `s` to `v` whose
      weight is `d[v]`, below INFINITY. */
  ghost predicate Certified(g: Store, w: Weights, d: map<int, int>, s: int, v: int, p: seq<int>) {
    && Tight(w, d) && w.Keys == Edges(g) && g.Keys <= d.Keys && s in d && d[s] == 0
    && (forall u :: u in d ==> d[u] <= INFINITY)
    && IsPath(g, p) && p[0] == s && p[|p| - 1] == v && PathWeight(w, p) == d[v] && d[v] < INFINITY
  }

  /** A certified value is Dijkstra's capped shortest distance. */
  lemma CappedIs(g: Store, w: Weights, d: map<int, int>, s: int, v: int, p: seq<int>, x: int)
    requires Certified(g, w, d, s, v, p) && ShortestCapped(g, w, None, s, v, x)
    ensures x == d[v]
  {
    Unstopped(g, p);
    var q :| StopPath(g, None, q, s, v) && PathWeight(w, q) == x;
    TightWalk(g, w, d, q);
  }

  /** A certified value is Bellman-Ford's least offer. */
  lemma CheapestIs(g: Store, w: Weights, d: map<int, int>, s: int, v: int, p: seq<int>, x: int)
    requires Certified(g, w, d, s, v, p) && Cheapest(g, w, s, v, x)
    ensures x == d[v]
  {
    assert Cost(w, s, p) == d[v];
    var q :| IsPath(g, q) && q[|q| - 1] == v && Cost(w, s, q) == x;
    TightWalk(g, w, d, q);
  }

  /** The store built by setup(). */
  ghost predicate SampleStore(g: Store) {
    Closed(g) && g.Keys == {0, 1, 2, 3, 4} && Edges(g) == SampleWeights.Keys
  }

  // ----- checkDijkstras -----

  /** Distances from 0 in the test graph. */
  const FromZero: map<int, int> := map[0 := 0, 1 := 3, 2 := 3, 3 := 2, 4 := 1]

  lemma FromZeroTight()
    ensures Tight(SampleWeights, FromZero)
  {
  }

  lemma SampleNonNegative()
    ensures NonNegative(SampleWeights)
  {
  }

  /** A walk given by its steps is a walk of a graph whose edges include them. */
  lemma StepsWalk(g: Store, p: seq<int>)
    requires Closed(g) && |p| >= 1 && p[0] in g
    requires forall i :: 0 <= i < |p| - 1 ==> (p[i], p[i + 1]) in Edges(g)
    ensures IsPath(g, p)
  {
    forall i | 0 <= i < |p| - 1 ensures p[i] in g && p[i + 1] in g[p[i]].adj {
      var a, b := p[i], p[i + 1];
      assert (a, b) in Edges(g);
    }
    forall i | 0 < i < |p| ensures p[i] in g {
      var a, b := p[i - 1], p[i];
      assert b in g[a].adj;
    }
  }

  /** A walk with no stop node is a StopPath between its ends. */
  lemma Unstopped(g: Store, p: seq<int>)
    requires IsPath(g, p)
    ensures StopPath(g, None, p, p[0], p[|p| - 1])
  {
  }

  /** The potentials cover the nodes of the test graph. */
  lemma PotentialKeys()
    ensures FromZero.Keys == {0, 1, 2, 3, 4}
    ensures MinusTwo.Keys == {0, 1, 2, 3, 4} && MinusOne.Keys == {0, 1, 2, 3, 4}
    ensures WithFive.Keys == {0, 1, 2, 3, 4, 5}
  {
    FiveKeys(FromZero);
    FiveKeys(MinusTwo);
    FiveKeys(MinusOne);
    forall k ensures k in WithFive.Keys <==> k in {0, 1, 2, 3, 4, 5} {
    }
  }

  lemma FiveKeys(d: map<int, int>)
    requires 0 in d && 1 in d && 2 in d && 3 in d && 4 in d
    requires forall k :: k in d ==> 0 <= k <= 4
    ensures d.Keys == {0, 1, 2, 3, 4}
  {
    forall k ensures k in d.Keys <==> k in {0, 1, 2, 3, 4} {
    }
  }

  /** The weight of a two-step walk. */
  lemma TwoSteps(w: Weights, a: int, b: int, c: int)
    ensures PathWeight(w, [a, b, c]) == EdgeWeight(w, a, b) + EdgeWeight(w, b, c)
  {
    assert [a, b, c][1..] == [b, c];
    assert [b, c][1..] == [c];
    assert PathWeight(w, [c]) == 0;
    assert PathWeight(w, [b, c]) == EdgeWeight(w, b, c);
  }

  /** Changing the weight of a present edge keeps the table's keys. */
  lemma UpdateKeys(w: Weights, e: (int, int), x: int)
    requires e in w
    ensures w[e := x].Keys == w.Keys
  {
  }

  /** The shortest walk from 0 to 2 is 0 -> 4 -> 2, of weight 3. */
  lemma ZeroToTwo(g: Store, x: int)
    requires SampleStore(g) && ShortestCapped(g, SampleWeights, None, 0, 2, x)
    ensures x == 3
  {
    ZeroTwoCertified(g);
    CappedIs(g, SampleWeights, FromZero, 0, 2, [0, 4, 2], x);
  }

  /** The shortest walk from 0 to 3 is 0 -> 4 -> 3, of weight 2. */
  lemma ZeroToThree(g: Store, x: int)
    requires SampleStore(g) && ShortestCapped(g, SampleWeights, None, 0, 3, x)
    ensures x == 2
  {
    ZeroThreeCertified(g);
    CappedIs(g, SampleWeights, FromZero, 0, 3, [0, 4, 3], x);
  }

  lemma ZeroTwoCertified(g: Store)
    requires SampleStore(g)
    ensures Certified(g, SampleWeights, FromZero, 0, 2, [0, 4, 2])
  {
    FromZeroTight();
    FromZeroValues();
    SampleWalks(g);
    SampleWalkWeights();
  }

  lemma ZeroThreeCertified(g: Store)
    requires SampleStore(g)
    ensures Certified(g, SampleWeights, FromZero, 0, 3, [0, 4, 3])
  {
    FromZeroTight();
    FromZeroValues();
    SampleWalks(g);
    SampleWalkWeights();
  }

  lemma FromZeroValues()
    ensures FromZero.Keys == {0, 1, 2, 3, 4} && (forall u :: u in FromZero ==> FromZero[u] <= INFINITY)
    ensures FromZero[0] == 0 && FromZero[2] == 3 && FromZero[3] == 2 && 3 < INFINITY
  {
    PotentialKeys();
    Bounded();
  }

  /** The walks the expected answers follow. */
  lemma SampleWalks(g: Store)
    requires SampleStore(g)
    ensures IsPath(g, [0, 4, 2]) && IsPath(g, [0, 4, 3]) && IsPath(g, [0, 1, 3])
  {
    StepsWalk(g, [0, 4, 2]);
    StepsWalk(g, [0, 4, 3]);
    StepsWalk(g, [0, 1, 3]);
  }

  lemma SampleWalkWeights()
    ensures PathWeight(SampleWeights, [0, 4, 2]) == 3 && PathWeight(SampleWeights, [0, 4, 3]) == 2
    ensures PathWeight(SampleWeights[(1, 3) := -2], [0, 1, 3]) == 1
    ensures PathWeight(SampleWeights[(1, 3) := -1], [0, 4, 3]) == 2
  {
    TwoSteps(SampleWeights, 0, 4, 2);
    TwoSteps(SampleWeights, 0, 4, 3);
    TwoSteps(SampleWeights[(1, 3) := -2], 0, 1, 3);
    TwoSteps(SampleWeights[(1, 3) := -1], 0, 4, 3);
  }

  /** The shortest path from 0 weighs 3 to node 2 and 2 to node 3; all weights are
      non-negative, so both queries run Dijkstra. */
  method CheckDijkstras() returns (to2: Result<int>, to3: Result<int>)
    ensures to2 == Ok(3) && to3 == Ok(2)
  {
    var wg := Sample();
    SampleNonNegative();
    to2 := WeightOfShortestPathFromTo(wg, 0, 2);
    ZeroToTwo(wg.nodes, to2.value);
    to3 := WeightOfShortestPathFromTo(wg, 0, 3);
    ZeroToThree(wg.nodes, to3.value);
  }

  // ----- checkBellmanFord -----

  /** Distances from 0 once 1 -> 3 weighs -2, and once it weighs -1. */
  const MinusTwo: map<int, int> := map[0 := 0, 1 := 3, 2 := 3, 3 := 1, 4 := 1]
  const MinusOne: map<int, int> := map[0 := 0, 1 := 3, 2 := 3, 3 := 2, 4 := 1]

  lemma MinusTight()
    ensures Tight(SampleWeights[(1, 3) := -2], MinusTwo)
    ensures Tight(SampleWeights[(1, 3) := -1], MinusOne)
  {
  }

  /** With 1 -> 3 at -2 the least offer to 3 from 0 is 1, along 0 -> 1 -> 3. */
  lemma MinusTwoAnswer(g: Store, x: int)
    requires SampleStore(g) && Cheapest(g, SampleWeights[(1, 3) := -2], 0, 3, x)
    ensures x == 1
  {
    MinusTwoCertified(g);
    CheapestIs(g, SampleWeights[(1, 3) := -2], MinusTwo, 0, 3, [0, 1, 3], x);
  }

  /** With 1 -> 3 at -1 the least offer to 3 from 0 is 2, along 0 -> 4 -> 3. */
  lemma MinusOneAnswer(g: Store, x: int)
    requires SampleStore(g) && Cheapest(g, SampleWeights[(1, 3) := -1], 0, 3, x)
    ensures x == 2
  {
    MinusOneCertified(g);
    CheapestIs(g, SampleWeights[(1, 3) := -1], MinusOne, 0, 3, [0, 4, 3], x);
  }

  lemma MinusTwoCertified(g: Store)
    requires SampleStore(g)
    ensures Certified(g, SampleWeights[(1, 3) := -2], MinusTwo, 0, 3, [0, 1, 3])
  {
    MinusTight();
    MinusValues();
    SampleWalks(g);
    SampleWalkWeights();
    UpdateKeys(SampleWeights, (1, 3), -2);
  }

  lemma MinusOneCertified(g: Store)
    requires SampleStore(g)
    ensures Certified(g, SampleWeights[(1, 3) := -1], MinusOne, 0, 3, [0, 4, 3])
  {
    MinusTight();
    MinusValues();
    SampleWalks(g);
    SampleWalkWeights();
    UpdateKeys(SampleWeights, (1, 3), -1);
  }

  lemma MinusValues()
    ensures MinusTwo.Keys == {0, 1, 2, 3, 4} && (forall u :: u in MinusTwo ==> MinusTwo[u] <= INFINITY)
    ensures MinusOne.Keys == {0, 1, 2, 3, 4} && (forall u :: u in MinusOne ==> MinusOne[u] <= INFINITY)
    ensures MinusTwo[0] == 0 && MinusTwo[3] == 1 && MinusOne[0] == 0 && MinusOne[3] == 2 && 2 < INFINITY
  {
    PotentialKeys();
    Bounded();
  }

  /** No potential of the test graph exceeds INFINITY. */
  lemma Bounded()
    ensures forall u :: u in FromZero ==> FromZero[u] <= INFINITY
    ensures forall u :: u in MinusTwo ==> MinusTwo[u] <= INFINITY
    ensures forall u :: u in MinusOne ==> MinusOne[u] <= INFINITY
  {
  }

  /** Neither reweighted table has a negative cycle, and both have a negative weight. */
  lemma MinusFacts(g: Store)
    requires g.Keys == {0, 1, 2, 3, 4} && Edges(g) == SampleWeights.Keys
    ensures !NegCycle(g, SampleWeights[(1, 3) := -2]) && !NonNegative(SampleWeights[(1, 3) := -2])
    ensures !NegCycle(g, SampleWeights[(1, 3) := -1]) && !NonNegative(SampleWeights[(1, 3) := -1])
  {
    MinusTight();
    PotentialKeys();
    UpdateKeys(SampleWeights, (1, 3), -2);
    UpdateKeys(SampleWeights, (1, 3), -1);
    TightNoNegCycle(g, SampleWeights[(1, 3) := -2], MinusTwo);
    TightNoNegCycle(g, SampleWeights[(1, 3) := -1], MinusOne);
    assert SampleWeights[(1, 3) := -2][(1, 3)] < 0;
    assert SampleWeights[(1, 3) := -1][(1, 3)] < 0;
  }

  /** setWeight(1, 3, -2) makes the answer from 0 to 3 equal 1; setWeight(1, 3, -1) makes it
      2. Both go through Bellman-Ford, since a weight is negative. */
  method CheckBellmanFord() returns (first: Result<int>, second: Result<int>)
    ensures first == Ok(1) && second == Ok(2)
  {
    var wg := Sample();
    MinusFacts(wg.nodes);
    var wg1 := Reweigh(wg, 1, 3, -2);
    first := WeightOfShortestPathFromTo(wg1, 0, 3);
    MinusTwoAnswer(wg.nodes, first.value);
    var wg2 := Reweigh(wg1, 1, 3, -1);
    UpdateTwice(SampleWeights, (1, 3), -2, -1);
    second := WeightOfShortestPathFromTo(wg2, 0, 3);
    MinusOneAnswer(wg.nodes, second.value);
  }

  // ----- removeAndRestoreNode -----

  /** Node 4 has edges from 0 and 1 and to 2 and 3. */
  lemma FourEdges(wg: WGraph)
    requires WValid(wg) && wg.weights == SampleWeights
    ensures (0, 4) in Edges(wg.nodes) && (1, 4) in Edges(wg.nodes)
    ensures (4, 2) in Edges(wg.nodes) && (4, 3) in Edges(wg.nodes)
  {
  }

  /** removeNode(4) lowers the in-degrees of 2 and 3 and the out-degrees of 0 and 1 by one
      each. */
  method RemoveFour() returns (in2: int, in3: int, out0: int, out1: int,
                               in2': int, in3': int, out0': int, out1': int)
    ensures in2' == in2 - 1 && in3' == in3 - 1 && out0' == out0 - 1 && out1' == out1 - 1
  {
    var wg := Sample();
    FourEdges(wg);
    in2, in3 := wg.nodes[2].inDegree, wg.nodes[3].inDegree;
    out0, out1 := wg.nodes[0].outDegree, wg.nodes[1].outDegree;
    var r := Weighted.RemoveNode(wg, 4);
    var g := r.value.nodes;
    in2', in3' := g[2].inDegree, g[3].inDegree;
    out0', out1' := g[0].outDegree, g[1].outDegree;
  }

  // ----- dagRecognized -----

  /** Ranking 0, 1, 4, 2, 3 puts every edge of the test graph forward. */
  lemma SampleAcyclic(g: Store)
    requires Edges(g) == SampleWeights.Keys
    ensures !HasCycle(g)
  {
    RankedAcyclic(g, map[0 := 0, 1 := 1, 4 := 2, 2 := 3, 3 := 4]);
  }

  /** Edges both ways between 1 and 3 make a cycle. */
  lemma BackEdgeCycle(g: Store)
    requires Closed(g) && 1 in g && (1, 3) in Edges(g) && (3, 1) in Edges(g)
    ensures HasCycle(g)
  {
    StepsWalk(g, [1, 3, 1]);
  }

  /** The test graph is a DAG; the extra edge 3 -> 1 closes the cycle 1 -> 3 -> 1. */
  method DagRecognized() returns (before: bool, after: bool)
    ensures before && !after
  {
    var wg := Sample();
    SampleAcyclic(wg.nodes);
    before := IsDAG(wg.nodes);
    var wg' := Join(wg, 3, 1, 0);
    BackEdgeCycle(wg'.nodes);
    after := IsDAG(wg'.nodes);
  }

  // ----- detectNegCycle -----

  /** A potential for the test graph with node 5, 3 -> 5 (-1) and 5 -> 4 (1). */
  const WithFive: map<int, int> := map[0 := 0, 1 := 0, 2 := 0, 3 := 0, 4 := 0, 5 := -1]

  lemma WithFiveTight()
    ensures Tight(SampleWeights[(3, 5) := -1][(5, 4) := 1], WithFive)
  {
  }

  /** The cycle 4 -> 3 -> 5 -> 4 weighs -1 once 3 -> 5 and 5 -> 4 both weigh -1. */
  lemma FiveCycle(g: Store, w: Weights)
    requires Closed(g) && 4 in g && w == SampleWeights[(3, 5) := -1][(5, 4) := -1]
    requires (4, 3) in Edges(g) && (3, 5) in Edges(g) && (5, 4) in Edges(g)
    ensures NegCycle(g, w)
  {
    StepsWalk(g, [4, 3, 5, 4]);
    assert PathWeight(w, [4, 3, 5, 4]) == -1;
  }

  /** addNode(5), connectFromTo(3, 5, -1), connectFromTo(5, 4, -1). */
  method AddFive(wg: WGraph) returns (r: WGraph)
    requires WValid(wg) && 3 in wg.nodes && 4 in wg.nodes && 5 !in wg.nodes
    ensures WValid(r) && r.nodes.Keys == wg.nodes.Keys + {5}
    ensures r.weights == wg.weights[(3, 5) := -1][(5, 4) := -1]
  {
    var g5 := AddNode(wg.nodes, 5).value;
    r := WGraph(g5, wg.weights);
    assert (3, 5) !in r.weights && (5, 4) !in r.weights;
    r := Join(r, 3, 5, -1);
    r := Join(r, 5, 4, -1);
  }

  /** setWeight on an edge the table holds. */
  method Reweigh(wg: WGraph, a: int, b: int, x: int) returns (r: WGraph)
    requires WValid(wg) && a in wg.nodes && b in wg.nodes && (a, b) in wg.weights
    ensures WValid(r) && r.nodes == wg.nodes && r.weights == wg.weights[(a, b) := x]
  {
    r := SetWeight(wg, a, b, x).value;
    SameTable(wg.weights, r.weights, a, b, x);
  }

  /** Setting a key twice keeps only the second value. */
  lemma UpdateTwice(w: Weights, e: (int, int), x: int, y: int)
    ensures w[e := x][e := y] == w[e := y]
  {
  }

  lemma SameTable(w: Weights, w': Weights, a: int, b: int, x: int)
    requires (a, b) in w && w'.Keys == w.Keys && w'[(a, b)] == x
    requires forall e :: e in w && e != (a, b) ==> w'[e] == w[e]
    ensures w' == w[(a, b) := x]
  {
  }

  /** The test graph has no negative cycle, and no least offer from 0 is the sentinel. */
  lemma SampleNoNegCycle(g: Store, w: Weights)
    requires g.Keys == {0, 1, 2, 3, 4} && w == SampleWeights && Edges(g) == w.Keys
    ensures !NegCycle(g, w)
    ensures !exists v :: v in g && Cheapest(g, w, 0, v, MINUS_INFINITY)
  {
    FromZeroTight();
    FromZeroValues();
    FromZeroNarrow();
    TightNoNegCycle(g, w, FromZero);
    NoSentinel(g, w, FromZero);
  }

  /** With 5 -> 4 raised to 1 the cycle through node 5 weighs 1, and no least offer from 0
      is the sentinel. */
  lemma RaisedNoNegCycle(g: Store, w: Weights)
    requires g.Keys == {0, 1, 2, 3, 4, 5} && w == SampleWeights[(3, 5) := -1][(5, 4) := -1][(5, 4) := 1]
    requires Edges(g) == w.Keys
    ensures !NegCycle(g, w)
    ensures !exists v :: v in g && Cheapest(g, w, 0, v, MINUS_INFINITY)
  {
    UpdateTwice(SampleWeights[(3, 5) := -1], (5, 4), -1, 1);
    WithFiveTight();
    PotentialKeys();
    FiveNarrow();
    TightNoNegCycle(g, w, WithFive);
    NoSentinel(g, w, WithFive);
  }

  lemma FromZeroNarrow()
    ensures forall u :: u in FromZero ==> -10 <= FromZero[u] <= 10
  {
  }

  lemma FiveNarrow()
    ensures forall u :: u in WithFive ==> -10 <= WithFive[u] <= 10
  {
  }

  /** Node 5's edges as Java adds them close a negative cycle. */
  lemma LoweredNegCycle(g: Store, w: Weights)
    requires Closed(g) && g.Keys == {0, 1, 2, 3, 4, 5} && w == SampleWeights[(3, 5) := -1][(5, 4) := -1]
    requires Edges(g) == w.Keys
    ensures NegCycle(g, w)
  {
    FiveCycle(g, w);
  }

  /** hasNegativeCycle() on a graph with neither a negative cycle nor a least offer equal
      to the sentinel answers false. */
  method QuietQuery(wg: WGraph) returns (b: bool)
    requires Closed(wg.nodes) && wg.weights.Keys == Edges(wg.nodes) && !NegCycle(wg.nodes, wg.weights)
    requires !exists v :: v in wg.nodes && Cheapest(wg.nodes, wg.weights, 0, v, MINUS_INFINITY)
    ensures !b
  {
    b := HasNegativeCycleAsWritten(wg, 0);
  }

  /** The first query, on the test graph. */
  method FirstQuery(wg: WGraph) returns (b: bool)
    requires WValid(wg) && wg.nodes.Keys == {0, 1, 2, 3, 4} && wg.weights == SampleWeights
    ensures !b
  {
    SampleNoNegCycle(wg.nodes, wg.weights);
    b := QuietQuery(wg);
  }

  /** The third query, once 5 -> 4 weighs 1. */
  method ThirdQuery(wg: WGraph) returns (b: bool)
    requires WValid(wg) && wg.nodes.Keys == {0, 1, 2, 3, 4, 5}
    requires wg.weights == SampleWeights[(3, 5) := -1][(5, 4) := -1][(5, 4) := 1]
    ensures !b
  {
    RaisedNoNegCycle(wg.nodes, wg.weights);
    b := QuietQuery(wg);
  }

  /** hasNegativeCycle() as the Java code has it, which compares every estimate with
      MINUS_INFINITY: no negative cycle at first; node 5 with 3 -> 5 (-1) and 5 -> 4 (-1)
      closes the cycle 4 -> 3 -> 5 -> 4 of weight -1; raising 5 -> 4 to 1 removes it again.
      The Java code draws its source at random; here it is 0. */
  method DetectNegCycle() returns (first: bool, second: bool, third: bool)
    ensures !first && second && !third
  {
    var wg := Sample();
    first := FirstQuery(wg);
    wg := AddFive(wg);
    LoweredNegCycle(wg.nodes, wg.weights);
    second := HasNegativeCycleAsWritten(wg, 0);
    wg := Reweigh(wg, 5, 4, 1);
    third := ThirdQuery(wg);
  }
}

=== FILE: scc.dfy ===
/** Kosaraju-Sharir strongly connected components (getStronglyConnectedComponents with
    directedDFS1 and directedDFS2): a depth-first search of the reversed graph pushes every
    node when it is left; popping that stack, each node not yet visited starts a depth-first
    search of the original graph, and the nodes it visits form one component. */
module Scc {
  import opened Seqs
  import opened Nodes
  import opened Paths
  import opened Directed

  /** `a` and `b` reach each other. */
  ghost predicate SameScc(h: Store, a: int, b: int) {
    Reach(h, a, b) && Reach(h, b, a)
  }

  /** The strongly connected component of `v`. */
  ghost function SccOf(g: Store, v: int): set<int> {
    set u | u in g.Keys && SameScc(g, v, u)
  }

  lemma SameSccTrans(h: Store, a: int, b: int, c: int)
    requires SameScc(h, a, b) && SameScc(h, b, c)
    ensures SameScc(h, a, c)
  {
    ReachTrans(h, a, b, c);
    ReachTrans(h, c, b, a);
  }

  lemma ReachEnds(h: Store, a: int, b: int)
    requires Reach(h, a, b)
    ensures a in h && b in h
  {
  }

  // ----- First pass: directedDFS1 on the reversed graph -----

  /** Some node pushed no earlier than `w` lies in the component of `y`. */
  ghost predicate Finished(h: Store, stack: seq<int>, y: int, w: int) {
    exists j :: 0 <= j < |stack| && SameScc(h, y, stack[j]) && w in stack[..j + 1]
  }

  /** A node still being searched lies in the component of `y` and reaches `w`. */
  ghost predicate Pending(h: Store, gray: seq<int>, y: int, w: int) {
    exists k :: 0 <= k < |gray| && SameScc(h, y, gray[k]) && Reach(h, gray[k], w)
  }

  /** The state of the first search. `done` is the stack of left nodes (bottom first),
      `gray` the chain of nodes whose search is under way (each a child of the one
      before), `visited` their union. No left node has an unvisited child, and whatever a
      left node reaches is either pushed no later than some member of its component or
      reachable from a member of its component that is still being searched. */
  ghost predicate Dfs1State(h: Store, visited: set<int>, done: seq<int>, gray: seq<int>) {
    && visited <= h.Keys
    && NoDup(done) && NoDup(gray) && Elems(done) !! Elems(gray)
    && Elems(done) + Elems(gray) == visited
    && (|gray| > 0 ==> IsPath(h, gray))
    && (forall b :: b in done ==> b in h && forall c :: c in h[b].adj ==> c in visited)
    && (forall y, w {:trigger Finished(h, done, y, w)} ::
          y in done && Reach(h, y, w) ==> Finished(h, done, y, w) || Pending(h, gray, y, w))
  }

  /** Following a path out of the left nodes, the first node not yet left is being searched. */
  lemma Escape(h: Store, visited: set<int>, black: set<int>, gray: seq<int>, x: int, w: int)
    requires black + Elems(gray) == visited
    requires forall b :: b in black ==> b in h && forall c :: c in h[b].adj ==> c in visited
    requires x in black && Reach(h, x, w)
    ensures w in black || exists k :: 0 <= k < |gray| && Reach(h, x, gray[k]) && Reach(h, gray[k], w)
  {
    var p :| IsPath(h, p) && p[0] == x && p[|p| - 1] == w;
    var k := 0;
    while k < |p| - 1 && p[k + 1] in black
      invariant 0 <= k < |p| && p[k] in black
    {
      k := k + 1;
    }
    if k < |p| - 1 {
      var a, b := p[k], p[k + 1];
      assert a in black && b in h[a].adj;
      assert b in visited;
      assert p[k + 1] in Elems(gray);
      var m :| 0 <= m < |gray| && gray[m] == p[k + 1];
      PathNodes(h, p, k + 1);
    }
  }

  /** A node of the search chain reaches the node at its top. */
  lemma GrayReachesTop(h: Store, gray: seq<int>, k: int)
    requires IsPath(h, gray) && 0 <= k < |gray|
    ensures Reach(h, gray[k], gray[|gray| - 1])
  {
    PathNodes(h, gray, k);
  }

  /** Finished facts survive further pushes. */
  lemma FinishedGrow(h: Store, done: seq<int>, x: int, y: int, w: int)
    requires Finished(h, done, y, w)
    ensures Finished(h, done + [x], y, w)
  {
    var j :| 0 <= j < |done| && SameScc(h, y, done[j]) && w in done[..j + 1];
    assert (done + [x])[j] == done[j] && (done + [x])[..j + 1] == done[..j + 1];
  }

  /** Starting the search of `x`: it joins the chain. */
  lemma DiscoverStep(h: Store, visited: set<int>, done: seq<int>, gray: seq<int>, x: int)
    requires Dfs1State(h, visited, done, gray) && x in h && x !in visited
    requires gray != [] ==> x in h[gray[|gray| - 1]].adj
    ensures Dfs1State(h, visited + {x}, done, gray + [x])
  {
    var gray' := gray + [x];
    assert Elems(gray') == Elems(gray) + {x};
    assert NoDup(gray') by {
      forall i, j | 0 <= i < j < |gray'| ensures gray'[i] != gray'[j] {
        if j < |gray| {
          assert gray'[i] == gray[i] && gray'[j] == gray[j];
        } else {
          assert gray'[i] in Elems(gray);
        }
      }
    }
    assert IsPath(h, gray') by {
      forall i | 0 <= i < |gray'| - 1 ensures gray'[i + 1] in h[gray'[i]].adj {
        if i < |gray| - 1 {
          assert gray'[i] == gray[i] && gray'[i + 1] == gray[i + 1];
        }
      }
    }
    forall y, w | y in done && Reach(h, y, w) && Pending(h, gray, y, w) ensures Pending(h, gray', y, w) {
      var k :| 0 <= k < |gray| && SameScc(h, y, gray[k]) && Reach(h, gray[k], w);
      assert gray'[k] == gray[k];
    }
  }

  /** Whatever `x` reaches, once it is left, is settled for every node of its component. */
  lemma LeaveX(h: Store, visited: set<int>, done: seq<int>, gray: seq<int>, x: int, y: int, w: int)
    requires IsPath(h, gray + [x])
    requires Elems(done + [x]) + Elems(gray) == visited
    requires forall b :: b in done + [x] ==> b in h && forall c :: c in h[b].adj ==> c in visited
    requires SameScc(h, y, x) && Reach(h, x, w)
    ensures Finished(h, done + [x], y, w) || Pending(h, gray, y, w)
  {
    var done' := done + [x];
    Escape(h, visited, Elems(done'), gray, x, w);
    if w in Elems(done') {
      var j := |done|;
      assert done'[j] == x && done'[..j + 1] == done';
    } else {
      var k :| 0 <= k < |gray| && Reach(h, x, gray[k]) && Reach(h, gray[k], w);
      GrayReachesTop(h, gray + [x], k);
      assert (gray + [x])[k] == gray[k];
      SameSccTrans(h, y, x, gray[k]);
    }
  }

  /** Leaving `x` (all of its children visited) pushes it and keeps the state. */
  lemma FinishStep(h: Store, visited: set<int>, done: seq<int>, gray: seq<int>, x: int)
    requires Dfs1State(h, visited, done, gray + [x]) && x in h
    requires forall c :: c in h[x].adj ==> c in visited
    ensures Dfs1State(h, visited, done + [x], gray)
  {
    var gray' := gray + [x];
    var done' := done + [x];
    assert gray'[|gray|] == x;
    assert x in Elems(gray') && x !in done;
    assert Elems(gray') == Elems(gray) + {x};
    assert Elems(done') == Elems(done) + {x};
    assert NoDup(done') by {
      forall i, j | 0 <= i < j < |done'| ensures done'[i] != done'[j] {
        if j < |done| {
          assert done'[i] == done[i] && done'[j] == done[j];
        } else {
          assert done'[i] in Elems(done);
        }
      }
    }
    assert NoDup(gray) by {
      forall i, j | 0 <= i < j < |gray| ensures gray[i] != gray[j] {
        assert gray'[i] == gray[i] && gray'[j] == gray[j];
      }
    }
    assert x !in Elems(gray) by {
      forall i | 0 <= i < |gray| ensures gray[i] != x {
        assert gray'[i] == gray[i];
      }
    }
    if |gray| > 0 {
      assert IsPath(h, gray) by {
        forall i | 0 <= i < |gray| - 1 ensures gray[i + 1] in h[gray[i]].adj {
          assert gray'[i] == gray[i] && gray'[i + 1] == gray[i + 1];
        }
      }
    }
    forall y, w | y in done' && Reach(h, y, w) ensures Finished(h, done', y, w) || Pending(h, gray, y, w) {
      if y == x {
        ReachEnds(h, y, w);
        ReachRefl(h, x);
        LeaveX(h, visited, done, gray, x, y, w);
      } else if Finished(h, done, y, w) {
        FinishedGrow(h, done, x, y, w);
      } else {
        var k :| 0 <= k < |gray'| && SameScc(h, y, gray'[k]) && Reach(h, gray'[k], w);
        if k < |gray| {
          assert gray'[k] == gray[k];
        } else {
          LeaveX(h, visited, done, gray, x, y, w);
        }
      }
    }
  }

  /** directedDFS1(x): mark `x`, search every unvisited child in list order, then push `x`. */
  method Dfs1(h: Store, x: int, visited: set<int>, done: seq<int>, ghost gray: seq<int>)
    returns (visited': set<int>, done': seq<int>)
    requires Closed(h) && Dfs1State(h, visited, done, gray) && x in h && x !in visited
    requires gray != [] ==> x in h[gray[|gray| - 1]].adj
    ensures Dfs1State(h, visited', done', gray)
    ensures visited <= visited' && x in visited'
    decreases h.Keys - visited
  {
    DiscoverStep(h, visited, done, gray, x);
    visited', done' := visited + {x}, done;
    var kids := h[x].adj;
    var i := 0;
    while i < |kids|
      invariant 0 <= i <= |kids|
      invariant Dfs1State(h, visited', done', gray + [x])
      invariant visited + {x} <= visited'
      invariant forall c :: c in kids[..i] ==> c in visited'
    {
      var next := kids[i];
      assert kids[..i + 1] == kids[..i] + [next];
      if next !in visited' {
        assert (gray + [x])[|gray|] == x;
        visited', done' := Dfs1(h, next, visited', done', gray + [x]);
      }
      i := i + 1;
    }
    assert kids[..i] == kids;
    FinishStep(h, visited', done', gray, x);
    done' := done' + [x];
  }

  /** The first loop of getStronglyConnectedComponents: directedDFS1 from every node not yet
      visited, in the map's iteration order. */
  method Dfs1All(h: Store) returns (done: seq<int>)
    requires Closed(h)
    ensures Dfs1State(h, h.Keys, done, [])
  {
    var visited: set<int> := {};
    done := [];
    var rest := h.Keys;
    while rest != {}
      invariant rest <= h.Keys && h.Keys - rest <= visited
      invariant Dfs1State(h, visited, done, [])
      decreases rest
    {
      ghost var w := Pick(rest);
      var u :| u in rest;
      if u !in visited {
        visited, done := Dfs1(h, u, visited, done, []);
      }
      rest := rest - {u};
    }
  }

  // ----- Second pass: directedDFS2 on the original graph, in stack order -----

  /** The stack order Kosaraju's second pass relies on: whatever `v` reaches in `g` lies in
      the component of a node popped no later than `v`. */
  ghost predicate KosarajuOrder(g: Store, stack: seq<int>) {
    && NoDup(stack)
    && Elems(stack) == g.Keys
    && forall v, w {:trigger Finished(g, stack, w, v)} :: Reach(g, v, w) ==> Finished(g, stack, w, v)
  }

  lemma SameSccReversed(h: Store, g: Store, a: int, b: int)
    requires Reversed(h, g)
    ensures SameScc(h, a, b) <==> SameScc(g, a, b)
  {
    ReversedReach(h, g, a, b);
    ReversedReach(h, g, b, a);
  }

  /** The completed first search of the reversed graph yields a Kosaraju order for `g`. */
  lemma Dfs1Order(g: Store, h: Store, stack: seq<int>)
    requires Reversed(h, g) && Dfs1State(h, h.Keys, stack, [])
    ensures KosarajuOrder(g, stack)
  {
    forall v, w | Reach(g, v, w) ensures Finished(g, stack, w, v) {
      ReversedReach(h, g, w, v);
      ReachEnds(g, v, w);
      assert w in Elems(stack);
      assert Finished(h, stack, w, v);
      var j :| 0 <= j < |stack| && SameScc(h, w, stack[j]) && v in stack[..j + 1];
      SameSccReversed(h, g, w, stack[j]);
    }
  }

  /** The nodes whose component holds a node at position `n` or above. */
  ghost function Covered(g: Store, stack: seq<int>, n: int): set<int>
    requires 0 <= n <= |stack|
  {
    set u | u in g.Keys && exists j :: n <= j < |stack| && SameScc(g, u, stack[j])
  }

  /** The covered nodes have all their children covered. */
  lemma CoveredClosed(g: Store, stack: seq<int>, n: int, a: int, b: int)
    requires KosarajuOrder(g, stack) && Closed(g) && 0 <= n <= |stack|
    requires a in Covered(g, stack, n) && b in g[a].adj
    ensures b in Covered(g, stack, n)
  {
    var j :| n <= j < |stack| && SameScc(g, a, stack[j]);
    ReachEdge(g, a, b);
    ReachTrans(g, stack[j], a, b);
    assert Finished(g, stack, b, stack[j]);
    var j' :| 0 <= j' < |stack| && SameScc(g, b, stack[j']) && stack[j] in stack[..j' + 1];
    var i :| 0 <= i < j' + 1 && stack[..j' + 1][i] == stack[j];
    assert stack[i] == stack[j];
  }

  /** A component meets the covered nodes only if it lies among them. */
  lemma SccOutsideCovered(g: Store, stack: seq<int>, n: int, v: int)
    requires 0 <= n <= |stack| && v in g
    ensures v !in Covered(g, stack, n) ==> SccOf(g, v) !! Covered(g, stack, n)
  {
    forall u | u in SccOf(g, v) && u in Covered(g, stack, n) ensures v in Covered(g, stack, n) {
      var j :| n <= j < |stack| && SameScc(g, u, stack[j]);
      SameSccTrans(g, v, u, stack[j]);
    }
  }

  /** Popping `v`, not yet covered: its component is untouched, and every child of a node
      in its component is in the component or already covered. */
  lemma PopFresh(g: Store, stack: seq<int>, n: int)
    requires KosarajuOrder(g, stack) && Closed(g) && 0 < n <= |stack|
    requires stack[n - 1] !in Covered(g, stack, n)
    ensures SccOf(g, stack[n - 1]) !! Covered(g, stack, n)
    ensures forall a, b :: a in SccOf(g, stack[n - 1]) && b in g[a].adj ==>
      b in SccOf(g, stack[n - 1]) || b in Covered(g, stack, n)
    ensures Covered(g, stack, n - 1) == Covered(g, stack, n) + SccOf(g, stack[n - 1])
  {
    var v := stack[n - 1];
    SccOutsideCovered(g, stack, n, v);
    forall a, b | a in SccOf(g, v) && b in g[a].adj ensures b in SccOf(g, v) || b in Covered(g, stack, n) {
      ReachEdge(g, a, b);
      ReachTrans(g, v, a, b);
      assert Finished(g, stack, b, v);
      var j' :| 0 <= j' < |stack| && SameScc(g, b, stack[j']) && v in stack[..j' + 1];
      var i :| 0 <= i < j' + 1 && stack[..j' + 1][i] == v;
      assert stack[i] == stack[n - 1];
      if j' == n - 1 {
        assert SameScc(g, v, b);
      }
    }
    forall u | u in Covered(g, stack, n - 1) ensures u in Covered(g, stack, n) || u in SccOf(g, v) {
      var j :| n - 1 <= j < |stack| && SameScc(g, u, stack[j]);
      if j == n - 1 {
        assert SameScc(g, v, u);
      }
    }
    forall u | u in SccOf(g, v) ensures u in Covered(g, stack, n - 1) {
      assert SameScc(g, u, stack[n - 1]);
    }
  }

  /** Popping `v`, already covered: nothing changes. */
  lemma PopCovered(g: Store, stack: seq<int>, n: int)
    requires 0 < n <= |stack| && stack[n - 1] in Covered(g, stack, n)
    ensures Covered(g, stack, n - 1) == Covered(g, stack, n)
  {
    var v := stack[n - 1];
    forall u | u in Covered(g, stack, n - 1) ensures u in Covered(g, stack, n) {
      var j :| n - 1 <= j < |stack| && SameScc(g, u, stack[j]);
      if j == n - 1 {
        var j' :| n <= j' < |stack| && SameScc(g, v, stack[j']);
        SameSccTrans(g, u, v, stack[j']);
      }
    }
  }

  /** directedDFS2(x): mark `x`, search every unvisited child in list order, then append `x`
      to the component. Every unvisited child of a node of `comp` is in `comp`. */
  method Dfs2(g: Store, x: int, visited: set<int>, soc: seq<int>, ghost comp: set<int>)
    returns (visited': set<int>, soc': seq<int>)
    requires Closed(g) && comp <= g.Keys && x in comp && x !in visited
    requires forall a, b :: a in comp && b in g[a].adj ==> b in comp || b in visited
    requires NoDup(soc) && Elems(soc) <= visited
    ensures visited <= visited' && x in visited' && visited' - visited <= comp
    ensures NoDup(soc') && Elems(soc') == Elems(soc) + (visited' - visited)
    ensures forall a, b :: a in visited' - visited && b in g[a].adj ==> b in visited'
    decreases g.Keys - visited
  {
    visited', soc' := visited + {x}, soc;
    var kids := g[x].adj;
    var i := 0;
    while i < |kids|
      invariant 0 <= i <= |kids|
      invariant visited + {x} <= visited' && visited' - visited <= comp
      invariant NoDup(soc') && Elems(soc') == Elems(soc) + (visited' - visited - {x})
      invariant forall a, b :: a in visited' - visited - {x} && b in g[a].adj ==> b in visited'
      invariant forall c :: c in kids[..i] ==> c in visited'
    {
      var next := kids[i];
      assert kids[..i + 1] == kids[..i] + [next];
      if next !in visited' {
        ghost var before := visited';
        visited', soc' := Dfs2(g, next, visited', soc', comp);
      }
      i := i + 1;
    }
    assert kids[..i] == kids;
    assert x !in soc';
    soc' := soc' + [x];
  }

  /** A set closed under children holds everything reachable from its members. */
  lemma ClosedReach(g: Store, s: set<int>, v: int, w: int)
    requires s <= g.Keys && forall a, b :: a in s && b in g[a].adj ==> b in s
    requires v in s && Reach(g, v, w)
    ensures w in s
  {
    var p :| IsPath(g, p) && p[0] == v && p[|p| - 1] == w;
    var k := 0;
    while k < |p| - 1
      invariant 0 <= k < |p| && p[k] in s
    {
      var a, b := p[k], p[k + 1];
      assert a in g && b in g[a].adj;
      k := k + 1;
    }
  }

  /** The components found so far: each is the component of a representative, they do not
      overlap, and together they are exactly the visited nodes. */
  ghost predicate Found(g: Store, visited: set<int>, ans: seq<seq<int>>, reps: seq<int>) {
    && |reps| == |ans|
    && (forall k :: 0 <= k < |ans| ==> reps[k] in g && NoDup(ans[k]) && Elems(ans[k]) == SccOf(g, reps[k]))
    && (forall k, k' :: 0 <= k < k' < |ans| ==> Elems(ans[k]) !! Elems(ans[k']))
    && (forall k, u :: 0 <= k < |ans| && u in ans[k] ==> u in visited)
    && (forall u {:trigger Listed(ans, u)} :: u in visited ==> Listed(ans, u))
  }

  /** `v` is in one of the lists. */
  ghost predicate Listed(ans: seq<seq<int>>, v: int) {
    exists k :: 0 <= k < |ans| && v in ans[k]
  }

  /** One pop of the second loop when `v` has not been visited: directedDFS2 collects its
      component. */
  method CollectComponent(g: Store, stack: seq<int>, n: int, visited: set<int>,
                          ans: seq<seq<int>>, ghost reps: seq<int>)
    returns (visited': set<int>, ans': seq<seq<int>>, ghost reps': seq<int>)
    requires KosarajuOrder(g, stack) && Closed(g) && 0 < n <= |stack|
    requires visited == Covered(g, stack, n) && stack[n - 1] !in visited
    requires Found(g, visited, ans, reps)
    ensures visited' == Covered(g, stack, n - 1) && Found(g, visited', ans', reps')
  {
    var v := stack[n - 1];
    assert v in Elems(stack);
    PopFresh(g, stack, n);
    ghost var comp := SccOf(g, v);
    ReachRefl(g, v);
    var soc;
    visited', soc := Dfs2(g, v, visited, [], comp);
    forall a, b | a in visited' && b in g[a].adj ensures b in visited' {
      if a in visited {
        CoveredClosed(g, stack, n, a, b);
      }
    }
    forall u | u in comp ensures u in visited' - visited {
      ClosedReach(g, visited', v, u);
    }
    assert Elems(soc) == comp;
    ans' := ans + [soc];
    reps' := reps + [v];
    FoundExtend(g, visited, visited', ans, reps, soc, v);
  }

  /** Appending a whole new component, and only it, to the visited nodes keeps `Found`. */
  lemma FoundExtend(g: Store, visited: set<int>, visited': set<int>, ans: seq<seq<int>>,
                    reps: seq<int>, soc: seq<int>, v: int)
    requires Found(g, visited, ans, reps) && v in g && NoDup(soc)
    requires Elems(soc) == SccOf(g, v) && visited' - visited == SccOf(g, v) && visited <= visited'
    ensures Found(g, visited', ans + [soc], reps + [v])
  {
    var ans' := ans + [soc];
    forall k | 0 <= k < |ans| ensures Elems(ans[k]) !! Elems(soc) {
      forall u | u in ans[k] ensures u !in Elems(soc) {
        assert u in visited;
      }
    }
    forall u | u in visited' ensures Listed(ans', u) {
      if u in visited {
        assert Listed(ans, u);
        var k :| 0 <= k < |ans| && u in ans[k];
        assert ans'[k] == ans[k];
      } else {
        assert u in ans'[|ans|];
      }
    }
    forall k, u | 0 <= k < |ans'| && u in ans'[k] ensures u in visited' {
      if k < |ans| {
        assert ans'[k] == ans[k];
      }
    }
  }

  /** The partition contract of getStronglyConnectedComponents. */
  ghost predicate IsSccPartition(g: Store, ans: seq<seq<int>>) {
    && (forall k :: 0 <= k < |ans| ==> ans[k] != [] && NoDup(ans[k]))
    && (forall k, v :: 0 <= k < |ans| && v in ans[k] ==> v in g)
    && (forall v {:trigger Listed(ans, v)} :: v in g ==> Listed(ans, v))
    && (forall k, k' :: 0 <= k < k' < |ans| ==> Elems(ans[k]) !! Elems(ans[k']))
    && (forall k, a, b :: 0 <= k < |ans| && a in ans[k] ==> (b in ans[k] <==> SameScc(g, a, b)))
  }

  /** Components found as representatives' components form the partition. */
  lemma FoundPartition(g: Store, ans: seq<seq<int>>, reps: seq<int>)
    requires Found(g, g.Keys, ans, reps)
    ensures IsSccPartition(g, ans)
  {
    forall k | 0 <= k < |ans| ensures ans[k] != [] {
      ReachRefl(g, reps[k]);
      assert reps[k] in Elems(ans[k]);
    }
    forall k, a, b | 0 <= k < |ans| && a in ans[k] ensures b in ans[k] <==> SameScc(g, a, b) {
      assert a in SccOf(g, reps[k]);
      if b in ans[k] {
        assert b in SccOf(g, reps[k]);
        SameSccTrans(g, a, reps[k], b);
      }
      if SameScc(g, a, b) {
        SameSccTrans(g, reps[k], a, b);
        ReachEnds(g, a, b);
        assert b in SccOf(g, reps[k]);
      }
    }
  }

  /** The second loop: pop the stack; each node not yet visited yields a component. */
  method Dfs2All(g: Store, stack: seq<int>) returns (ans: seq<seq<int>>)
    requires KosarajuOrder(g, stack) && Closed(g)
    ensures IsSccPartition(g, ans)
  {
    var visited: set<int> := {};
    ans := [];
    ghost var reps: seq<int> := [];
    var n := |stack|;
    while n > 0
      invariant 0 <= n <= |stack|
      invariant visited == Covered(g, stack, n)
      invariant Found(g, visited, ans, reps)
    {
      var v := stack[n - 1];
      if v !in visited {
        visited, ans, reps := CollectComponent(g, stack, n, visited, ans, reps);
      } else {
        PopCovered(g, stack, n);
      }
      n := n - 1;
    }
    forall u | u in g.Keys ensures u in Covered(g, stack, 0) {
      assert u in Elems(stack);
      var j :| 0 <= j < |stack| && stack[j] == u;
      ReachRefl(g, u);
    }
    FoundPartition(g, ans, reps);
  }

  /** getStronglyConnectedComponents: the lists partition the nodes, and two nodes share a
      list exactly when each reaches the other. */
  method StronglyConnectedComponents(g: Store) returns (ans: seq<seq<int>>)
    requires DValid(g)
    ensures IsSccPartition(g, ans)
  {
    var h := GetReverse(g);
    var stack := Dfs1All(h);
    Dfs1Order(g, h, stack);
    ans := Dfs2All(g, stack);
  }
}

=== FILE: seqs.dfy ===
/** Facts about sequences used as adjacency lists, queues and orders. */
module Seqs {

  /** A non-empty set has an element (lets `:|` pick one). */
  lemma NonEmpty<T>(s: set<T>)
    requires s != {}
    ensures exists x :: x in s
  {
    if forall x :: x !in s {
      assert false;
    }
  }

  /** Some element of a non-empty set. */
  ghost function Pick<T>(s: set<T>): (x: T)
    requires s != {}
    ensures x in s
  {
    NonEmpty(s);
    var x :| x in s;
    x
  }

  /** Multiset union cancels. */
  lemma MultisetCancel<T>(a: multiset<T>, b: multiset<T>, c: multiset<T>)
    requires a + c == b + c
    ensures a == b
  {
    forall x ensures a[x] == b[x] {
      assert (a + c)[x] == (b + c)[x];
    }
  }

  /** Every element occurs at most once. */
  predicate NoDup<T(==)>(s: seq<T>) {
    forall i, j :: 0 <= i < j < |s| ==> s[i] != s[j]
  }

  /** The elements of `s`, as a set. */
  function Elems<T(==,!new)>(s: seq<T>): (r: set<T>)
    ensures forall x :: x in r <==> x in s
  {
    set x | x in s
  }

  /** `s` with its first occurrence of `x` removed; `s` itself when `x` does not occur
      (the behaviour of java.util.LinkedList.remove(Object)). */
  function RemoveFirst<T(==,!new)>(s: seq<T>, x: T): (r: seq<T>)
    ensures x in s ==> multiset(r) == multiset(s) - multiset{x} && |r| == |s| - 1
    ensures x !in s ==> r == s
  {
    if |s| == 0 then s
    else
      assert s == [s[0]] + s[1..];
      if s[0] == x then s[1..] else [s[0]] + RemoveFirst(s[1..], x)
  }

  /** `s` without any element of `xs`, order kept. */
  function Drop<T(==,!new)>(s: seq<T>, xs: set<T>): (r: seq<T>)
    ensures forall y :: y in r <==> y in s && y !in xs
    ensures |r| <= |s|
  {
    if |s| == 0 then []
    else (if s[0] in xs then [] else [s[0]]) + Drop(s[1..], xs)
  }

  /** Number of occurrences of `x` in `s`. */
  function Count<T(==,!new)>(s: seq<T>, x: T): nat {
    multiset(s)[x]
  }

  lemma {:induction false} DropNoDup<T(!new)>(s: seq<T>, xs: set<T>)
    requires NoDup(s)
    ensures NoDup(Drop(s, xs))
  {
    if |s| > 0 {
      DropNoDup(s[1..], xs);
      assert s[0] !in s[1..] by {
        forall i | 0 <= i < |s[1..]| ensures s[1..][i] != s[0] {
          assert s[1..][i] == s[i + 1];
        }
      }
    }
  }

  lemma {:induction false} DropNothing<T(!new)>(s: seq<T>, xs: set<T>)
    requires forall y :: y in s ==> y !in xs
    ensures Drop(s, xs) == s
  {
    if |s| > 0 {
      DropNothing(s[1..], xs);
      assert s == [s[0]] + s[1..];
    }
  }

  lemma {:induction false} DropDrop<T(!new)>(s: seq<T>, xs: set<T>, ys: set<T>)
    ensures Drop(Drop(s, xs), ys) == Drop(s, xs + ys)
  {
    if |s| > 0 {
      DropDrop(s[1..], xs, ys);
      var head := if s[0] in xs then [] else [s[0]];
      assert Drop(s, xs) == head + Drop(s[1..], xs);
      if s[0] in xs {
        assert Drop(s, xs) == Drop(s[1..], xs);
      } else {
        assert Drop(s, xs)[1..] == Drop(s[1..], xs);
      }
    }
  }

  lemma {:induction false} DropAll<T(!new)>(s: seq<T>, xs: set<T>)
    requires forall y :: y in s ==> y in xs
    ensures Drop(s, xs) == []
  {
    if |s| > 0 {
      DropAll(s[1..], xs);
    }
  }

  /** Removing the first occurrence from a duplicate-free list removes every occurrence. */
  lemma {:induction false} RemoveFirstIsDrop<T(!new)>(s: seq<T>, x: T)
    requires NoDup(s)
    ensures RemoveFirst(s, x) == Drop(s, {x})
  {
    if |s| > 0 {
      assert s[0] !in s[1..] by {
        forall i | 0 <= i < |s[1..]| ensures s[1..][i] != s[0] {
          assert s[1..][i] == s[i + 1];
        }
      }
      assert NoDup(s[1..]) by {
        forall i, j | 0 <= i < j < |s[1..]| ensures s[1..][i] != s[1..][j] {
          assert s[1..][i] == s[i + 1] && s[1..][j] == s[j + 1];
        }
      }
      if s[0] == x {
        DropNothing(s[1..], {x});
      } else {
        RemoveFirstIsDrop(s[1..], x);
      }
    }
  }

  /** In a duplicate-free sequence a value occurs once or not at all. */
  lemma {:induction false} NoDupCount<T>(s: seq<T>, x: T)
    requires NoDup(s)
    ensures multiset(s)[x] == if x in s then 1 else 0
  {
    if |s| > 0 {
      assert s == [s[0]] + s[1..];
      assert NoDup(s[1..]) by {
        forall i, j | 0 <= i < j < |s[1..]| ensures s[1..][i] != s[1..][j] {
          assert s[1..][i] == s[i + 1] && s[1..][j] == s[j + 1];
        }
      }
      NoDupCount(s[1..], x);
      if s[0] == x {
        assert x !in s[1..] by {
          forall i | 0 <= i < |s[1..]| ensures s[1..][i] != x {
            assert s[1..][i] == s[i + 1];
          }
        }
      }
    }
  }

  /** A duplicate-free sequence has as many distinct elements as positions. */
  lemma {:induction false} NoDupCard<T(!new)>(s: seq<T>)
    requires NoDup(s)
    ensures |Elems(s)| == |s|
  {
    if |s| > 0 {
      var t := s[..|s| - 1];
      assert NoDup(t) by {
        forall i, j | 0 <= i < j < |t| ensures t[i] != t[j] {
          assert t[i] == s[i] && t[j] == s[j];
        }
      }
      NoDupCard(t);
      assert s == t + [s[|s| - 1]];
      assert s[|s| - 1] !in t by {
        forall i | 0 <= i < |t| ensures t[i] != s[|s| - 1] {
          assert t[i] == s[i];
        }
      }
      assert Elems(s) == Elems(t) + {s[|s| - 1]};
    }
  }

  lemma {:induction false} SubsetCard<T>(a: set<T>, b: set<T>)
    requires a <= b
    ensures |a| <= |b|
  {
    if a != {} {
      var x := Pick(a);
      SubsetCard(a - {x}, b - {x});
    }
  }

  /** Pigeonhole: a sequence longer than the set holding its elements repeats one. */
  lemma Pigeonhole<T(!new)>(s: seq<T>, r: set<T>) returns (i: nat, j: nat)
    requires forall x :: x in s ==> x in r
    requires |s| > |r|
    ensures i < j < |s| && s[i] == s[j]
  {
    if NoDup(s) {
      NoDupCard(s);
      SubsetCard(Elems(s), r);
      assert false;
    }
    i, j :| 0 <= i < j < |s| && s[i] == s[j];
  }
}

=== FILE: topo_sort.dfy ===
/** Kahn's topological sort (topologicalSort, isDAG): repeatedly take a node of in-degree
    zero from a queue, append it to the order and remove it from a scratch copy of the
    graph; the copy ends empty exactly when the graph has no cycle. */
module TopoSort {
  import opened Results
  import opened Seqs
  import opened Nodes
  import opened Paths
  import opened Directed

  /** `s` lists every node once, and every edge goes from an earlier to a later position. */
  ghost predicate TopoOrder(g: Store, s: seq<int>) {
    && NoDup(s)
    && Elems(s) == g.Keys
    && forall i, j :: 0 <= i < |s| && 0 <= j < |s| && s[j] in g && s[i] in g[s[j]].adj ==> j < i
  }

  /** Every node of `ans` comes after all of its parents. */
  ghost predicate PredsBefore(g: Store, ans: seq<int>) {
    forall j, a :: 0 <= j < |ans| && a in g && ans[j] in g[a].adj ==> a in ans[..j]
  }

  /** The nodes of the scratch copy whose in-degree has dropped to zero. */
  ghost function ZeroIn(copy: Store): set<int> {
    set v | v in copy && copy[v].inDegree == 0
  }

  /** The state of Kahn's loop: `copy` is the subgraph of `g` induced by the nodes not yet
      output, and `queue` holds exactly its nodes of in-degree zero, once each. */
  ghost predicate KahnInv(g: Store, copy: Store, ans: seq<int>, queue: seq<int>) {
    && DValid(g)
    && Induced(g, copy, ans)
    && DValid(copy)
    && NoDup(ans) && Elems(ans) <= g.Keys
    && PredsBefore(g, ans)
    && NoDup(queue) && Elems(queue) == ZeroIn(copy)
  }

  /** A node of in-degree zero is nobody's child. */
  lemma NoParent(copy: Store, v: int)
    requires DValid(copy) && v in copy && copy[v].inDegree == 0
    ensures forall a :: a in copy ==> v !in copy[a].adj
  {
    TargetsMember(copy, v);
  }

  /** A child of a stored node has positive in-degree. */
  lemma HasParent(copy: Store, a: int, v: int)
    requires DValid(copy) && a in copy && v in copy[a].adj
    ensures v in copy && copy[v].inDegree > 0
  {
    TargetsMember(copy, v);
  }

  /** The initial queue: every node of in-degree zero, in the map's iteration order. */
  method KahnInit(copy: Store) returns (queue: seq<int>)
    ensures NoDup(queue) && Elems(queue) == ZeroIn(copy)
  {
    queue := [];
    var rest := copy.Keys;
    while rest != {}
      invariant rest <= copy.Keys
      invariant NoDup(queue)
      invariant Elems(queue) == ZeroIn(copy) - rest
      decreases rest
    {
      ghost var w := Pick(rest);
      var t :| t in rest;
      if copy[t].inDegree == 0 {
        queue := queue + [t];
      }
      rest := rest - {t};
    }
  }

  /** The facts about the copy that the lemmas below share: it is the subgraph of `g`
      induced by the nodes not yet output. */
  ghost predicate Induced(g: Store, copy: Store, ans: seq<int>) {
    && copy.Keys == g.Keys - Elems(ans)
    && (forall v :: v in copy ==> v in g && copy[v].adj == Drop(g[v].adj, Elems(ans)))
  }

  /** Appending a node that is nobody's child in the copy keeps every node after its
      parents: all of its parents have already left the copy. */
  lemma OutputStep(g: Store, copy: Store, ans: seq<int>, sel: int)
    requires Induced(g, copy, ans) && NoDup(ans) && PredsBefore(g, ans)
    requires sel in copy && forall a :: a in copy ==> sel !in copy[a].adj
    ensures sel !in ans && NoDup(ans + [sel]) && PredsBefore(g, ans + [sel])
  {
    var ans' := ans + [sel];
    forall j, a | 0 <= j < |ans'| && a in g && ans'[j] in g[a].adj ensures a in ans'[..j] {
      if j < |ans| {
        assert ans'[j] == ans[j] && ans'[..j] == ans[..j];
      } else {
        assert ans'[..j] == ans;
        assert a !in ans ==> sel in Drop(g[a].adj, Elems(ans));
      }
    }
  }

  /** Every child, in the original graph, of a node still in the copy that has not been
      output is a child in the copy too: it cannot have been output before its parent. */
  lemma ChildrenKept(g: Store, copy: Store, ans: seq<int>, sel: int)
    requires Induced(g, copy, ans) && PredsBefore(g, ans) && Closed(g)
    requires sel in copy
    ensures forall c :: c in g[sel].adj <==> c in copy[sel].adj
  {
    forall c | c in g[sel].adj ensures c !in ans {
      assert forall j :: 0 <= j < |ans| && ans[j] == c ==> sel in ans[..j];
    }
  }

  /** Children in a valid store have a positive in-degree. */
  lemma ChildrenHaveParent(copy: Store, sel: int)
    requires DValid(copy) && sel in copy
    ensures forall c :: c in copy[sel].adj ==> c in copy && copy[c].inDegree > 0
  {
    forall c | c in copy[sel].adj ensures c in copy && copy[c].inDegree > 0 {
      HasParent(copy, sel, c);
    }
  }

  /** removeNode(sel) keeps the copy induced by the nodes not yet output. */
  lemma InducedStep(g: Store, copy: Store, ans: seq<int>, sel: int, copy': Store)
    requires Induced(g, copy, ans) && sel in copy
    requires copy'.Keys == copy.Keys - {sel}
    requires forall k :: k in copy' ==> copy'[k].adj == Drop(copy[k].adj, {sel})
    ensures Induced(g, copy', ans + [sel])
  {
    assert Elems(ans + [sel]) == Elems(ans) + {sel};
    forall v | v in copy' ensures copy'[v].adj == Drop(g[v].adj, Elems(ans + [sel])) {
      DropDrop(g[v].adj, Elems(ans), {sel});
    }
  }

  /** Popping the head of a duplicate-free queue. */
  lemma PopHead(queue: seq<int>)
    requires NoDup(queue) && queue != []
    ensures NoDup(queue[1..]) && Elems(queue[1..]) == Elems(queue) - {queue[0]}
  {
    assert NoDup(queue[1..]) by {
      forall i, j | 0 <= i < j < |queue[1..]| ensures queue[1..][i] != queue[1..][j] {
        assert queue[1..][i] == queue[i + 1] && queue[1..][j] == queue[j + 1];
      }
    }
    assert queue[0] !in queue[1..] by {
      forall i | 0 <= i < |queue[1..]| ensures queue[1..][i] != queue[0] {
        assert queue[1..][i] == queue[i + 1];
      }
    }
    assert queue == [queue[0]] + queue[1..];
  }

  /** After removeNode(sel), the nodes of in-degree zero are the old ones other than `sel`
      plus the children of `sel` that lost their last parent; the old ones are not children. */
  lemma ZeroStep(g: Store, copy: Store, sel: int, copy': Store, rest: set<int>)
    requires sel in copy && sel in g
    requires copy'.Keys == copy.Keys - {sel}
    requires forall k :: k in copy' ==>
      copy'[k].inDegree == copy[k].inDegree - (if (sel, k) in Edges(copy) then 1 else 0)
    requires forall c :: c in g[sel].adj <==> c in copy[sel].adj
    requires forall c :: c in copy[sel].adj ==> c in copy && copy[c].inDegree > 0
    requires rest == ZeroIn(copy) - {sel}
    ensures rest !! Elems(g[sel].adj)
    ensures ZeroIn(copy') == rest + (ZeroIn(copy') * Elems(g[sel].adj))
  {
    forall c | c in g[sel].adj ensures c !in rest {
      assert c in copy[sel].adj;
    }
    forall v | v in ZeroIn(copy') && v !in g[sel].adj ensures v in rest {
      assert (sel, v) !in Edges(copy);
    }
    forall v | v in rest ensures v in ZeroIn(copy') {
      assert v !in copy[sel].adj;
      assert (sel, v) !in Edges(copy);
    }
  }

  /** The inner loop: every child of `sel` whose in-degree in the copy is now zero joins the queue. */
  method EnqueueChildren(g: Store, copy: Store, sel: int, queue0: seq<int>) returns (queue: seq<int>)
    requires sel in g && (forall c :: c in g[sel].adj ==> c in copy)
    requires NoDup(queue0) && Elems(queue0) !! Elems(g[sel].adj)
    ensures NoDup(queue)
    ensures Elems(queue) == Elems(queue0) + (ZeroIn(copy) * Elems(g[sel].adj))
  {
    queue := queue0;
    var kids := Elems(g[sel].adj);
    ghost var done: set<int> := {};
    while kids != {}
      invariant kids + done == Elems(g[sel].adj) && kids !! done
      invariant NoDup(queue)
      invariant Elems(queue) == Elems(queue0) + (ZeroIn(copy) * done)
      decreases kids
    {
      ghost var w := Pick(kids);
      var c :| c in kids;
      if copy[c].inDegree == 0 {
        assert c !in queue;
        queue := queue + [c];
      }
      done := done + {c};
      kids := kids - {c};
    }
  }

  /** One round of Kahn's loop: output the head of the queue, remove it from the copy, and
      enqueue its children that lost their last parent. */
  method KahnStep(g: Store, copy: Store, ans: seq<int>, queue: seq<int>)
    returns (copy': Store, ans': seq<int>, queue': seq<int>)
    requires KahnInv(g, copy, ans, queue) && queue != []
    ensures KahnInv(g, copy', ans', queue')
    ensures queue[0] in copy && copy'.Keys == copy.Keys - {queue[0]}
  {
    var sel := queue[0];
    assert sel in Elems(queue);
    NoParent(copy, sel);
    OutputStep(g, copy, ans, sel);
    ChildrenKept(g, copy, ans, sel);
    ChildrenHaveParent(copy, sel);
    PopHead(queue);
    ans' := ans + [sel];
    var r := RemoveNode(copy, sel);
    copy' := r.value;
    InducedStep(g, copy, ans, sel, copy');
    ZeroStep(g, copy, sel, copy', Elems(queue[1..]));
    queue' := EnqueueChildren(g, copy', sel, queue[1..]);
  }

  /** `v` has a parent inside `s`. */
  ghost predicate HasParentIn(g: Store, s: set<int>, v: int) {
    exists a :: a in s && a in g && v in g[a].adj
  }

  /** `v` has a parent among the nodes of `copy`, by `copy`'s own lists. */
  ghost predicate ParentInside(copy: Store, v: int) {
    exists a :: a in copy && v in copy[a].adj
  }

  /** One more step backwards: a parent inside `s` of the first node. */
  lemma PrependParent(g: Store, s: set<int>, p: seq<int>) returns (p': seq<int>)
    requires s <= g.Keys && IsPath(g, p) && p[0] in s
    requires forall x :: x in p ==> x in s
    requires HasParentIn(g, s, p[0])
    ensures IsPath(g, p') && |p'| == |p| + 1 && p'[0] in s
    ensures forall x :: x in p' ==> x in s
  {
    var a :| a in s && a in g && p[0] in g[a].adj;
    p' := [a] + p;
    forall i | 0 <= i < |p'| - 1 ensures p'[i + 1] in g[p'[i]].adj {
      if i > 0 {
        assert p'[i] == p[i - 1] && p'[i + 1] == p[i];
      }
    }
  }

  /** A repeated node on a path closes a cycle. */
  lemma RepeatCycle(g: Store, p: seq<int>, i: nat, j: nat)
    requires IsPath(g, p) && i < j < |p| && p[i] == p[j]
    ensures HasCycle(g)
  {
    var c := p[i..j + 1];
    assert IsPath(g, c) by {
      forall k | 0 <= k < |c| - 1 ensures c[k + 1] in g[c[k]].adj {
        assert c[k] == p[i + k] && c[k + 1] == p[i + k + 1];
      }
    }
    assert c[0] == c[|c| - 1];
  }

  /** Nodes that all have a parent among themselves lie on a cycle: walking backwards from
      any of them must repeat a node. */
  lemma PredecessorCycle(g: Store, s: set<int>)
    requires s != {} && s <= g.Keys
    requires forall v {:trigger HasParentIn(g, s, v)} :: v in s ==> HasParentIn(g, s, v)
    ensures HasCycle(g)
  {
    var p := [Pick(s)];
    while |p| <= |s|
      invariant 1 <= |p| <= |s| + 1
      invariant IsPath(g, p) && p[0] in s
      invariant forall x :: x in p ==> x in s
      decreases |s| + 1 - |p|
    {
      assert HasParentIn(g, s, p[0]);
      p := PrependParent(g, s, p);
    }
    assert forall x :: x in p ==> x in s;
    var i, j := Pigeonhole(p, s);
    RepeatCycle(g, p, i, j);
  }

  /** In a valid store where no node has in-degree zero, every node has a parent. */
  lemma AllHaveParents(copy: Store)
    requires DValid(copy) && ZeroIn(copy) == {}
    ensures forall v {:trigger ParentInside(copy, v)} :: v in copy ==> ParentInside(copy, v)
  {
    forall v | v in copy ensures ParentInside(copy, v) {
      assert v !in ZeroIn(copy);
      TargetsMember(copy, v);
    }
  }

  /** Every node and edge of `copy` is one of `g`. */
  ghost predicate SubGraph(copy: Store, g: Store) {
    forall v :: v in copy ==> v in g && forall c :: c in copy[v].adj ==> c in g[v].adj
  }

  /** When every node of a non-empty subgraph has a parent in it, the graph has a cycle. */
  lemma StuckHasCycle(g: Store, copy: Store)
    requires SubGraph(copy, g) && copy.Keys != {}
    requires forall v {:trigger ParentInside(copy, v)} :: v in copy ==> ParentInside(copy, v)
    ensures HasCycle(g)
  {
    ParentsInCopy(g, copy);
    SubKeys(g, copy);
    PredecessorCycle(g, copy.Keys);
  }

  lemma ParentsInCopy(g: Store, copy: Store)
    requires SubGraph(copy, g)
    requires forall v {:trigger ParentInside(copy, v)} :: v in copy ==> ParentInside(copy, v)
    ensures forall v {:trigger HasParentIn(g, copy.Keys, v)} :: v in copy.Keys ==> HasParentIn(g, copy.Keys, v)
  {
    forall v | v in copy.Keys ensures HasParentIn(g, copy.Keys, v) {
      ParentInCopy(g, copy, v);
    }
  }

  /** A parent in the subgraph is a parent in the graph. */
  lemma ParentInCopy(g: Store, copy: Store, v: int)
    requires SubGraph(copy, g) && v in copy && ParentInside(copy, v)
    ensures HasParentIn(g, copy.Keys, v)
  {
    var a :| a in copy && v in copy[a].adj;
    assert a in g && v in g[a].adj;
  }

  lemma SubKeys(g: Store, copy: Store)
    requires SubGraph(copy, g)
    ensures copy.Keys <= g.Keys
  {
    forall v | v in copy.Keys ensures v in g.Keys {
    }
  }

  /** The end of Kahn's loop: an empty copy means a topological order, a non-empty one a cycle. */
  lemma KahnDone(g: Store, copy: Store, ans: seq<int>)
    requires KahnInv(g, copy, ans, [])
    ensures copy == map[] ==> TopoOrder(g, ans)
    ensures copy != map[] ==> HasCycle(g)
  {
    if copy == map[] {
      KahnFinished(g, copy, ans);
    } else {
      KahnStuck(g, copy, ans);
    }
  }

  /** An empty copy: every node has been output, in topological order. */
  lemma KahnFinished(g: Store, copy: Store, ans: seq<int>)
    requires KahnInv(g, copy, ans, []) && copy == map[]
    ensures TopoOrder(g, ans)
  {
    assert g.Keys - Elems(ans) == {};
    forall x | x in g.Keys ensures x in Elems(ans) {
      assert x !in g.Keys - Elems(ans);
    }
    DoneIsOrder(g, ans);
  }

  /** A non-empty copy with an empty queue: every remaining node has a parent left, so the
      graph has a cycle. */
  lemma KahnStuck(g: Store, copy: Store, ans: seq<int>)
    requires KahnInv(g, copy, ans, []) && copy != map[]
    ensures HasCycle(g)
  {
    AllHaveParents(copy);
    EmptyKeys(copy);
    KahnSubGraph(g, copy, ans);
    StuckHasCycle(g, copy);
  }

  lemma KahnSubGraph(g: Store, copy: Store, ans: seq<int>)
    requires KahnInv(g, copy, ans, [])
    ensures SubGraph(copy, g)
  {
    forall v | v in copy ensures v in g && forall c :: c in copy[v].adj ==> c in g[v].adj {
    }
  }

  /** A map without keys is the empty map. */
  lemma EmptyKeys(m: Store)
    ensures m.Keys == {} ==> m == map[]
  {
    if m.Keys == {} {
      assert forall k :: k !in m;
    }
  }

  /** The set-up of topologicalSort: the copy, an empty output and the initial queue. */
  method KahnStart(g: Store) returns (copy: Store, ans: seq<int>, queue: seq<int>)
    requires DValid(g)
    ensures KahnInv(g, copy, ans, queue)
  {
    copy := Copy(g);
    ans := [];
    queue := KahnInit(copy);
    forall v | v in copy ensures v in g && copy[v].adj == Drop(g[v].adj, Elems(ans)) {
      DropNothing(g[v].adj, Elems(ans));
    }
  }

  /** When every node has been output, the output is a topological order. */
  lemma DoneIsOrder(g: Store, ans: seq<int>)
    requires NoDup(ans) && Elems(ans) == g.Keys && PredsBefore(g, ans)
    ensures TopoOrder(g, ans)
  {
    forall i, j | 0 <= i < |ans| && 0 <= j < |ans| && ans[j] in g && ans[i] in g[ans[j]].adj
      ensures j < i
    {
      assert ans[j] in ans[..i];
      var k :| 0 <= k < i && ans[..i][k] == ans[j];
      assert ans[k] == ans[j];
    }
  }

  /** Position of a member of a sequence. */
  ghost function IndexOf(s: seq<int>, x: int): (i: nat)
    requires x in s
    ensures i < |s| && s[i] == x
  {
    var i :| 0 <= i < |s| && s[i] == x; i
  }

  /** A graph with a topological order has no cycle: positions strictly grow along a path. */
  lemma OrderNoCycle(g: Store, s: seq<int>)
    requires TopoOrder(g, s)
    ensures !HasCycle(g)
  {
    if HasCycle(g) {
      var p :| IsPath(g, p) && |p| >= 2 && p[0] == p[|p| - 1];
      var k := 0;
      while k < |p| - 1
        invariant 0 <= k <= |p| - 1
        invariant k > 0 ==> IndexOf(s, p[0]) < IndexOf(s, p[k])
      {
        assert p[k] in Elems(s) && p[k + 1] in Elems(s);
        var a, b := IndexOf(s, p[k]), IndexOf(s, p[k + 1]);
        assert s[b] in g[s[a]].adj;
        k := k + 1;
      }
    }
  }

  /** topologicalSort: None (the Java null) exactly when the graph has a cycle, otherwise an
      order of all nodes in which every edge points forward. The graph itself is a value and
      is not changed: the removals happen on a copy. */
  method TopologicalSort(g: Store) returns (r: Option<seq<int>>)
    requires DValid(g)
    ensures r.Some? ==> TopoOrder(g, r.value)
    ensures r.None? <==> HasCycle(g)
  {
    var copy, ans, queue := KahnStart(g);
    while queue != []
      invariant KahnInv(g, copy, ans, queue)
      decreases copy.Keys
    {
      copy, ans, queue := KahnStep(g, copy, ans, queue);
    }
    KahnDone(g, copy, ans);
    if copy == map[] {
      OrderNoCycle(g, ans);
      return Some(ans);
    }
    return None;
  }

  /** isDAG: the topological sort succeeds. */
  method IsDAG(g: Store) returns (b: bool)
    requires DValid(g)
    ensures b <==> !HasCycle(g)
  {
    var r := TopologicalSort(g);
    b := r.Some?;
  }

  /** A tree whose every edge climbs in some rank has no cycle: ranks only grow along a walk. */
  lemma RankedAcyclic(t: Store, rank: map<int, int>)
    requires forall a, b :: (a, b) in Edges(t) ==> a in rank && b in rank && rank[a] < rank[b]
    ensures !HasCycle(t)
  {
    forall p | IsPath(t, p) && |p| >= 2 ensures p[0] != p[|p| - 1] {
      RankGrows(t, rank, p);
    }
  }

  lemma {:induction false} RankGrows(t: Store, rank: map<int, int>, p: seq<int>)
    requires forall a, b :: (a, b) in Edges(t) ==> a in rank && b in rank && rank[a] < rank[b]
    requires IsPath(t, p) && |p| >= 2
    ensures p[0] in rank && p[|p| - 1] in rank && rank[p[0]] < rank[p[|p| - 1]]
    decreases |p|
  {
    var n := |p|;
    assert (p[n - 2], p[n - 1]) in Edges(t);
    if n > 2 {
      var pre := p[..n - 1];
      assert IsPath(t, pre) by {
        forall i | 0 <= i < |pre| - 1 ensures pre[i + 1] in t[pre[i]].adj {
          assert pre[i] == p[i] && pre[i + 1] == p[i + 1];
        }
      }
      RankGrows(t, rank, pre);
    }
  }
}

=== FILE: undirected_graph.dfy ===
/** UndirectedGraph.java: every edge u - v is stored as two adjacency entries, v in u's
    list and u in v's, so the lists are symmetric entry for entry. The traversals live in
    the Bfs and Dfs modules; makeTree, shared by both, is here. */
module Undirected {
  import opened Results
  import opened Seqs
  import opened Nodes
  import opened Paths
  import opened Directed

  /** Each edge is listed at both ends, as often at one end as at the other. */
  ghost predicate Symmetric(g: Store) {
    forall a, b :: a in g && b in g ==> Count(g[a].adj, b) == Count(g[b].adj, a)
  }

  /** The invariant of an UndirectedGraph. delete leaves the in-degree counters of the
      deleted node's neighbours as they were, so in-degrees are not part of it. */
  ghost predicate UValid(g: Store) {
    Ids(g) && Closed(g) && OutDegrees(g) && Symmetric(g)
  }

  // ----- editing -----

  /** addNode is the directed one: an isolated node under an unused id. */
  lemma AddNodeValid(g: Store, u: int)
    requires UValid(g)
    ensures AddNode(g, u).Ok? <==> u !in g
    ensures AddNode(g, u).Ok? ==> UValid(AddNode(g, u).value) && AddNode(g, u).value[u].adj == []
  {
    if u !in g {
      var r := AddNode(g, u).value;
      forall a, b | a in r && b in r ensures Count(r[a].adj, b) == Count(r[b].adj, a) {
        if a != u && b != u {
          assert r[a] == g[a] && r[b] == g[b];
        } else if a == u && b != u {
          assert Count(g[b].adj, u) == 0;
        } else if b == u && a != u {
          assert Count(g[a].adj, u) == 0;
        }
      }
    }
  }

  /** connect(u, v): both ends must be nodes; each is appended to the other's list. */
  function Connect(g: Store, u: int, v: int): (r: Result<Store>)
    ensures r.Err? <==> u !in g || v !in g
    ensures r.Err? ==> r.error == UnknownNode(if u !in g then u else v)
    ensures r.Ok? ==> r.value.Keys == g.Keys
    ensures r.Ok? ==> forall a, b :: a in g ==> Count(r.value[a].adj, b) == Count(g[a].adj, b) + Added(u, v, a, b)
  {
    if u !in g then Err(UnknownNode(u))
    else if v !in g then Err(UnknownNode(v))
    else
      var r := AddChild(AddChild(g, u, v), v, u);
      ConnectCounts(g, u, v);
      Ok(r)
  }

  /** How many entries `b` connect(u, v) adds to a's list. */
  function Added(u: int, v: int, a: int, b: int): nat {
    (if a == u && b == v then 1 else 0) + (if a == v && b == u then 1 else 0)
  }

  lemma ConnectCounts(g: Store, u: int, v: int)
    requires u in g && v in g
    ensures forall a, b :: a in g ==> Count(AddChild(AddChild(g, u, v), v, u)[a].adj, b) == Count(g[a].adj, b) + Added(u, v, a, b)
  {
    var g1 := AddChild(g, u, v);
    var r := AddChild(g1, v, u);
    forall a, b | a in g ensures Count(r[a].adj, b) == Count(g[a].adj, b) + Added(u, v, a, b) {
      if a == u {
        assert multiset(g1[u].adj) == multiset(g[u].adj) + multiset{v};
      }
      if a == v {
        assert multiset(r[v].adj) == multiset(g1[v].adj) + multiset{u};
      }
    }
  }

  /** addChild keeps ids and out-degree counters right. */
  lemma AddChildShape(g: Store, u: int, v: int)
    requires Ids(g) && OutDegrees(g) && u in g && v in g
    ensures Ids(AddChild(g, u, v)) && OutDegrees(AddChild(g, u, v))
  {
  }

  /** removeChild keeps ids and out-degree counters right. */
  lemma RemoveChildShape(g: Store, u: int, v: int)
    requires Ids(g) && OutDegrees(g) && u in g && v in g
    ensures Ids(RemoveChild(g, u, v)) && OutDegrees(RemoveChild(g, u, v))
  {
  }

  /** Adding the entries of one edge at both of its ends keeps the lists symmetric. */
  lemma AddedSymmetric(g: Store, r: Store, u: int, v: int)
    requires Symmetric(g) && r.Keys == g.Keys
    requires forall a, b :: a in g ==> Count(r[a].adj, b) == Count(g[a].adj, b) + Added(u, v, a, b)
    ensures Symmetric(r)
  {
    forall a, b | a in r && b in r ensures Count(r[a].adj, b) == Count(r[b].adj, a) {
      assert Added(u, v, a, b) == Added(u, v, b, a);
    }
  }

  /** ... and lists only nodes of the store. */
  lemma AddedClosed(g: Store, r: Store, u: int, v: int)
    requires Closed(g) && r.Keys == g.Keys && u in g && v in g
    requires forall a, b :: a in g ==> Count(r[a].adj, b) == Count(g[a].adj, b) + Added(u, v, a, b)
    ensures Closed(r)
  {
    forall a, b | a in r && b in r[a].adj ensures b in r {
      assert Count(r[a].adj, b) > 0;
      if Count(g[a].adj, b) > 0 {
        assert b in g[a].adj;
      }
    }
  }

  /** connect keeps the lists symmetric (and the rest of the invariant). */
  lemma ConnectValid(g: Store, u: int, v: int)
    requires UValid(g) && u in g && v in g
    ensures UValid(Connect(g, u, v).value)
  {
    var r := Connect(g, u, v).value;
    AddedSymmetric(g, r, u, v);
    AddedClosed(g, r, u, v);
    AddChildShape(g, u, v);
    AddChildShape(AddChild(g, u, v), v, u);
  }

  /** disconnect(u, v): both ends must be nodes; removeChild in each direction. It takes
      back what connect(u, v) adds, as far as the lists hold it: one `v` from u's list and
      one `u` from v's, or two entries of u from its own list when u == v. */
  function Disconnect(g: Store, u: int, v: int): (r: Result<Store>)
    ensures r.Err? <==> u !in g || v !in g
    ensures r.Err? ==> r.error == UnknownNode(if u !in g then u else v)
    ensures r.Ok? ==> r.value.Keys == g.Keys
    ensures r.Ok? ==> forall a, b :: a in g ==> Count(r.value[a].adj, b) == Less(Count(g[a].adj, b), Added(u, v, a, b))
    ensures r.Ok? ==> forall a :: a in g && a != u && a != v ==> r.value[a].adj == g[a].adj
  {
    if u !in g then Err(UnknownNode(u))
    else if v !in g then Err(UnknownNode(v))
    else
      DisconnectCounts(g, u, v);
      Ok(RemoveChild(RemoveChild(g, u, v), v, u))
  }

  /** `x` less `k`, but not below zero. */
  function Less(x: nat, k: nat): nat {
    if x < k then 0 else x - k
  }

  lemma DisconnectCounts(g: Store, u: int, v: int)
    requires u in g && v in g
    ensures forall a, b :: a in g ==> Count(RemoveChild(RemoveChild(g, u, v), v, u)[a].adj, b) == Less(Count(g[a].adj, b), Added(u, v, a, b))
  {
    var g1 := RemoveChild(g, u, v);
    RemoveChildTakes(g, u, v);
    RemoveChildTakes(g1, v, u);
    TwoTakes(g, g1, RemoveChild(g1, v, u), u, v);
  }

  lemma TwoTakes(g: Store, g1: Store, r: Store, u: int, v: int)
    requires u in g && v in g && g1.Keys == g.Keys && r.Keys == g.Keys
    requires multiset(g1[u].adj) == multiset(g[u].adj) - multiset{v}
    requires forall k :: k in g && k != u ==> g1[k].adj == g[k].adj
    requires multiset(r[v].adj) == multiset(g1[v].adj) - multiset{u}
    requires forall k :: k in g && k != v ==> r[k].adj == g1[k].adj
    ensures forall a, b :: a in g ==> Count(r[a].adj, b) == Less(Count(g[a].adj, b), Added(u, v, a, b))
  {
    forall a, b | a in g ensures Count(r[a].adj, b) == Less(Count(g[a].adj, b), Added(u, v, a, b)) {
      if a == u && a == v {
        TakeOne(multiset(g[u].adj), v, b);
        TakeOne(multiset(g1[v].adj), u, b);
      } else if a == u {
        TakeOne(multiset(g[u].adj), v, b);
      } else if a == v {
        TakeOne(multiset(g1[v].adj), u, b);
      }
    }
  }

  lemma TakeOne(m: multiset<int>, x: int, b: int)
    ensures (m - multiset{x})[b] == Less(m[b], if b == x then 1 else 0)
  {
  }

  /** removeChild takes one `v` out of u's list, or nothing when there is none. */
  lemma RemoveChildTakes(g: Store, u: int, v: int)
    requires u in g && v in g
    ensures multiset(RemoveChild(g, u, v)[u].adj) == multiset(g[u].adj) - multiset{v}
  {
    if v !in g[u].adj {
      assert multiset(g[u].adj) - multiset{v} == multiset(g[u].adj);
    }
  }

  /** Taking the entries of one edge out at both of its ends keeps the lists symmetric. */
  lemma TakenSymmetric(g: Store, r: Store, u: int, v: int)
    requires Symmetric(g) && r.Keys == g.Keys
    requires forall a, b :: a in g ==> Count(r[a].adj, b) == Less(Count(g[a].adj, b), Added(u, v, a, b))
    ensures Symmetric(r)
  {
    forall a, b | a in r && b in r ensures Count(r[a].adj, b) == Count(r[b].adj, a) {
      assert Added(u, v, a, b) == Added(u, v, b, a);
    }
  }

  /** Taking entries out never lists a new node. */
  lemma TakenClosed(g: Store, r: Store, u: int, v: int)
    requires Closed(g) && r.Keys == g.Keys
    requires forall a, b :: a in g ==> Count(r[a].adj, b) == Less(Count(g[a].adj, b), Added(u, v, a, b))
    ensures Closed(r)
  {
    forall a, b | a in r && b in r[a].adj ensures b in r {
      assert Count(r[a].adj, b) > 0;
      assert b in g[a].adj;
    }
  }

  /** disconnect keeps the invariant. */
  lemma DisconnectValid(g: Store, u: int, v: int)
    requires UValid(g) && u in g && v in g
    ensures UValid(Disconnect(g, u, v).value)
  {
    var r := Disconnect(g, u, v).value;
    TakenSymmetric(g, r, u, v);
    TakenClosed(g, r, u, v);
    RemoveChildShape(g, u, v);
    RemoveChildShape(RemoveChild(g, u, v), v, u);
  }

  /** Connecting and then disconnecting the same pair leaves every list with its old
      entries (the order may differ: removeChild takes the first occurrence). */
  lemma ConnectDisconnect(g: Store, u: int, v: int)
    requires u in g && v in g
    ensures var c := Connect(g, u, v).value;
      && Disconnect(c, u, v).Ok?
      && forall a, b :: a in g ==> Count(Disconnect(c, u, v).value[a].adj, b) == Count(g[a].adj, b)
  {
  }

  /** delete(u): every neighbour v of u (once per entry of v in u's list) drops one entry
      of u, then u goes. A self-loop entry is passed over: u's own list goes with u. A
      missing u is an error. Nothing but the entries of u changes. */
  method Delete(g: Store, u: int) returns (r: Result<Store>)
    requires UValid(g)
    ensures r.Err? <==> u !in g
    ensures r.Err? ==> r.error == UnknownNode(u)
    ensures r.Ok? ==> r.value.Keys == g.Keys - {u} && UValid(r.value)
    ensures r.Ok? ==> forall a, b :: a in r.value ==> Count(r.value[a].adj, b) == if b == u then 0 else Count(g[a].adj, b)
  {
    if u !in g {
      return Err(UnknownNode(u));
    }
    var kids := g[u].adj;
    var cur := g;
    for i := 0 to |kids|
      invariant cur.Keys == g.Keys && Ids(cur) && OutDegrees(cur)
      invariant DeleteInv(g, cur, u, kids[..i])
    {
      var v := kids[i];
      assert v in g;
      DeleteStep(g, cur, u, kids, i);
      if v != u {
        RemoveChildShape(cur, v, u);
        cur := RemoveChild(cur, v, u);
      }
    }
    assert kids[..|kids|] == kids;
    DeleteDone(g, cur, u);
    r := Ok(cur - {u});
  }

  /** After the neighbours in `done` have dropped their entries of u. */
  ghost predicate DeleteInv(g: Store, cur: Store, u: int, done: seq<int>) {
    && cur.Keys == g.Keys
    && forall a, b :: a in g ==> Count(cur[a].adj, b) == if b == u && a != u then Less(Count(g[a].adj, u), Count(done, a)) else Count(g[a].adj, b)
  }

  lemma DeleteStep(g: Store, cur: Store, u: int, kids: seq<int>, i: int)
    requires u in g && 0 <= i < |kids| && kids[i] in g && cur.Keys == g.Keys
    requires DeleteInv(g, cur, u, kids[..i])
    ensures DeleteInv(g, if kids[i] == u then cur else RemoveChild(cur, kids[i], u), u, kids[..i + 1])
  {
    var v := kids[i];
    assert kids[..i + 1] == kids[..i] + [v];
    var next := if v == u then cur else RemoveChild(cur, v, u);
    if v != u {
      RemoveChildTakes(cur, v, u);
    }
    forall a, b | a in g
      ensures Count(next[a].adj, b) == if b == u && a != u then Less(Count(g[a].adj, u), Count(kids[..i + 1], a)) else Count(g[a].adj, b)
    {
      if a == v && v != u {
        TakeOne(multiset(cur[v].adj), u, b);
      }
    }
  }

  lemma DeleteDone(g: Store, cur: Store, u: int)
    requires UValid(g) && u in g && cur.Keys == g.Keys && Ids(cur) && OutDegrees(cur)
    requires DeleteInv(g, cur, u, g[u].adj)
    ensures UValid(cur - {u})
    ensures forall a, b :: a in cur - {u} ==> Count((cur - {u})[a].adj, b) == if b == u then 0 else Count(g[a].adj, b)
  {
    var r := cur - {u};
    forall a, b | a in r ensures Count(r[a].adj, b) == if b == u then 0 else Count(g[a].adj, b) {
      assert Count(g[u].adj, a) == Count(g[a].adj, u);
    }
    forall a, b | a in r && b in r[a].adj ensures b in r {
      assert Count(r[a].adj, b) > 0;
      assert b in g[a].adj;
    }
  }

  // ----- queries -----

  /** isEdge(u, v): both ends must be nodes; a node is never its own neighbour here; the
      shorter of the two lists is searched. With symmetric lists that is the same as asking
      whether v is listed at u. */
  function IsEdge(g: Store, u: int, v: int): (r: Result<bool>)
    ensures r.Err? <==> u !in g || v !in g
    ensures r.Err? ==> r.error == UnknownNode(if u !in g then u else v)
    ensures r.Ok? && Symmetric(g) ==> (r.value <==> u != v && v in g[u].adj)
  {
    if u !in g then Err(UnknownNode(u))
    else if v !in g then Err(UnknownNode(v))
    else if u == v then Ok(false)
    else if g[u].outDegree < g[v].outDegree then Ok(IsChild(g, u, v))
    else Ok(IsChild(g, v, u))
  }

  /** Asking in either order gives the same answer. */
  lemma IsEdgeSymmetric(g: Store, u: int, v: int)
    requires Symmetric(g)
    ensures u in g && v in g ==> IsEdge(g, u, v) == IsEdge(g, v, u)
  {
    if u in g && v in g && u != v {
      assert Count(g[u].adj, v) == Count(g[v].adj, u);
    }
  }

  /** A connected pair of different nodes is an edge; after disconnecting the only entry it
      no longer is. */
  lemma ConnectIsEdge(g: Store, u: int, v: int)
    requires UValid(g) && u in g && v in g && u != v
    ensures IsEdge(Connect(g, u, v).value, u, v) == Ok(true)
    ensures Count(g[u].adj, v) == 0 ==> IsEdge(Disconnect(Connect(g, u, v).value, u, v).value, u, v) == Ok(false)
  {
    var c := Connect(g, u, v).value;
    ConnectValid(g, u, v);
    assert Count(c[u].adj, v) > 0;
    if Count(g[u].adj, v) == 0 {
      var d := Disconnect(c, u, v).value;
      DisconnectValid(c, u, v);
      assert Count(d[u].adj, v) == 0;
    }
  }

  /** getNodesForGraph and the copy constructor: fresh nodes under the same ids, then
      every list copied entry by entry. The copy's in-degrees are counted afresh. */
  method GetNodesForGraph(g: Store) returns (c: Store)
    requires Ids(g) && Closed(g)
    ensures c.Keys == g.Keys
    ensures forall u :: u in c ==> c[u].adj == g[u].adj
    ensures Valid(c)
    ensures UValid(g) ==> UValid(c)
  {
    c := CopyStore(g);
  }

  // ----- makeTree -----

  /** makeTree: a directed graph on the keys of `parent` with an edge p -> k whenever k's
      parent is p. */
  method MakeTree(parent: map<int, Option<int>>) returns (tree: Store)
    requires forall k :: k in parent && parent[k].Some? ==> parent[k].value in parent
    ensures tree.Keys == parent.Keys && DValid(tree)
    ensures forall a, b :: (a, b) in Edges(tree) <==> b in parent && parent[b] == Some(a)
  {
    tree := AddAllNodes(parent.Keys);
    var rest := parent.Keys;
    while rest != {}
      invariant rest <= parent.Keys
      invariant tree.Keys == parent.Keys && DValid(tree)
      invariant forall a, b :: (a, b) in Edges(tree) <==> b in parent.Keys - rest && parent[b] == Some(a)
      decreases rest
    {
      ghost var w := Pick(rest);
      var k :| k in rest;
      if parent[k].Some? {
        tree := ConnectNew(tree, parent[k].value, k);
      }
      rest := rest - {k};
    }
  }
}

=== FILE: weighted_graph.dfy ===
/** WeightedGraph.java: a directed graph whose edges carry integer weights, kept in a
    `(from, to) -> weight` table beside the adjacency lists. Every mutation keeps the
    table's keys equal to the edge set. */
module Weighted {
  import opened Results
  import opened Seqs
  import opened Nodes
  import opened Directed
  import opened WeightedPaths

  /** Integer.MAX_VALUE / 10 and Integer.MIN_VALUE / 10 (Java's division truncates toward
      zero): ordinary finite values that take part in the arithmetic. */
  const INFINITY: int := 214748364
  const MINUS_INFINITY: int := -214748364

  datatype WGraph = WGraph(nodes: Store, weights: Weights)

  /** A weighted edge, as getSortedEdges lists them. */
  datatype Edge = Edge(from: int, to: int, weight: int)

  /** The invariant of a WeightedGraph: a valid directed store whose weight table has an
      entry for exactly the edges. */
  ghost predicate WValid(wg: WGraph) {
    DValid(wg.nodes) && wg.weights.Keys == Edges(wg.nodes)
  }

  /** connectFromTo(from, to, w): adds the adjacency entry and the weight together; refuses
      an existing edge (and, as the directed layer does, a missing endpoint). The two-argument
      overload is this with w = 0. */
  function Connect(wg: WGraph, from: int, to: int, w: int): (r: Result<WGraph>)
    requires WValid(wg)
    ensures r.Ok? <==> from in wg.nodes && to in wg.nodes && (from, to) !in wg.weights
    ensures (from, to) in wg.weights ==> r == Err(DuplicateEdge(from, to))
    ensures r.Ok? ==>
      && WValid(r.value)
      && r.value.nodes.Keys == wg.nodes.Keys
      && Edges(r.value.nodes) == Edges(wg.nodes) + {(from, to)}
      && r.value.weights == wg.weights[(from, to) := w]
  {
    var g :- ConnectFromTo(wg.nodes, from, to);
    Ok(WGraph(g, wg.weights[(from, to) := w]))
  }

  /** checkEdge: both ends must be nodes and the table must hold the edge. */
  function CheckEdge(wg: WGraph, u: int, v: int): (r: Option<GraphError>)
    ensures r.None? <==> u in wg.nodes && v in wg.nodes && (u, v) in wg.weights
    ensures u !in wg.nodes ==> r == Some(UnknownNode(u))
    ensures u in wg.nodes && v !in wg.nodes ==> r == Some(UnknownNode(v))
    ensures u in wg.nodes && v in wg.nodes && (u, v) !in wg.weights ==> r == Some(MissingEdge(u, v))
  {
    if u !in wg.nodes then Some(UnknownNode(u))
    else if v !in wg.nodes then Some(UnknownNode(v))
    else if (u, v) !in wg.weights then Some(MissingEdge(u, v))
    else None
  }

  /** disconnectFromTo: after checkEdge, removes the adjacency entry and the weight together. */
  function Disconnect(wg: WGraph, from: int, to: int): (r: Result<WGraph>)
    requires WValid(wg)
    ensures r.Ok? <==> CheckEdge(wg, from, to).None?
    ensures r.Err? ==> Some(r.error) == CheckEdge(wg, from, to)
    ensures r.Ok? ==>
      && WValid(r.value)
      && r.value.nodes.Keys == wg.nodes.Keys
      && Edges(r.value.nodes) == Edges(wg.nodes) - {(from, to)}
      && r.value.weights == wg.weights - {(from, to)}
  {
    var check := CheckEdge(wg, from, to);
    if check.Some? then Err(check.value)
    else
      DisconnectEdges(wg.nodes, from, to);
      Ok(WGraph(DisconnectFromTo(wg.nodes, from, to).value, wg.weights - {(from, to)}))
  }

  /** Connecting a new edge and disconnecting it again gives back the very same graph. */
  lemma ConnectDisconnect(wg: WGraph, from: int, to: int, w: int)
    requires WValid(wg) && Connect(wg, from, to, w).Ok?
    ensures Disconnect(Connect(wg, from, to, w).value, from, to) == Ok(wg)
  {
    var g := wg.nodes;
    var c := Connect(wg, from, to, w).value;
    ConnectValue(wg, from, to, w);
    DisconnectValue(c, from, to);
    AddRemoveChild(g, from, to);
    UpdateRemove(wg.weights, (from, to), w);
  }

  lemma UpdateRemove(m: Weights, k: (int, int), x: int)
    requires k !in m
    ensures m[k := x] - {k} == m
  {
  }

  lemma ConnectValue(wg: WGraph, from: int, to: int, w: int)
    requires WValid(wg) && Connect(wg, from, to, w).Ok?
    ensures Connect(wg, from, to, w).value == WGraph(AddChild(wg.nodes, from, to), wg.weights[(from, to) := w])
    ensures to !in wg.nodes[from].adj
  {
  }

  lemma DisconnectValue(c: WGraph, from: int, to: int)
    requires WValid(c) && CheckEdge(c, from, to).None?
    ensures Disconnect(c, from, to) == Ok(WGraph(RemoveChild(c.nodes, from, to), c.weights - {(from, to)}))
  {
  }

  /** addChild of a new child followed by removeChild of it restores the store. */
  lemma AddRemoveChild(g: Store, u: int, v: int)
    requires u in g && v in g && v !in g[u].adj
    ensures RemoveChild(AddChild(g, u, v), u, v) == g
  {
    var r := RemoveChild(AddChild(g, u, v), u, v);
    forall k | k in g ensures r[k] == g[k] {
      AddRemoveNode(g, u, v, k);
    }
  }

  lemma AddRemoveNode(g: Store, u: int, v: int, k: int)
    requires u in g && v in g && v !in g[u].adj && k in g
    ensures RemoveChild(AddChild(g, u, v), u, v)[k] == g[k]
  {
    var a := AddChild(g, u, v);
    var r := RemoveChild(a, u, v);
    assert v in a[u].adj;
    if k == u {
      RemoveFirstAppend(g[u].adj, v);
    }
    assert r[k].id == g[k].id && r[k].adj == g[k].adj;
    assert r[k].outDegree == g[k].outDegree && r[k].inDegree == g[k].inDegree;
  }

  /** Removing the first occurrence of a value just appended to a list without it
      gives back the list. */
  lemma {:induction false} RemoveFirstAppend(s: seq<int>, x: int)
    requires x !in s
    ensures RemoveFirst(s + [x], x) == s
  {
    if |s| > 0 {
      RemoveFirstAppend(s[1..], x);
      assert (s + [x])[1..] == s[1..] + [x];
    }
  }

  /** setWeight: after checkEdge, only that edge's weight changes. */
  function SetWeight(wg: WGraph, from: int, to: int, w: int): (r: Result<WGraph>)
    requires WValid(wg)
    ensures r.Ok? <==> CheckEdge(wg, from, to).None?
    ensures r.Err? ==> Some(r.error) == CheckEdge(wg, from, to)
    ensures r.Ok? ==>
      && WValid(r.value)
      && r.value.nodes == wg.nodes
      && r.value.weights.Keys == wg.weights.Keys
      && r.value.weights[(from, to)] == w
      && (forall e :: e in wg.weights && e != (from, to) ==> r.value.weights[e] == wg.weights[e])
  {
    var check := CheckEdge(wg, from, to);
    if check.Some? then Err(check.value)
    else Ok(WGraph(wg.nodes, wg.weights[(from, to) := w]))
  }

  /** weightEdgeFromTo: both ends must be nodes; a missing edge is an error (the Java code
      dereferences the absent table entry). */
  function WeightEdgeFromTo(wg: WGraph, from: int, to: int): (r: Result<int>)
    ensures r.Ok? <==> CheckEdge(wg, from, to).None?
    ensures r.Err? ==> Some(r.error) == CheckEdge(wg, from, to)
    ensures r.Ok? ==> r.value == EdgeWeight(wg.weights, from, to)
  {
    if from !in wg.nodes then Err(UnknownNode(from))
    else if to !in wg.nodes then Err(UnknownNode(to))
    else if (from, to) !in wg.weights then Err(MissingEdge(from, to))
    else Ok(wg.weights[(from, to)])
  }

  /** The weights of a table that avoid node `u`. */
  function WithoutNode(w: Weights, u: int): (r: Weights)
    ensures forall e :: e in r <==> e in w && e.0 != u && e.1 != u
    ensures forall e :: e in r ==> r[e] == w[e]
  {
    map e | e in w && e.0 != u && e.1 != u :: w[e]
  }

  /** removeNode: the directed removeNode, whose disconnectFromTo calls dispatch to the
      weighted override, so the weight of every edge at `u` leaves the table as well. */
  method RemoveNode(wg: WGraph, u: int) returns (r: Result<WGraph>)
    requires WValid(wg)
    ensures u !in wg.nodes <==> r.Err?
    ensures r.Err? ==> r.error == UnknownNode(u)
    ensures r.Ok? ==>
      && WValid(r.value)
      && r.value.nodes.Keys == wg.nodes.Keys - {u}
      && Edges(r.value.nodes) == Edges(wg.nodes) - Incident(Edges(wg.nodes), u)
      && r.value.weights == WithoutNode(wg.weights, u)
      && (forall k :: k in r.value.nodes ==>
            r.value.nodes[k].outDegree == wg.nodes[k].outDegree - (if (k, u) in Edges(wg.nodes) then 1 else 0))
      && (forall k :: k in r.value.nodes ==>
            r.value.nodes[k].inDegree == wg.nodes[k].inDegree - (if (u, k) in Edges(wg.nodes) then 1 else 0))
  {
    var d := Directed.RemoveNode(wg.nodes, u);
    if d.Err? {
      return Err(d.error);
    }
    var w := WithoutNode(wg.weights, u);
    WithoutNodeKeys(wg.weights, Edges(wg.nodes), Edges(d.value), u);
    return Ok(WGraph(d.value, w));
  }

  lemma WithoutNodeKeys(w: Weights, e0: set<(int, int)>, e1: set<(int, int)>, u: int)
    requires w.Keys == e0 && e1 == e0 - Incident(e0, u)
    ensures WithoutNode(w, u).Keys == e1
  {
  }

  // ----- weight queries -----

  /** No weight is negative (zero is allowed). */
  ghost predicate NonNegative(w: Weights) {
    forall e :: e in w ==> w[e] >= 0
  }

  /** positiveWeights: scans the table for a negative weight. */
  method PositiveWeights(w: Weights) returns (b: bool)
    ensures b <==> NonNegative(w)
  {
    var rest := w.Keys;
    while rest != {}
      invariant rest <= w.Keys
      invariant forall e :: e in w && e !in rest ==> w[e] >= 0
      decreases rest
    {
      ghost var x := Pick(rest);
      var e :| e in rest;
      if w[e] < 0 {
        return false;
      }
      rest := rest - {e};
    }
    return true;
  }

  /** `e` is one entry of the table. */
  predicate IsEntry(w: Weights, e: Edge) {
    (e.from, e.to) in w && w[(e.from, e.to)] == e.weight
  }

  /** The table's entries, in no particular order (HashMap.values()). */
  method Entries(w: Weights) returns (es: seq<Edge>)
    ensures NoDup(es)
    ensures forall e :: e in es <==> IsEntry(w, e)
  {
    es := [];
    var rest := w.Keys;
    while rest != {}
      invariant rest <= w.Keys
      invariant NoDup(es)
      invariant forall e :: e in es <==> IsEntry(w, e) && (e.from, e.to) !in rest
      decreases rest
    {
      ghost var x := Pick(rest);
      var k :| k in rest;
      var e := Edge(k.0, k.1, w[k]);
      assert e !in es;
      es := es + [e];
      rest := rest - {k};
    }
  }

  /** Weights never decrease along the list. */
  predicate SortedByWeight(s: seq<Edge>) {
    forall i, j :: 0 <= i < j < |s| ==> s[i].weight <= s[j].weight
  }

  /** One insertion step of a sort by weight. */
  function InsertByWeight(e: Edge, s: seq<Edge>): (r: seq<Edge>)
    ensures |r| == |s| + 1
    ensures forall x :: x in r <==> x == e || x in s
  {
    if |s| == 0 then [e]
    else if e.weight < s[0].weight then [e] + s
    else [s[0]] + InsertByWeight(e, s[1..])
  }

  lemma {:induction false} InsertSorted(e: Edge, s: seq<Edge>)
    requires SortedByWeight(s)
    ensures SortedByWeight(InsertByWeight(e, s))
  {
    if |s| > 0 && e.weight >= s[0].weight {
      var t := InsertByWeight(e, s[1..]);
      InsertSorted(e, s[1..]);
      var r := [s[0]] + t;
      forall i, j | 0 <= i < j < |r| ensures r[i].weight <= r[j].weight {
        if i == 0 {
          assert r[j] in t;
          if r[j] != e {
            var k :| 0 <= k < |s[1..]| && s[1..][k] == r[j];
            assert s[k + 1] == r[j];
          }
        } else {
          assert r[i] == t[i - 1] && r[j] == t[j - 1];
        }
      }
    }
  }

  lemma {:induction false} InsertNoDup(e: Edge, s: seq<Edge>)
    requires NoDup(s) && e !in s
    ensures NoDup(InsertByWeight(e, s))
  {
    if |s| > 0 && e.weight >= s[0].weight {
      var t := InsertByWeight(e, s[1..]);
      assert NoDup(s[1..]) by {
        forall i, j | 0 <= i < j < |s[1..]| ensures s[1..][i] != s[1..][j] {
          assert s[1..][i] == s[i + 1] && s[1..][j] == s[j + 1];
        }
      }
      InsertNoDup(e, s[1..]);
      assert s[0] !in s[1..] by {
        forall i | 0 <= i < |s[1..]| ensures s[1..][i] != s[0] {
          assert s[1..][i] == s[i + 1];
        }
      }
      var r := [s[0]] + t;
      forall i, j | 0 <= i < j < |r| ensures r[i] != r[j] {
        if i > 0 {
          assert r[i] == t[i - 1] && r[j] == t[j - 1];
        } else {
          assert r[j] in t;
        }
      }
    }
  }

  /** An insertion sort by weight; the order among equal weights is not kept. */
  function SortByWeight(s: seq<Edge>): (r: seq<Edge>)
    ensures |r| == |s|
    ensures forall x :: x in r <==> x in s
    ensures SortedByWeight(r)
    ensures NoDup(s) ==> NoDup(r)
  {
    if |s| == 0 then []
    else
      var t := SortByWeight(s[1..]);
      InsertSorted(s[0], t);
      SortNoDup(s, t);
      InsertByWeight(s[0], t)
  }

  lemma SortNoDup(s: seq<Edge>, t: seq<Edge>)
    requires |s| > 0 && (forall x :: x in t <==> x in s[1..])
    requires NoDup(s[1..]) ==> NoDup(t)
    ensures NoDup(s) ==> NoDup(InsertByWeight(s[0], t))
  {
    if NoDup(s) {
      assert NoDup(s[1..]) by {
        forall i, j | 0 <= i < j < |s[1..]| ensures s[1..][i] != s[1..][j] {
          assert s[1..][i] == s[i + 1] && s[1..][j] == s[j + 1];
        }
      }
      assert s[0] !in s[1..] by {
        forall i | 0 <= i < |s[1..]| ensures s[1..][i] != s[0] {
          assert s[1..][i] == s[i + 1];
        }
      }
      InsertNoDup(s[0], t);
    }
  }

  /** getSortedEdges: every entry of the table exactly once, by non-decreasing weight. */
  method GetSortedEdges(w: Weights) returns (r: seq<Edge>)
    ensures NoDup(r) && SortedByWeight(r)
    ensures forall e :: e in r <==> IsEntry(w, e)
  {
    var es := Entries(w);
    r := SortByWeight(es);
  }

  /** No two edges share a weight. */
  ghost predicate DistinctWeights(w: Weights) {
    forall a, b :: a in w && b in w && a != b ==> w[a] != w[b]
  }

  /** uniqueWeights: sorts the entries and compares neighbours. */
  method UniqueWeights(w: Weights) returns (b: bool)
    ensures b <==> DistinctWeights(w)
  {
    var ar := GetSortedEdges(w);
    var i := 1;
    while i < |ar|
      invariant 1 <= i <= |ar| || |ar| == 0
      invariant forall k :: 0 < k < i && k < |ar| ==> ar[k - 1].weight < ar[k].weight
    {
      if ar[i].weight == ar[i - 1].weight {
        SameWeightEntries(w, ar[i - 1], ar[i]);
        return false;
      }
      i := i + 1;
    }
    StrictlySortedDistinct(w, ar);
    return true;
  }

  /** Two different entries with the same weight break `DistinctWeights`. */
  lemma SameWeightEntries(w: Weights, x: Edge, y: Edge)
    requires IsEntry(w, x) && IsEntry(w, y) && x != y && x.weight == y.weight
    ensures !DistinctWeights(w)
  {
    var a, b := (x.from, x.to), (y.from, y.to);
    assert a in w && b in w && a != b && w[a] == w[b];
  }

  /** A listing of all entries whose weights strictly increase shows distinct weights. */
  lemma StrictlySortedDistinct(w: Weights, ar: seq<Edge>)
    requires SortedByWeight(ar)
    requires forall e :: e in ar <==> IsEntry(w, e)
    requires forall k :: 0 < k < |ar| ==> ar[k - 1].weight < ar[k].weight
    ensures DistinctWeights(w)
  {
    forall a, b | a in w && b in w && a != b ensures w[a] != w[b] {
      var x, y := Edge(a.0, a.1, w[a]), Edge(b.0, b.1, w[b]);
      assert x in ar && y in ar;
      var i :| 0 <= i < |ar| && ar[i] == x;
      var j :| 0 <= j < |ar| && ar[j] == y;
      if i < j {
        assert ar[j - 1].weight < ar[j].weight;
        assert ar[i].weight <= ar[j - 1].weight;
      } else if j < i {
        assert ar[i - 1].weight < ar[i].weight;
        assert ar[j].weight <= ar[i - 1].weight;
      }
    }
  }

  /** Every edge has an opposite edge of the same weight. */
  ghost predicate WBiDirectional(wg: WGraph) {
    forall a, b :: (a, b) in wg.weights ==> (b, a) in wg.weights && wg.weights[(b, a)] == wg.weights[(a, b)]
  }

  /** isBiDirectional (weighted override): scans the table for an edge whose opposite is
      missing or weighs differently. */
  method IsBiDirectional(wg: WGraph) returns (b: bool)
    requires WValid(wg)
    ensures b <==> WBiDirectional(wg)
  {
    var rest := wg.weights.Keys;
    while rest != {}
      invariant rest <= wg.weights.Keys
      invariant forall e :: e in wg.weights && e !in rest ==> Mirrored(wg.weights, e)
      decreases rest
    {
      ghost var x := Pick(rest);
      var e :| e in rest;
      var ok := HasMirror(wg, e);
      if !ok {
        return false;
      }
      rest := rest - {e};
    }
    return true;
  }

  /** The edge opposite `e` exists and weighs the same. */
  ghost predicate Mirrored(w: Weights, e: (int, int)) {
    e in w && (e.1, e.0) in w && w[(e.1, e.0)] == w[e]
  }

  /** The test the loop of isBiDirectional makes for one edge: isEdgeFromTo on the opposite
      edge, then a comparison of the two weights. */
  method HasMirror(wg: WGraph, e: (int, int)) returns (b: bool)
    requires WValid(wg) && e in wg.weights
    ensures b <==> Mirrored(wg.weights, e)
  {
    if !IsEdgeFromTo(wg.nodes, e.1, e.0) {
      return false;
    }
    var back := WeightEdgeFromTo(wg, e.1, e.0);
    b := back.value == wg.weights[e];
  }
}

=== FILE: weighted_paths.dfy ===
/** Weights of walks over a weighted store, and negative cycles. The weight table is
    the `(from, to) -> weight` map WeightedGraph keeps beside the adjacency lists. */
module WeightedPaths {
  import opened Seqs
  import opened Nodes
  import opened Paths

  type Weights = map<(int, int), int>

  /** The weight of the edge a -> b (0 when the table has no entry; never used that way
      on a walk of a graph whose table matches its edges). */
  function EdgeWeight(w: Weights, a: int, b: int): int {
    if (a, b) in w then w[(a, b)] else 0
  }

  /** Sum of the edge weights along `p`. */
  function PathWeight(w: Weights, p: seq<int>): int
    decreases |p|
  {
    if |p| < 2 then 0 else EdgeWeight(w, p[0], p[1]) + PathWeight(w, p[1..])
  }

  /** A closed walk of at least one step with negative total weight. */
  ghost predicate NegCycle(g: Store, w: Weights) {
    exists c :: IsPath(g, c) && |c| >= 2 && c[0] == c[|c| - 1] && PathWeight(w, c) < 0
  }

  /** Gluing two walks that meet adds their weights. */
  lemma {:induction false} WeightConcat(w: Weights, p: seq<int>, q: seq<int>)
    requires |p| >= 1 && |q| >= 1 && p[|p| - 1] == q[0]
    ensures PathWeight(w, p + q[1..]) == PathWeight(w, p) + PathWeight(w, q)
    decreases |p|
  {
    if |p| == 1 {
      assert p + q[1..] == q;
    } else {
      WeightConcat(w, p[1..], q);
      assert (p + q[1..])[1..] == p[1..] + q[1..];
    }
  }

  /** Extending a walk by one edge adds that edge's weight. */
  lemma WeightAppend(w: Weights, p: seq<int>, x: int)
    requires |p| >= 1
    ensures PathWeight(w, p + [x]) == PathWeight(w, p) + EdgeWeight(w, p[|p| - 1], x)
  {
    var e := [p[|p| - 1], x];
    WeightConcat(w, p, e);
    assert e[1..] == [x];
  }

  /** Splitting a walk at position `k` splits its weight. */
  lemma WeightSplit(w: Weights, p: seq<int>, k: int)
    requires 0 <= k < |p|
    ensures PathWeight(w, p) == PathWeight(w, p[..k + 1]) + PathWeight(w, p[k..])
  {
    WeightConcat(w, p[..k + 1], p[k..]);
    assert p[..k + 1] + p[k..][1..] == p;
  }

  /** Sub-walks of a walk are walks. */
  lemma SubPath(g: Store, p: seq<int>, i: int, j: int)
    requires IsPath(g, p) && 0 <= i < j <= |p|
    ensures IsPath(g, p[i..j])
  {
    var q := p[i..j];
    forall k | 0 <= k < |q| - 1 ensures q[k + 1] in g[q[k]].adj {
      var a, b := p[i + k], p[i + k + 1];
      assert a in g && b in g[a].adj;
    }
  }

  /** Without negative cycles, every walk can be shortcut to a walk with no repeated node,
      with the same ends and no larger weight. */
  lemma {:induction false} Shortcut(g: Store, w: Weights, p: seq<int>) returns (q: seq<int>)
    requires IsPath(g, p) && !NegCycle(g, w)
    ensures IsPath(g, q) && NoDup(q) && q[0] == p[0] && q[|q| - 1] == p[|p| - 1]
    ensures PathWeight(w, q) <= PathWeight(w, p)
    decreases |p|
  {
    if NoDup(p) {
      return p;
    }
    var i, j :| 0 <= i < j < |p| && p[i] == p[j];
    var r := CutCycle(g, w, p, i, j);
    CycleWeight(g, w, p, i, j);
    q := Shortcut(g, w, r);
  }

  /** Cutting the closed stretch p[i..j] out of a walk leaves a shorter walk between the
      same ends, lighter by the weight of that stretch. */
  lemma CutCycle(g: Store, w: Weights, p: seq<int>, i: int, j: int) returns (r: seq<int>)
    requires IsPath(g, p) && 0 <= i < j < |p| && p[i] == p[j]
    ensures IsPath(g, r) && |r| < |p| && r[0] == p[0] && r[|r| - 1] == p[|p| - 1]
    ensures PathWeight(w, r) == PathWeight(w, p) - PathWeight(w, p[i..j + 1])
  {
    var head, tail := p[..i + 1], p[j..];
    SubPath(g, p, 0, i + 1);
    SubPath(g, p, j, |p|);
    WeightSplit(w, p, j);
    WeightSplit(w, p[..j + 1], i);
    assert p[..j + 1][..i + 1] == head && p[..j + 1][i..] == p[i..j + 1];
    r := PathConcat(g, head, tail);
    WeightConcat(w, head, tail);
  }

  /** A closed stretch of a walk weighs at least 0 when there is no negative cycle. */
  lemma CycleWeight(g: Store, w: Weights, p: seq<int>, i: int, j: int)
    requires IsPath(g, p) && 0 <= i < j < |p| && p[i] == p[j] && !NegCycle(g, w)
    ensures PathWeight(w, p[i..j + 1]) >= 0
  {
    SubPath(g, p, i, j + 1);
  }

  /** A walk with no repeated node has at most as many nodes as the store. */
  lemma SimpleLength(g: Store, q: seq<int>)
    requires IsPath(g, q) && NoDup(q)
    ensures |q| <= |g.Keys|
  {
    NoDupCard(q);
    assert forall x :: x in Elems(q) ==> x in g;
    SubsetCard(Elems(q), g.Keys);
  }
}
